=== FILE: README.md ===
# BitDataView in Dafny

`BitDataView` is a bit-addressed buffer over a byte array that doubles as a
double-ended bit queue. It holds:

- the bytes `__data`;
- a limit on the bit addresses that may be used, `__countBitsPushLimit`;
- a head counter, `__countBitsShifted`;
- a tail counter, `__countBitsPushed`;
- a flag that allows automatic growth.

The stored bits are the memory addresses from the head up to the tail. Logical bit `i` sits at memory address `shifted + i`. That is bit `a & 7` (LSB numbering) or `7 - (a & 7)` (MSB numbering) of byte `a >>> 3`.

On top of single bits, the class provides:

- a codec for sub-byte fields of up to 8 bits, written least significant bit first;
- endianness-aware codecs for unsigned and signed integers of up to 53 bits, built from 8-bit chunks of the sub-byte codec;
- codecs for 64-bit bigints, through a scratch word;
- byte-block copies, import and export.

These are offered as `setAt`/`getAt` (offset from the head), `setUntil`/`getUntil` (offset back from the tail), and `push`/`unshift`/`shift`/`pop`. Public wrappers check their arguments first, and the memory grows on either side when needed. Two small mode holders configure the buffer:

- `Endianness` selects the byte order;
- `BitNumbering` selects the bit order within a byte.

The model, module by module:

- `Arith`: powers of two and the division facts the proofs share.
- `BitString` (`BitString.dfy`): memory as a string of bits. The sub-byte writer and reader are `WriteBits` and `ReadBits`.
- `Memory` (`Memory.dfy`): the byte array seen as that string in either bit numbering (`MemBits`). Also the or-mask, and-not-mask and shift-and-one byte operations.
- `IntCodec` (`IntCodec.dfy`): the chunk loops of the integer codecs, as functions, and the sign corrections of the two signed readers.
- `Codec` (`Codec.dfy`): the five kinds of value (`Byte`, `Uint`, `Int`, `BigUint`, `BigInt`), their writers and readers, and the properties of the deque built from them.
- `Blocks` (`Blocks.dfy`): byte blocks read from the bit string and their layout properties.
- `HostView` (`HostView.dfy`): the ECMAScript DataView getters over the same bytes, as the reference for byte-aligned fields.
- `Checks` (`Checks.dfy`): `assertUintMax` and `assertIntMinMax`.
- `Endian` (`Endianness.dfy`) and `Numbering` (`BitNumbering.dfy`): the two mode holders, as classes.
- `BitView` (`BitDataView.dfy`): the class `BitDataView`. It holds an `array<bv8>` and the three counters, and has one method per operation of the source, with its loops and their invariants.

Every method of the class is proved against the specification functions above:

- the new memory, read as bits, is the old one after a given write;
- a value read is a given reading of the memory;
- the window of stored bits is kept, extended or cut as the operation promises.

The lemmas in `Codec`, `IntCodec`, `Blocks` and `HostView` then prove the promises themselves: round trips, frames, FIFO and LIFO order, and agreement with DataView.

## Model

| member | source | states |
|---|---|---|
| Checks.AssertUintMax | src/BitDataView.ts:59-66 | ok exactly for an integral value in 0..max, returning it. A non-integral value gives TypeError; an integral value out of range gives RangeError. |
| Checks.AssertIntMinMax | src/BitDataView.ts:67-74 | ok exactly for an integral value in min..max, returning it. Otherwise TypeError for a non-integral value and RangeError for one out of range. |
| Endian.Endianness.constructor | src/Endianness.ts:33-36 | the new holder has the initial byte order it is given, little endian when none is given |
| Endian.Endianness.IsBigEndian | src/Endianness.ts:38-40 | big endian exactly when not little endian: exactly one of the two tests holds |
| Endian.Endianness.IsLittleEndian | src/Endianness.ts:42-44 | little endian exactly when the mode is not big endian |
| Endian.Endianness.Get | src/Endianness.ts:60-62 | the mode read back, which is little endian exactly when the little-endian test holds |
| Endian.Endianness.SetUnchecked | src/Endianness.ts:64-66 | the mode becomes the given value, unconditionally |
| Endian.Endianness.SetBigEndianUnchecked | src/Endianness.ts:46-48 | the mode becomes big endian |
| Endian.Endianness.SetLittleEndianUnchecked | src/Endianness.ts:53-55 | the mode becomes little endian |
| Endian.Endianness.Set | src/Endianness.ts:67-71 | the mode becomes x; the result is true exactly when the old mode differed from x |
| Endian.Endianness.SetBigEndian | src/Endianness.ts:49-51 | the mode becomes big endian; the result reports a change exactly when it was little endian |
| Endian.Endianness.SetLittleEndian | src/Endianness.ts:56-58 | the mode becomes little endian; the result reports a change exactly when it was big endian |
| Endian.Endianness.SetRandom | src/Endianness.ts:76-82 | the coin picks little endian, its absence big endian |
| Endian.SetIsIdempotent | src/Endianness.ts:67-71 | two calls of `set(x)`: the first reports a change exactly when the mode was not x, the second never does, and the mode is x |
| Numbering.BitNumbering.constructor | src/BitNumbering.ts:31-34 | the new holder has the initial bit order it is given, LSB when none is given, and has sent no change event |
| Numbering.BitNumbering.IsMSB | src/BitNumbering.ts:36-38 | MSB exactly when not LSB |
| Numbering.BitNumbering.IsLSB | src/BitNumbering.ts:40-42 | LSB exactly when the mode is not MSB |
| Numbering.BitNumbering.Get | src/BitNumbering.ts:44-46 | the mode read back, which is LSB exactly when the LSB test holds |
| Numbering.BitNumbering.Set | src/BitNumbering.ts:48-61 | the mode becomes x. The result is true exactly when it changed, and a change event is counted exactly then. |
| Numbering.BitNumbering.SetLSB | src/BitNumbering.ts:62-64 | the mode becomes LSB; change reported, and an event counted, exactly when it was MSB |
| Numbering.BitNumbering.SetMSB | src/BitNumbering.ts:65-67 | the mode becomes MSB; change reported, and an event counted, exactly when it was LSB |
| Numbering.BitNumbering.SetRandom | src/BitNumbering.ts:68-71 | the coin picks LSB, its absence MSB; the result reports whether that changed the mode, and one change event is counted exactly then |
| Numbering.SetIsIdempotent | src/BitNumbering.ts:48-61 | two calls of `set(x)`: the first reports a change exactly when the mode was not x, the second never does, the mode is x, and exactly one change event was sent when the first call changed the mode, none otherwise |
| BitString.WriteBitsStores | src/BitDataView.ts:541-564 | the sub-byte writer stores bit j of the value at address a + j for j < n and changes no other address |
| BitString.ReadBitsOfHolds | src/BitDataView.ts:575-586 | the sub-byte reader returns the value modulo 2^n of whatever n bits lie at the address, least significant first |
| BitString.ReadBitsLocal | src/BitDataView.ts:575-586 | the sub-byte reader depends only on the n bits it reads |
| BitString.SubByteRoundTrip | src/BitDataView.ts:541-586 | reading n ≤ 8 bits back after writing v gives v modulo 2^n |
| Memory.MemBitsIndex | src/BitDataView.ts:186-223 | bit address x of the memory is bit `x & 7` (LSB) or `7 - (x & 7)` (MSB) of byte `x >>> 3` |
| Memory.MsbGetterBitIndex | src/BitDataView.ts:218-223 | the MSB getter's `7 - a & 7`, which parses as `(7 - a) & 7`, is the bit index `7 - (a & 7)` that the MSB setters use |
| Memory.MemBitsOr | src/BitDataView.ts:192-197 | or-ing the mask of the numbered bit into the byte sets exactly that bit of the bit string |
| Memory.MemBitsAndNot | src/BitDataView.ts:186-191 | and-ing with the inverted mask clears exactly that bit of the bit string |
| Memory.MemBitsUpdate | src/BitDataView.ts:472-478 | replacing a byte by one that differs only in the numbered bit of address x sets exactly bit x of the bit string |
| Memory.MemBitsGet | src/BitDataView.ts:212-223 | `(byte >>> k) & 1` is the bit at that address, as 0 or 1 |
| Memory.MemBitsAppendZeros | src/BitDataView.ts:278-286 | appending zero bytes appends zero bits and leaves every old bit at its address |
| Memory.MemBitsPrependZeros | src/BitDataView.ts:293-306 | prepending k zero bytes shifts every old bit up by 8k addresses |
| Memory.ReadByteLSB | src/BitDataView.ts:359-382 | in LSB numbering the 8 bits of byte k read back as the byte |
| Memory.ReadByteMSB | src/BitDataView.ts:359-382 | in MSB numbering they read back as the byte with its bits reversed |
| IntCodec.WriteUintLEStores | src/BitDataView.ts:615-626 | the little-endian unsigned writer stores bit j of the value at a + j for j < n, and nothing else |
| IntCodec.WriteIntLEStores | src/BitDataView.ts:647-658 | the little-endian signed writer, counting down by 7 per chunk, stores bits of the value over IntLEExtent(n) ≥ n addresses |
| IntCodec.WriteUintBEStores | src/BitDataView.ts:627-637 | the big-endian writer stores the field chunk by chunk from its end, the partial chunk first, and changes nothing outside the field |
| IntCodec.WriteChunksStores | src/BitDataView.ts:782-790 | the 64-bit chunk loop stores scratch byte i in chunk i from the field's end and changes nothing outside the field |
| IntCodec.UintLERoundTrip | src/BitDataView.ts:612-692 | little-endian unsigned, any width: the reader returns the written value modulo 2^n |
| IntCodec.UintBERoundTrip | src/BitDataView.ts:627-703 | big-endian unsigned, for widths that are a multiple of 8 or below 8: the reader returns the value modulo 2^n |
| IntCodec.DecodeInt53OfResidue | src/BitDataView.ts:713-752 | the 53-bit sign correction, which tests bit n − 2, recovers v from v mod 2^n for every v in [−2^(n−2), 2^(n−2)) |
| IntCodec.IntLEReadsResidue | src/BitDataView.ts:644-692 | after the signed little-endian write, the n-bit field reads v modulo 2^n |
| IntCodec.IntLERoundTrip | src/BitDataView.ts:644-752 | signed little endian round-trips every v in [−2^(n−2), 2^(n−2)) |
| IntCodec.IntBERoundTrip | src/BitDataView.ts:659-752 | signed big endian round-trips in that range for widths that are a multiple of 8 or below 8 |
| IntCodec.DecodeBigInt64IsTwosComplement | src/BitDataView.ts:887-935 | the 64-bit signed reader returns r − 2^n when bit n − 1 is set and r otherwise: two's complement |
| IntCodec.DecodeBigInt64OfResidue | src/BitDataView.ts:887-935 | it recovers v from v mod 2^n for every v in [−2^(n−1), 2^(n−1)) |
| IntCodec.BigBEIsUintBE | src/BitDataView.ts:761-792 | the big-endian 64-bit writer at any width stores what the big-endian Uint writer stores |
| IntCodec.BigLEStoresTopBits | src/BitDataView.ts:761-792 | the little-endian 64-bit writer at a width of whole bytes stores the top n bits of the 64-bit word, not the low ones |
| IntCodec.BigLE64IsUintLE | src/BitDataView.ts:761-792 | at width 64 the little-endian 64-bit writer stores what the little-endian Uint writer stores |
| IntCodec.UintBEPartialChunkReadsBack16 | src/BitDataView.ts:627-703 | big endian with a partial chunk does not round-trip: 256 written in a 12-bit field reads back as 16 |
| IntCodec.Int53SignBitReadsBack | src/BitDataView.ts:745-749 | the 53-bit sign test at bit n − 2 misreads values outside [−2^(n−2), 2^(n−2)): 64 in 8 bits reads back as −192, and −128 as 128 |
| IntCodec.IntLEOverrunsField | src/BitDataView.ts:647-658 | the signed little-endian writer runs past its field: −1 into the 8 bits at 0 also sets bit 8 |
| IntCodec.BigLEPartialReadsBackTop | src/BitDataView.ts:782-790 | a little-endian 64-bit write of 5 into 8 bits stores the word's top byte and reads back as 0 |
| Codec.EncodeIsWrite | src/BitDataView.ts:612-836 | the writer of each kind is the sub-byte, LE/BE 53-bit or 64-bit chunk writer the source dispatches to |
| Codec.DecodeIsRead | src/BitDataView.ts:678-935 | the reader of each kind is the unsigned reading in the current byte order, with the kind's sign correction |
| Codec.DecodeEncode | src/BitDataView.ts:612-935 | wherever a kind round-trips, reading a field back after writing it gives the value (signed kinds) or the value modulo 2^n (the rest) |
| Codec.BigReadsResidue | src/BitDataView.ts:761-882 | the 64-bit writers leave v mod 2^n in the field at width 64 (little endian) and at whole-byte or sub-byte widths (big endian) |
| Codec.EncodeFrame | src/BitDataView.ts:612-836 | a write changes no bit outside its extent: n bits for every writer, IntLEExtent(n) for signed little endian |
| Codec.EncodeKeepsBelow | src/BitDataView.ts:612-836 | every bit before the field's start is untouched |
| Codec.EncodeKeepsAbove | src/BitDataView.ts:612-836 | for writers that stay inside their field, every bit after its end is untouched |
| Codec.DecodeLocal | src/BitDataView.ts:678-935 | a read depends only on the n bits of its field |
| Codec.FieldSurvives | src/BitDataView.ts:612-935 | a field reads the same after a write whose extent does not overlap it |
| Codec.PushKeeps | src/BitDataView.ts:1222-1225 | a push at the tail leaves the window before it unchanged, and the pushed field reads back as written where the kind round-trips |
| Codec.UnshiftKeeps | src/BitDataView.ts:1233-1236 | an unshift before the head leaves the old window after it unchanged when the writer stays in its field, and the new field reads back |
| Codec.PushPushOrder | src/BitDataView.ts:1222-1260 | two pushes leave both fields readable in push order, first then second: the FIFO order that shift and pop rely on |
| Codec.UnshiftUnshiftOrder | src/BitDataView.ts:1233-1248 | two unshifts leave the later one first and both readable, when the second writer stays in its field |
| Codec.UnshiftIntLEClobbers | src/BitDataView.ts:644-658 | the signed little-endian writer breaks that: unshifting 0 and then −1 as 8-bit Ints leaves the first field reading 1 |
| Blocks.ChunkIndex | src/BitDataView.ts:977-995 | a block of `count` bits has ceil(count / 8) chunks; chunk i lies inside the block and is not empty |
| Blocks.BlockAtIndex | src/BitDataView.ts:977-995 | byte i of a block read forward is the sub-byte reading of chunk i, which starts 8i bits after the address and is short only at the end |
| Blocks.BlockBeforeIndex | src/BitDataView.ts:1031-1048 | byte i of a block read backward is the chunk that ends 8i bits before the end position |
| Blocks.FieldWriteReads | src/BitDataView.ts:541-586 | a write of a value below 2^n reads back as that value |
| Blocks.ByteWrite | src/BitDataView.ts:938-951 | an 8-bit write stores the byte, and every bit and every other byte field outside it is unchanged |
| Blocks.FillAbove | src/BitDataView.ts:947-950 | the forward byte loop keeps its invariant: bytes lo..hi are in place and all else is as before |
| Blocks.FillBelow | src/BitDataView.ts:942-944 | the backward byte loop keeps the same invariant, growing the filled range downwards |
| Blocks.FilledBlock | src/BitDataView.ts:938-951 | once every byte is in place, the block read back from that address is the bytes |
| Blocks.BlockOfBytes | src/BitDataView.ts:977-995 | a block whose every 8-bit chunk reads as the given byte is those bytes |
| Blocks.ChunkRead | src/BitDataView.ts:977-995 | one step of the block reader stores the chunk's sub-byte reading at its place in the result |
| Blocks.ChunkReadBefore | src/BitDataView.ts:1031-1048 | one step of the pop loop stores the chunk ending at the current tail as byte i |
| Blocks.BlockAtSlice | src/BitDataView.ts:359-382 | the block read from the window at 0 is the block read from memory at the head |
| Blocks.BlockBeforeSlice | src/BitDataView.ts:1031-1048 | the block ending at the window's end is the block ending at the tail |
| Blocks.ExportOfImportLSB | src/BitDataView.ts:349-382 | in LSB numbering, exporting right after importing bytes gives the bytes back |
| Blocks.ExportOfImportMSB | src/BitDataView.ts:349-382 | in MSB numbering it gives each byte back with its bits reversed |
| Blocks.PopReversesPush | src/BitDataView.ts:1031-1048 | popping the 8·L bits of L pushed bytes returns them last byte first |
| HostView.ReadUintLEIsHost | src/BitDataView.ts:678-692 | over LSB-numbered memory, the little-endian reader of whole bytes at a byte offset is DataView's little-endian getter |
| HostView.ReadUintBEIsHost | src/BitDataView.ts:693-703 | the big-endian reader is DataView's big-endian getter |
| HostView.ReadingIsHost | src/BitDataView.ts:678-706 | whole-byte unsigned reading at a byte offset, in either byte order, equals the DataView getter in that order |
| HostView.HostReadsUnsigned | src/BitDataView.ts:612-792 | a byte-aligned Uint write of 1–6 bytes, or a BigUint write of 8 bytes, in LSB numbering: DataView's getter in the same byte order reads v mod 2^(8k) |
| HostView.HostReadsSigned | src/BitDataView.ts:644-836 | a byte-aligned Int write of 1–6 bytes or BigInt write of 8 bytes, of any v in the k-byte two's complement range [−2^(8k−1), 2^(8k−1)): DataView's signed getter in the same byte order reads v itself |
| BitView.BytesHoldLimit | src/BitDataView.ts:141-143 | ceil(bits / 8) bytes hold a limit of `bits` bits |
| BitView.CheckField | src/BitDataView.ts:1762-1766 | ok exactly for an integral width in the kind's range and an integral offset with offset + width ≤ stored. The width is checked first: TypeError if non-integral, RangeError if out of range. Then the offset: TypeError if non-integral, RangeError if outside 0..stored − width. |
| BitView.CheckWidth | src/BitDataView.ts:1808-1812 | ok exactly for an integral width in the kind's range; TypeError if non-integral, RangeError otherwise |
| BitView.NewWithBitCount | src/BitDataView.ts:138-143 | `new BitDataView(bits)` succeeds exactly for an integer bits > 0, with ceil(bits / 8) zero bytes, limit = bits and an empty window; otherwise TypeError |
| BitView.BitDataView.constructor | src/BitDataView.ts:131-137 | 64 zero bytes, limit 512, growth allowed, empty window, little endian, LSB |
| BitView.BitDataView.WithBitCount | src/BitDataView.ts:138-143 | ceil(bits / 8) zero bytes, limit = bits, no growth, empty window |
| BitView.BitDataView.FromBytes | src/BitDataView.ts:144-149 | the given bytes, limit 8 × length, no growth, empty window |
| BitView.BitDataView.CountStoredBits | src/BitDataView.ts:182-184 | the number of stored bits is the length of the window |
| BitView.BitDataView.AddressOfWindow | src/BitDataView.ts:487-489 | index i counted from the head is memory address `shifted + i`: stored bit i is the memory bit there, before the tail |
| BitView.BitDataView.AvailableBitsToExpandRight | src/BitDataView.ts:258-260 | the room left before the right ceiling 0xFFFFFFFE, non-negative exactly while the limit is within it |
| BitView.BitDataView.AvailableBitsToPush | src/BitDataView.ts:261-265 | without growth, the free bits up to the limit; with growth, those plus the room left to expand right |
| BitView.BitDataView.AvailableBitsToUnshift | src/BitDataView.ts:266-270 | without growth, the free bits before the head. With growth, at least those, plus whole bytes only. |
| BitView.BitDataView.OrBitInMemory | src/BitDataView.ts:192-210 | the bit at the address becomes 1 in the current numbering, nothing else changes |
| BitView.BitDataView.AndBitInMemory | src/BitDataView.ts:186-204 | the bit at the address becomes 0, nothing else changes |
| BitView.BitDataView.GetBitInMemory | src/BitDataView.ts:212-223 | the bit at the address, as 0 or 1, in the current numbering |
| BitView.BitDataView.SetBitInMemory | src/BitDataView.ts:472-478 | the bit at the address becomes the given bit, nothing else changes |
| BitView.BitDataView.WriteBitsAt | src/BitDataView.ts:545-563 | the loop leaves the memory as the sub-byte writer specifies |
| BitView.BitDataView.ReadBitsAt | src/BitDataView.ts:579-585 | the loop returns the sub-byte reading |
| BitView.BitDataView.SetAtUint8orLess | src/BitDataView.ts:541-564 | writes n ≤ 8 bits at head + offset, as the sub-byte writer specifies |
| BitView.BitDataView.GetAtUint8orLess | src/BitDataView.ts:575-586 | reads n ≤ 8 bits at head + offset |
| BitView.BitDataView.WriteUintBEAt | src/BitDataView.ts:627-637 | the big-endian chunk loop leaves the memory as the big-endian writer specifies |
| BitView.BitDataView.WriteUintLEAt | src/BitDataView.ts:615-626 | the unsigned little-endian chunk loop, as its writer |
| BitView.BitDataView.WriteIntLEAt | src/BitDataView.ts:647-658 | the signed little-endian chunk loop (width decreased by 7 per chunk), as its writer |
| BitView.BitDataView.SetAtUint53orLess | src/BitDataView.ts:612-638 | dispatches on the current byte order to the LE or BE unsigned writer |
| BitView.BitDataView.SetAtInt53orLess | src/BitDataView.ts:644-670 | dispatches to the signed LE writer or the shared BE writer |
| BitView.BitDataView.ReadUintLEAt | src/BitDataView.ts:683-692 | the little-endian reading loop returns the little-endian reading |
| BitView.BitDataView.ReadUintBEAt | src/BitDataView.ts:693-703 | the big-endian reading loop returns the big-endian reading |
| BitView.BitDataView.GetAtUnsigned | src/BitDataView.ts:678-706 | the unsigned reading at head + offset in the current byte order |
| BitView.BitDataView.GetAtUint53orLess | src/BitDataView.ts:678-706 | the unsigned reading at head + offset |
| BitView.BitDataView.GetAtInt53orLess | src/BitDataView.ts:713-752 | the unsigned reading with the 53-bit sign correction (bit n − 2) |
| BitView.BitDataView.WriteChunksAt | src/BitDataView.ts:782-790 | the 64-bit chunk loop leaves the memory as the chunk writer specifies |
| BitView.BitDataView.SetAtBigUint64orLess | src/BitDataView.ts:761-792 | writes the scratch bytes of the value (stored in the opposite byte order) with the chunk loop at head + offset |
| BitView.BitDataView.SetAtBigInt64orLess | src/BitDataView.ts:798-836 | writes the scratch bytes of the value in the same way |
| BitView.BitDataView.GetAtBigUint64orLess | src/BitDataView.ts:856-882 | the unsigned reading at head + offset |
| BitView.BitDataView.GetAtBigInt64orLess | src/BitDataView.ts:887-935 | the unsigned reading with the 64-bit two's complement correction |
| BitView.BitDataView.SetAt | src/BitDataView.ts:612-836 | the `_setAt_` writer of each kind: the memory after the kind's write at head + offset |
| BitView.BitDataView.GetAt | src/BitDataView.ts:678-935 | the `_getAt_` reader of each kind at head + offset |
| BitView.BitDataView.SetUntil | src/BitDataView.ts:1201-1203 | writes the field that ends `until` bits before the tail, i.e. at tail − width − until |
| BitView.BitDataView.GetUntil | src/BitDataView.ts:1212-1214 | reads the field at tail − width − until |
| BitView.BitDataView.PushNoExpand | src/BitDataView.ts:1222-1225 | the tail moves on by n and the value is written at the old tail. The old window is a prefix of the new one, and the field reads back where the kind round-trips. |
| BitView.BitDataView.UnshiftNoExpand | src/BitDataView.ts:1233-1236 | the head moves back by n and the value is written at the new head; the field reads back, and the old window follows it when the writer stays in its field |
| BitView.BitDataView.Shift | src/BitDataView.ts:1244-1248 | returns the first n stored bits read as the kind; the head moves on by n and the window loses exactly those bits |
| BitView.BitDataView.Pop | src/BitDataView.ts:1256-1260 | returns the last n stored bits read as the kind; the tail moves back by n and the window loses exactly those bits |
| BitView.BitDataView.ExpandRight | src/BitDataView.ts:278-286 | Succeeds exactly with growth allowed and 0 ≤ k ≤ 0xFFFFFFFE − limit; otherwise fails with the assert's error, or a plain error without growth, changing nothing. On success the limit grows by k, the bytes are kept and zero bits are appended; the window is unchanged. The step defaults to 2048 bits. |
| BitView.BitDataView.ExpandLeft | src/BitDataView.ts:293-306 | Succeeds exactly with growth allowed, k ≤ 0xFFFFFFFF − limit and k a multiple of 8; otherwise it changes nothing. On success limit, head and tail grow by k and k zero bits are prepended, so the window is unchanged. The step defaults to 2048 bits. |
| BitView.BitDataView.ExpandRightIfNeed | src/BitDataView.ts:316-324 | Grows by max(preferred, n) only when tail + n passes the limit; afterwards tail + n ≤ limit. Fails with RangeError (too large) or a plain error (no growth), changing nothing. The preferred step defaults to 2048 bits. |
| BitView.BitDataView.ExpandLeftIfNeed | src/BitDataView.ts:335-342 | Grows on the left by max(preferred, n) only when head < n; afterwards head ≥ n. Fails as ExpandLeft does, changing nothing. The preferred step defaults to 2048 bits. |
| BitView.BitDataView.CheckedSetAt | src/BitDataView.ts:1762-1766 | Writes exactly when CheckField accepts, and reports its error otherwise, before any write. On success the memory is the kind's write at head + offset, which reads back where the kind round-trips. |
| BitView.BitDataView.CheckedSetUntil | src/BitDataView.ts:1774-1778 | the same, for the field ending `until` bits before the tail |
| BitView.BitDataView.CheckedGetAt | src/BitDataView.ts:1785-1789 | returns the kind's reading exactly when CheckField accepts, else its error |
| BitView.BitDataView.CheckedGetUntil | src/BitDataView.ts:1797-1801 | the same, for the field ending `until` bits before the tail |
| BitView.BitDataView.CheckedPush | src/BitDataView.ts:1808-1812 | Succeeds exactly when the width is valid and the tail fits or can grow; each failure reports its error and changes nothing. On success, after any growth, the value is pushed, the old window is kept as a prefix, and the field reads back. The new limit is the old one, or the old one plus max(2048, n) when the tail would have passed it. |
| BitView.BitDataView.CheckedUnshift | src/BitDataView.ts:1819-1823 | Succeeds exactly when the width is valid and there is room before the head, or the buffer can grow by the default step on the left. On success the value is written at the new head and reads back. The limit, head and tail all grow by the same step g (0 or 2048). |
| BitView.BitDataView.CheckedShift | src/BitDataView.ts:1830-1833 | checks only the width; on success returns the first n stored bits as the kind and drops them from the window |
| BitView.BitDataView.CheckedPop | src/BitDataView.ts:1840-1843 | checks only the width; on success returns the last n stored bits as the kind and drops them from the window |
| BitView.BitDataView.Clear | src/BitDataView.ts:228-231 | head and tail become 0: the window is empty; memory and limit stay |
| BitView.BitDataView.PushNothing | src/BitDataView.ts:436-440 | succeeds exactly when the count passes assertUintMax against the available bits; the tail then moves on and the window gains the bits already in memory |
| BitView.BitDataView.SetAtBit | src/BitDataView.ts:487-489 | the bit at head + offset becomes the value |
| BitView.BitDataView.GetAtBit | src/BitDataView.ts:503-505 | the bit at head + offset as 0 or 1 |
| BitView.BitDataView.PushBitNoExpand | src/BitDataView.ts:511-514 | the bit is stored at the tail and the window gains exactly that bit |
| BitView.BitDataView.PushBits | src/BitDataView.ts:520-527 | Succeeds exactly when the bit is 0 or 1, the count is within the available bits, and the tail fits or can grow. The window then gains `count` copies of the bit. Errors are reported in the source's order and change nothing. The new limit is the old one, or the old one plus max(2048, count) when needed. The memory is the old one plus the growth zeros, changed only at the pushed addresses. The count defaults to 1. |
| BitView.BitDataView.PushBitsNoExpand | src/BitDataView.ts:524-525 | the loop pushes the bit `count` times: the window gains `count` copies, and memory changes only at the addresses the tail passes over |
| BitView.BitDataView.SetAtBytes | src/BitDataView.ts:938-951 | the block at head + offset becomes the bytes, in reverse order when little endian, and every other bit is unchanged. The offset defaults to 0 and the byte order to big endian. |
| BitView.BitDataView.SetUntilBytes | src/BitDataView.ts:952-955 | the same for the block ending `until` bits before the tail. The offset defaults to 0 and the byte order to big endian. |
| BitView.BitDataView.SetAtBytesCounted | src/BitDataView.ts:1067-1072 | a plain error, changing nothing, unless the count is 8 × length; otherwise as SetAtBytes |
| BitView.BitDataView.PushBytes | src/BitDataView.ts:960-975 | Succeeds exactly when the bytes fit or the buffer can grow. The bytes are then stored in order at the old tail, the old window is a prefix of the new one, and no other bit changes. A failure changes nothing. The new limit is the old one, or the old one plus max(2048, 8 × length) when needed. |
| BitView.BitDataView.PushBytesNoExpand | src/BitDataView.ts:962-963 | the tail moves on by 8 per byte and the bytes are stored in order at the old tail |
| BitView.BitDataView.GetAtBytes | src/BitDataView.ts:977-995 | ceil(count / 8) bytes, chunk i read from head + offset + 8i (the last chunk short), in reverse order when little endian. Big endian by default. |
| BitView.BitDataView.Export | src/BitDataView.ts:359-382 | the stored window as ceil(stored / 8) bytes, chunk i from window bits 8i.., in reverse order when little endian; nothing changes. Big endian by default. |
| BitView.BitDataView.Import | src/BitDataView.ts:349-358 | the memory becomes a copy of the bytes, limit = tail = 8 × length, head 0: the window is the bytes' bits |
| BitView.BitDataView.ShiftBytes | src/BitDataView.ts:1003-1021 | Succeeds exactly when the count is an integer in 0..stored. It then returns the first count window bits as bytes, in reverse order when little endian, and drops them from the window. The count defaults to all stored bits, the byte order to big endian. |
| BitView.BitDataView.ShiftChunks | src/BitDataView.ts:1010-1016 | the loop returns the chunks from the old head, placed from the end when little endian, and moves the head on by n |
| BitView.BitDataView.PopBytes | src/BitDataView.ts:1031-1048 | Succeeds exactly when the count is an integer in 0..stored. It then returns the last count window bits as chunks taken from the end, and drops them from the window. The count defaults to all stored bits. |
| BitView.BitDataView.PopChunks | src/BitDataView.ts:1036-1043 | the loop returns chunk i ending 8i bits before the old tail, and moves the tail back by n |

## Left out

- Float32 and Float64 fields, which use IEEE 754 binary32/binary64 through the host DataView (src/BitDataView.ts:1111-1131 and their wrappers); floating point is not modelled.
- The DataView-object wrappers `_setAt_DataView`, `_getAt_DataView` and the `…DataView` deque and public variants. Byte blocks are modelled as `seq<bv8>` by the byte-block methods instead.
- The module-level scratch buffer, `_setAt_TempBuffer`, `_getAt_TempBuffer` and `_getAt_toUint8Array_noAsserts`. Only the 64-bit codecs use the scratch, and the model computes its bytes as a local value (`Uint64Bytes`).
- `clone`: its fast path aliases part of the memory; the strict copy is not modelled either.
- `toString` and `toString01` of all three classes: diagnostics only.
- The `EventTarget` plumbing of `BitNumbering`. Events are counted in `changeEvents`. The BitDataView reads the current numbering at each bit access, which is what the rebinding listener achieves.
- Aliasing of the caller's `Uint8Array` or `ArrayBuffer` by the constructor and by `importUint8Array`: the model copies the bytes.
- The `ArrayBuffer` and unknown-type branches of the constructor. Dafny's types admit only a bit count or bytes, so the `Invalid bufferInfo type` TypeError has no model.
- `_unshift_Nothing_noAsserts`: despite its name it moves the head forward, and nothing in the core calls it.
- Randomness: `SetRandom` takes the coin as a parameter.
- JavaScript number semantics beyond exact integers. Values are unbounded `int`, and the `>>>`, `&` and `|` arithmetic is modelled on values below 2^32.
- The value arguments of the public wrappers are never range-checked by the source, and neither are they in the model. Writers keep the value modulo 2^n, or the bits the chunk loop stores.
- PushNothing: the source lets an auto-growing buffer push past its limit without growing. The model requires the pushed count to stay within the limit whenever the assert passes, instead of modelling a tail beyond the memory.
- CheckedShift: `shift…` checks only the width. The model requires the stored count to cover a valid width instead of modelling a head past the tail.
- CheckedPop: the same precondition as CheckedShift, for `pop…`.
- SetAtBytes: the model requires the block to lie inside the memory. The source drops writes past the end of the typed array, and those are not modelled here.
- SetUntilBytes: requires the block to lie inside the window, as SetAtBytes does.
- SetAtBytesCounted: requires the block to lie inside the memory when the count is 8 × length.
- GetAtBytes: the count parameter of `_getAt_Uint8Array_noAsserts` defaults to `getCountStoredBits()`. The model has no default there: the method is stated for any memory address, not only for a consistent view where the stored count is defined.
- UnshiftNoExpand: the old window is promised to follow the new field only when the writer stays inside its field. The signed little-endian writer overwrites the first bit after it (see Codec.UnshiftIntLEClobbers).
- CheckedUnshift: the same restriction as UnshiftNoExpand.
- BitView.BitDataView.SetAtBigUint64orLess: no round trip is promised for little-endian widths below 64, where the source stores the top bytes of the word (see IntCodec.BigLEPartialReadsBackTop).
- BitView.BitDataView.SetAtBigInt64orLess: the same as SetAtBigUint64orLess.

=== FILE: Arith.dfy ===
/** Powers of two, two's-complement bits of integers, and the Euclidean
    division facts that the bit codecs rest on. */
module Arith {

  /** 2^n. */
  function Pow2(n: nat): (r: nat)
    ensures r >= 1
  {
    if n == 0 then 1 else 2 * Pow2(n - 1)
  }

  /** Bit j of the two's-complement form of v (negative values are sign
      extended without end).  Dafny's `/` and `%` on int are Euclidean,
      which for a positive divisor is floor division: `Math.floor(v / 2^j)`. */
  function Bit(v: int, j: nat): bool
  {
    (v / Pow2(j)) % 2 == 1
  }

  lemma {:induction false} Pow2Add(m: nat, n: nat)
    ensures Pow2(m + n) == Pow2(m) * Pow2(n)
  {
    if m > 0 {
      Pow2Add(m - 1, n);
      assert Pow2(m + n) == 2 * Pow2(m - 1 + n);
    }
  }

  lemma {:induction false} Pow2Strict(m: nat, n: nat)
    requires m < n
    ensures 2 * Pow2(m) <= Pow2(n)
  {
    if m + 1 < n {
      Pow2Strict(m, n - 1);
    }
  }

  /** A product of two non-negative factors is non-negative. */
  lemma MulNonneg(x: int, y: int)
    requires x >= 0 && y >= 0
    ensures x * y >= 0
  {
  }

  /** A product of a positive factor k and a positive d is at least d. */
  lemma MulAtLeast(k: int, d: int)
    requires k >= 1 && d > 0
    ensures k * d >= d
  {
    assert k * d == (k - 1) * d + d;
    assert (k - 1) * d >= 0;
  }

  /** Quotient and remainder are unique. */
  lemma DivModUnique(x: int, d: int, q: int, r: int)
    requires d > 0 && x == q * d + r && 0 <= r < d
    ensures x / d == q && x % d == r
  {
    var q', r' := x / d, x % d;
    assert x == q' * d + r';
    if q' < q {
      assert (q - q') * d == r' - r by {
        assert (q - q') * d == q * d - q' * d;
      }
      MulAtLeast(q - q', d);
    } else if q' > q {
      assert (q' - q) * d == r - r' by {
        assert (q' - q) * d == q' * d - q * d;
      }
      MulAtLeast(q' - q, d);
    }
  }

  lemma DivDivModSplit(x: int, p: int, q: int)
    requires p > 0 && q > 0
    ensures x / (p * q) == (x / p) / q
    ensures x % (p * q) == x % p + p * ((x / p) % q)
  {
    var a, b := x / p, x % p;
    var c, e := a / q, a % q;
    assert x == p * a + b;
    assert a == q * c + e;
    assert p * a == (p * q) * c + p * e by {
      MulAddDistrib(p, q * c, e);
      MulAssoc(p, q, c);
    }
    assert p * e + b < p * q by {
      MulMono(p, e, q - 1);
      MulAddDistrib(p, q - 1, 1);
    }
    MulNonneg(p, e);
    DivModUnique(x, p * q, c, p * e + b);
  }

  /** Multiplying by a positive factor keeps order. */
  lemma MulMono(p: int, y: int, z: int)
    requires p > 0 && y <= z
    ensures p * y <= p * z
  {
    MulNonneg(p, z - y);
    MulAddDistrib(p, y, z - y);
  }

  /** Bit t of x / 2^s is bit s + t of x. */
  lemma BitOfDiv(x: int, s: nat, t: nat)
    ensures Bit(x / Pow2(s), t) == Bit(x, s + t)
  {
    Pow2Add(s, t);
    DivDivModSplit(x, Pow2(s), Pow2(t));
  }

  /** The same, with the bit position of `x` given. */
  lemma BitOfDivAt(x: int, s: nat, t: nat, j: nat)
    requires j == s + t
    ensures Bit(x / Pow2(s), t) == Bit(x, j)
  {
    BitOfDiv(x, s, t);
  }

  /** Reducing modulo 2^m keeps every bit below m. */
  lemma BitOfMod(x: int, m: nat, t: nat)
    requires t < m
    ensures Bit(x % Pow2(m), t) == Bit(x, t)
  {
    var T, K := Pow2(t), Pow2(m - t - 1);
    Pow2Add(t, m - t);
    Pow2Add(1, m - t - 1);
    ModOfModDigit(x, T, K);
  }

  lemma ModOfModDigit(x: int, T: int, K: int)
    requires T > 0 && K > 0
    ensures ((x % (T * (2 * K))) / T) % 2 == (x / T) % 2
  {
    var y := x / T;
    DivDivModSplit(x, T, 2 * K);
    DivModUnique(x % (T * (2 * K)), T, y % (2 * K), x % T);
    DivDivModSplit(y, 2, K);
    DivModUnique(y % (2 * K), 2, (y / 2) % K, y % 2);
  }

  /** Dropping the lowest bit: bit j of v / 2 is bit j + 1 of v. */
  lemma BitOfHalf(v: int, j: nat)
    ensures Bit(v / 2, j) == Bit(v, j + 1)
  {
    BitOfDiv(v, 1, j);
  }

  lemma MulAddDistrib(x: int, y: int, z: int)
    ensures x * (y + z) == x * y + x * z
    ensures (y + z) * x == y * x + z * x
  {
  }

  lemma MulAssoc(x: int, y: int, z: int)
    ensures x * (y * z) == (x * y) * z
  {
  }
}

=== FILE: BitDataView.dfy ===
/** BitDataView: a bit-addressed buffer over a byte array, used as a
    double-ended queue of bits.  The stored bits are the memory bit
    addresses `shifted .. pushed - 1`; `push` and `pop` work at the tail,
    `unshift` and `shift` at the head, `setAt`/`getAt` at an index counted
    from the head and `setUntil`/`getUntil` at one counted back from the
    tail.  `limit` is the number of addressable bits. */
module BitView {
  import opened Arith
  import opened BitString
  import opened IntCodec
  import opened Codec
  import opened Memory
  import opened Checks
  import opened Endian
  import opened Numbering
  import opened Blocks

  /** The default growth step, in bits. */
  const DefaultExpandBits: nat := 256 * 8

  /** The largest limit `expandRight` may reach. */
  const RightCeiling: int := 0xFFFF_FFFE

  /** The largest limit `expandLeft` may reach. */
  const LeftCeiling: int := 0xFFFF_FFFF

  /** A buffer of (limit + 7) / 8 bytes has room for `limit` bits. */
  lemma BytesHoldLimit(limit: nat)
    ensures limit <= 8 * ((limit + 7) / 8)
  {
  }

  /** How far the `…IfNeed` growth goes: the preferred step, or the bits
      needed when they are more. */
  function GrowthFor(need: nat, preferred: nat): nat
  {
    if preferred < need then need else preferred
  }

  /** The argument checks of the public `setAt…`, `setUntil…`, `getAt…` and
      `getUntil…` of a kind: the width against the kind's range first, then
      the index against 0 .. stored - width, each by `assertIntMinMax`. */
  function CheckField(k: Kind, index: Num, width: Num, stored: nat): (r: Result<(nat, nat)>)
    ensures r.Ok? <==> width.Integral? && ValidWidth(k, width.value) &&
                        index.Integral? && 0 <= index.value && index.value + width.value <= stored
    ensures r.Ok? ==> r.value == (index.value, width.value)
    ensures width.NotIntegral? ==> r == Fail(TypeError)
    ensures width.Integral? && !ValidWidth(k, width.value) ==> r == Fail(RangeError)
    ensures width.Integral? && ValidWidth(k, width.value) && index.NotIntegral? ==> r == Fail(TypeError)
    ensures (width.Integral? && ValidWidth(k, width.value) && index.Integral? &&
             !(0 <= index.value && index.value + width.value <= stored)) ==> r == Fail(RangeError)
  {
    match AssertIntMinMax(width, MinWidth(k), MaxWidth(k))
    case Fail(e) => Fail(e)
    case Ok(n) =>
      match AssertIntMinMax(index, 0, stored - n)
      case Fail(e) => Fail(e)
      case Ok(i) => Ok((i, n))
  }

  /** The width check of the public `push…`, `unshift…`, `shift…` and `pop…`. */
  function CheckWidth(k: Kind, width: Num): (r: Result<nat>)
    ensures r.Ok? <==> width.Integral? && ValidWidth(k, width.value)
    ensures r.Ok? ==> r.value == width.value
    ensures r.Fail? ==> (r.error == TypeError <==> width.NotIntegral?) && (r.error == TypeError || r.error == RangeError)
  {
    AssertIntMinMax(width, MinWidth(k), MaxWidth(k))
  }

  class BitDataView {
    /** Byte order; read at every multi-byte access. */
    const endianness: Endianness
    /** Bit order within a byte; read at every bit access, so the bit
        primitives always follow the current mode. */
    const bitNumbering: BitNumbering
    var autoGrow: bool
    var data: array<bv8>
    var limit: nat
    var pushed: nat
    var shifted: nat

    /** `new BitDataView()`: 64 zero bytes, growable, little endian, LSB. */
    constructor ()
      ensures Valid() && autoGrow && limit == 512 && pushed == 0 && shifted == 0
      ensures fresh(data) && fresh(endianness) && fresh(bitNumbering)
      ensures data[..] == Zeros(64) && Le() && bitNumbering.IsLSB()
    {
      endianness := new Endianness(LittleEndian);
      bitNumbering := new BitNumbering(LSB);
      autoGrow := false;
      data := new bv8[64](_ => 0);
      limit := 512;
      autoGrow := true;
      pushed := 0;
      shifted := 0;
    }

    /** `new BitDataView(bits)` for an integer `bits > 0`: ceil(bits / 8)
        zero bytes and a fixed limit of `bits`. */
    constructor WithBitCount(bufferInfo: nat)
      requires bufferInfo > 0
      ensures Valid() && !autoGrow && limit == bufferInfo && pushed == 0 && shifted == 0
      ensures fresh(data) && fresh(endianness) && fresh(bitNumbering)
      ensures data[..] == Zeros((bufferInfo + 7) / 8) && Le() && bitNumbering.IsLSB()
    {
      endianness := new Endianness(LittleEndian);
      bitNumbering := new BitNumbering(LSB);
      autoGrow := false;
      limit := bufferInfo;
      data := new bv8[(bufferInfo + 7) / 8](_ => 0);
      pushed := 0;
      shifted := 0;
    }

    /** `new BitDataView(uint8Array)`: the bytes given, a fixed limit of
        8 bits per byte, nothing stored. */
    constructor FromBytes(bufferInfo: seq<bv8>)
      ensures Valid() && !autoGrow && limit == 8 * |bufferInfo| && pushed == 0 && shifted == 0
      ensures fresh(data) && fresh(endianness) && fresh(bitNumbering)
      ensures data[..] == bufferInfo && Le() && bitNumbering.IsLSB()
    {
      endianness := new Endianness(LittleEndian);
      bitNumbering := new BitNumbering(LSB);
      autoGrow := false;
      data := new bv8[|bufferInfo|](i requires 0 <= i < |bufferInfo| => bufferInfo[i]);
      limit := 8 * |bufferInfo|;
      pushed := 0;
      shifted := 0;
    }

    ghost predicate Valid()
      reads this`shifted, this`pushed, this`limit, this`data
    {
      shifted <= pushed <= limit && data.Length == (limit + 7) / 8
    }

    function Le(): bool
      reads endianness
    {
      endianness.IsLittleEndian()
    }

    /** Memory as a string of bits, one per bit address. */
    ghost function Bits(): (r: seq<bool>)
      reads this`data, data, bitNumbering
      ensures |r| == 8 * data.Length
    {
      MemBits(data[..], bitNumbering.bitNumbering)
    }

    /** The stored bits, head first. */
    ghost function Window(): (w: seq<bool>)
      requires Valid()
      reads this`shifted, this`pushed, this`limit, this`data, data, bitNumbering
      ensures |w| == pushed - shifted
    {
      Bits()[shifted..pushed]
    }

    /** `getCountStoredBits`. */
    function CountStoredBits(): (r: nat)
      requires Valid()
      reads this`shifted, this`pushed, this`limit, this`data, data, bitNumbering
      ensures r == |Window()|
    {
      pushed - shifted
    }

    // ------------------------------------------------------ bit primitives

    /** Sets the bit at a memory address (`__data[a >>> 3] |= 1 << k`); a
        byte index past the end of the array is ignored, as a typed-array
        store past its end is. */
    method OrBitInMemory(address: nat)
      modifies data
      ensures Bits() == UpdateBit(old(Bits()), address, true)
    {
      var addressByte := address / 8;
      var addressBit := if bitNumbering.IsLSB() then address % 8 else 7 - address % 8;
      if addressByte < data.Length {
        var b := data[addressByte] | Mask(addressBit);
        MemBitsOr(data[..], bitNumbering.bitNumbering, address, b);
        data[addressByte] := b;
      }
    }

    /** Clears the bit at a memory address (`__data[a >>> 3] &= ~(1 << k)`). */
    method AndBitInMemory(address: nat)
      modifies data
      ensures Bits() == UpdateBit(old(Bits()), address, false)
    {
      var addressByte := address / 8;
      var addressBit := if bitNumbering.IsLSB() then address % 8 else 7 - address % 8;
      if addressByte < data.Length {
        var b := data[addressByte] & !Mask(addressBit);
        MemBitsAndNot(data[..], bitNumbering.bitNumbering, address, b);
        data[addressByte] := b;
      }
    }

    /** Reads the bit at a memory address as 0 or 1.  The MSB variant
        computes its bit index as `(7 - a) & 7`; past the end it reads 0. */
    method GetBitInMemory(address: nat) returns (bit: nat)
      ensures bit == if BitAt(Bits(), address) then 1 else 0
    {
      var addressByte := address / 8;
      var addressBit: nat;
      if bitNumbering.IsLSB() {
        addressBit := address % 8;
      } else {
        addressBit := (7 - address) % 8;
        MsbGetterBitIndex(address);
      }
      if addressByte < data.Length {
        MemBitsGet(data[..], bitNumbering.bitNumbering, address, addressBit);
        bit := ((data[addressByte] >> addressBit) & 1) as nat;
      } else {
        bit := 0;
      }
    }

    /** `_setBitInMemoryAddress`: or-mask for a set bit, and-not-mask otherwise. */
    method SetBitInMemory(bitValue: bool, address: nat)
      modifies data
      ensures Bits() == UpdateBit(old(Bits()), address, bitValue)
    {
      if bitValue {
        OrBitInMemory(address);
      } else {
        AndBitInMemory(address);
      }
    }

    /** The memory address of the bit `bitIndexAt` places after the head. */
    function AddressOf(bitIndexAt: nat): (address: nat)
      reads this`shifted
    {
      shifted + bitIndexAt
    }

    /** Stored bit i is the memory bit at `AddressOf(i)`. */
    lemma AddressOfWindow(i: nat)
      requires Valid() && i < CountStoredBits()
      ensures AddressOf(i) < pushed && Window()[i] == Bits()[AddressOf(i)]
    {
    }

    // ---------------------------------------------------- sub-byte codec

    /* The loops below work on memory addresses; the `…At` wrappers add
       `shifted` to an index counted from the head (`AddressOf`), as every
       accessor of the library does first. */

    /** Writes the low `countBitsToSet` (at most 8) bits of `byteData` from
        memory address `memoryAddress`, least significant bit first.
        `byteData & 1` is the remainder by 2 and `byteData >>>= 1` halves
        it; for a negative value the unsigned shift gives a different
        number, but with the same low bits, and only 8 of them are used. */
    method WriteBitsAt(memoryAddress: nat, countBitsToSet: nat, byteData: int)
      requires countBitsToSet <= 8
      modifies data
      ensures Bits() == WriteBits(old(Bits()), memoryAddress, countBitsToSet, byteData)
    {
      var address := memoryAddress;
      var count := countBitsToSet;
      var b := byteData;
      ghost var mem := Bits();
      ghost var target := WriteBits(mem, address, count, b);
      while count > 0
        invariant Bits() == mem
        invariant WriteBits(mem, address, count, b) == target
      {
        ghost var (mem0, address0, count0, b0) := (mem, address, count, b);
        SetBitInMemory(b % 2 == 1, address);
        address := address + 1;
        b := b / 2;
        count := count - 1;
        mem := Bits();
        StepBits(mem0, address0, count0, b0, mem, address, count, b);
      }
    }

    /** Reads `countBitsToGet` (at most 8) bits from memory address
        `memoryAddress`, the first one least significant.  `byteData |=
        bitMask` is an addition, since `bitMask` is a power of two above
        every bit set so far. */
    method ReadBitsAt(memoryAddress: nat, countBitsToGet: nat) returns (byteData: nat)
      requires countBitsToGet <= 8
      ensures byteData == ReadBits(Bits(), memoryAddress, countBitsToGet)
    {
      var address := memoryAddress;
      byteData := 0;
      var bitMask: nat := 1;
      var count := countBitsToGet;
      ghost var mem := Bits();
      ghost var total := ReadBits(mem, address, count);
      while count > 0
        invariant Bits() == mem
        invariant byteData + bitMask * ReadBits(mem, address, count) == total
      {
        ghost var (address0, count0, bitMask0, byteData0) := (address, count, bitMask, byteData);
        var bit := GetBitInMemory(address);
        address := address + 1;
        if bit == 1 {
          byteData := byteData + bitMask;
        }
        bitMask := bitMask * 2;
        count := count - 1;
        ReadBitsStep(mem, address0, count0, bitMask0, byteData0, bit, total, address, count, bitMask, byteData);
      }
      ReadDone(byteData, bitMask, ReadBits(mem, address, count), total);
    }

    /** `_setAt_Uint8orLess`. */
    method SetAtUint8orLess(bitIndexAt: nat, countBitsToSet: nat, byteData: int)
      requires countBitsToSet <= 8
      modifies data
      ensures Bits() == WriteBits(old(Bits()), AddressOf(bitIndexAt), countBitsToSet, byteData)
    {
      WriteBitsAt(AddressOf(bitIndexAt), countBitsToSet, byteData);
    }

    /** `_getAt_Uint8orLess`. */
    method GetAtUint8orLess(bitIndexAt: nat, countBitsToGet: nat) returns (byteData: nat)
      requires countBitsToGet <= 8
      ensures byteData == ReadBits(Bits(), AddressOf(bitIndexAt), countBitsToGet)
    {
      byteData := ReadBitsAt(AddressOf(bitIndexAt), countBitsToGet);
    }

    // ------------------------------------------------ multi-byte integers

    /** The big-endian chunk loop shared by the unsigned and signed
        writers: chunk after chunk, the low 8 bits of what is left of the
        value go to the end of what is left of the field. */
    method WriteUintBEAt(memoryAddress: nat, countBitsToSet: nat, value: int)
      modifies data
      ensures Bits() == WriteUintBE(old(Bits()), memoryAddress, countBitsToSet, value)
    {
      var count: int := countBitsToSet;
      var v := value;
      ghost var mem := Bits();
      ghost var target := WriteUintBE(mem, memoryAddress, count, v);
      while count > 0
        invariant Bits() == mem
        invariant WriteUintBE(mem, memoryAddress, count, v) == target
      {
        ghost var (mem0, count0, v0) := (mem, count, v);
        var subBitsCount := Chunk(count);
        var address: nat := memoryAddress + count - subBitsCount;
        WriteBitsAt(address, subBitsCount, v);
        v := v / 256;
        count := count - 8;
        mem := Bits();
        StepUintBE(mem0, memoryAddress, count0, v0, address, mem, count, v);
      }
    }

    /** The little-endian unsigned loop: chunks from the field's start, the
        value floor-divided by 256 after each. */
    method WriteUintLEAt(memoryAddress: nat, countBitsToSet: nat, value: int)
      modifies data
      ensures Bits() == WriteUintLE(old(Bits()), memoryAddress, countBitsToSet, value)
    {
      var count: int := countBitsToSet;
      var address := memoryAddress;
      var v := value;
      ghost var mem := Bits();
      ghost var target := WriteUintLE(mem, address, count, v);
      while count > 0
        invariant Bits() == mem
        invariant WriteUintLE(mem, address, count, v) == target
      {
        ghost var (mem0, address0, count0, v0) := (mem, address, count, v);
        WriteBitsAt(address, Chunk(count), v);
        v := v / 256;
        count := count - 8;
        address := address + 8;
        mem := Bits();
        StepUintLE(mem0, address0, count0, v0, mem, address, count, v);
      }
    }

    /** The little-endian signed loop: as the unsigned one, except that the
        remaining width drops by 7 per 8-bit chunk. */
    method WriteIntLEAt(memoryAddress: nat, countBitsToSet: nat, value: int)
      modifies data
      ensures Bits() == WriteIntLE(old(Bits()), memoryAddress, countBitsToSet, value)
    {
      var count: int := countBitsToSet;
      var address := memoryAddress;
      var v := value;
      ghost var mem := Bits();
      ghost var target := WriteIntLE(mem, address, count, v);
      while count > 0
        invariant Bits() == mem
        invariant WriteIntLE(mem, address, count, v) == target
      {
        ghost var (mem0, address0, count0, v0) := (mem, address, count, v);
        WriteBitsAt(address, Chunk(count), v);
        v := v / 256;
        count := count - 7;
        address := address + 8;
        mem := Bits();
        StepIntLE(mem0, address0, count0, v0, mem, address, count, v);
      }
    }

    /** `_setAt_Uint53orLess`. */
    method SetAtUint53orLess(bitIndexAt: nat, countBitsToSet: nat, valueUint: int)
      modifies data
      ensures Bits() == if Le() then WriteUintLE(old(Bits()), AddressOf(bitIndexAt), countBitsToSet, valueUint)
                        else WriteUintBE(old(Bits()), AddressOf(bitIndexAt), countBitsToSet, valueUint)
    {
      if endianness.IsLittleEndian() {
        WriteUintLEAt(AddressOf(bitIndexAt), countBitsToSet, valueUint);
      } else {
        WriteUintBEAt(AddressOf(bitIndexAt), countBitsToSet, valueUint);
      }
    }

    /** `_setAt_Int53orLess`. */
    method SetAtInt53orLess(bitIndexAt: nat, countBitsToSet: nat, valueInt: int)
      modifies data
      ensures Bits() == if Le() then WriteIntLE(old(Bits()), AddressOf(bitIndexAt), countBitsToSet, valueInt)
                        else WriteUintBE(old(Bits()), AddressOf(bitIndexAt), countBitsToSet, valueInt)
    {
      if endianness.IsLittleEndian() {
        WriteIntLEAt(AddressOf(bitIndexAt), countBitsToSet, valueInt);
      } else {
        WriteUintBEAt(AddressOf(bitIndexAt), countBitsToSet, valueInt);
      }
    }

    /** The little-endian reading loop: chunk k weighs 256^k. */
    method ReadUintLEAt(memoryAddress: nat, countBitsToGet: nat) returns (result: nat)
      ensures result == ReadUintLE(Bits(), memoryAddress, countBitsToGet)
    {
      var count: int := countBitsToGet;
      var address := memoryAddress;
      result := 0;
      var byteMultiplier: nat := 1;
      ghost var mem := Bits();
      ghost var total := ReadUintLE(mem, address, count);
      while count > 0
        invariant Bits() == mem
        invariant result + byteMultiplier * ReadUintLE(mem, address, count) == total
      {
        ghost var (address0, count0, byteMultiplier0, result0) := (address, count, byteMultiplier, result);
        var byteData := ReadBitsAt(address, Chunk(count));
        count := count - 8;
        MulNonneg(byteData, byteMultiplier);
        result := result + byteData * byteMultiplier;
        byteMultiplier := byteMultiplier * 256;
        address := address + 8;
        ReadUintLEStep(mem, address0, count0, byteMultiplier0, result0, byteData, total, address, count, byteMultiplier, result);
      }
      ReadDone(result, byteMultiplier, ReadUintLE(mem, address, count), total);
    }

    /** The big-endian reading loop: what has been read so far is shifted
        left by the size of each new chunk (`1 << count`) and the chunk is
        added. */
    method ReadUintBEAt(memoryAddress: nat, countBitsToGet: nat) returns (result: nat)
      ensures result == ReadUintBE(Bits(), memoryAddress, countBitsToGet)
    {
      var count: int := countBitsToGet;
      var address := memoryAddress;
      result := 0;
      ghost var mem := Bits();
      ghost var total := ReadUintBE(mem, address, count);
      while count > 0
        invariant Bits() == mem
        invariant result * Pow2(Width(count)) + ReadUintBE(mem, address, count) == total
      {
        ghost var (address0, count0, result0) := (address, count, result);
        var c := Chunk(count);
        var byteData := ReadBitsAt(address, c);
        count := count - 8;
        MulNonneg(result, Pow2(c));
        result := result * Pow2(c) + byteData;
        address := address + 8;
        ReadUintBEStep(mem, address0, count0, result0, byteData, total, address, count, result);
      }
      ReadDone(result, 0, ReadUintBE(mem, address, count), total);
    }

    /** The unsigned reading shared by all four multi-byte readers. */
    method GetAtUnsigned(bitIndexAt: nat, countBitsToGet: nat) returns (result: nat)
      ensures result == Reading(Le(), Bits(), AddressOf(bitIndexAt), countBitsToGet)
    {
      if endianness.IsLittleEndian() {
        result := ReadUintLEAt(AddressOf(bitIndexAt), countBitsToGet);
      } else {
        result := ReadUintBEAt(AddressOf(bitIndexAt), countBitsToGet);
      }
    }

    /** `_getAt_Uint53orLess`. */
    method GetAtUint53orLess(bitIndexAt: nat, countBitsToGet: nat) returns (result: nat)
      ensures result == Reading(Le(), Bits(), AddressOf(bitIndexAt), countBitsToGet)
    {
      result := GetAtUnsigned(bitIndexAt, countBitsToGet);
    }

    /** `_getAt_Int53orLess`: the unsigned reading, less 2^n when bit
        n - 2 of it (`Math.floor(r / 2 ** (n - 2)) & 1`) is set. */
    method GetAtInt53orLess(bitIndexAt: nat, countBitsToGet: nat) returns (result: int)
      ensures result == DecodeInt53(Reading(Le(), Bits(), AddressOf(bitIndexAt), countBitsToGet), countBitsToGet)
    {
      var r := GetAtUnsigned(bitIndexAt, countBitsToGet);
      var maskNegative := Pow2(countBitsToGet) - 1;
      var sign := if countBitsToGet >= 2 then (r / Pow2(countBitsToGet - 2)) % 2 else 0;
      result := r;
      if sign == 1 {
        result := r - maskNegative - 1;
      }
    }

    /** The 64-bit chunk loop: chunk `a` holds scratch byte `bytes[a]` and
        goes to the end of what is left of the field. */
    method WriteChunksAt(memoryAddress: nat, countBitsToSet: nat, bytes: seq<nat>)
      requires countBitsToSet <= 8 * |bytes|
      modifies data
      ensures Bits() == WriteChunks(old(Bits()), memoryAddress, countBitsToSet, bytes)
    {
      var count: int := countBitsToSet;
      var a := 0;
      ghost var mem := Bits();
      ghost var target := WriteChunks(mem, memoryAddress, count, bytes);
      assert bytes[a..] == bytes;
      while count > 0
        invariant 0 <= a <= |bytes| && count <= 8 * (|bytes| - a)
        invariant Bits() == mem
        invariant WriteChunks(mem, memoryAddress, count, bytes[a..]) == target
      {
        ghost var (mem0, count0, a0) := (mem, count, a);
        var subBitsCount := Chunk(count);
        var address: nat := memoryAddress + count - subBitsCount;
        WriteBitsAt(address, subBitsCount, bytes[a]);
        count := count - 8;
        a := a + 1;
        mem := Bits();
        assert bytes[a..] == bytes[a0..][1..];
        StepChunks(mem0, memoryAddress, count0, bytes[a0..], address, mem, count, bytes[a..]);
      }
    }

    /** `_setAt_BigUint64orLess`: the scratch holds `setBigUint64(0, v, le)`
        and chunk `a` takes scratch byte `7 - a`, which is byte `a` of the
        scratch written in the opposite order. */
    method SetAtBigUint64orLess(bitIndexAt: nat, countBitsToSet: nat, value: int)
      requires countBitsToSet <= 64
      modifies data
      ensures Bits() == WriteChunks(old(Bits()), AddressOf(bitIndexAt), countBitsToSet, Uint64Bytes(value, !Le()))
    {
      var scratch := Uint64Bytes(value, endianness.IsLittleEndian());
      var chunks := seq(8, a requires 0 <= a < 8 => scratch[7 - a]);
      assert chunks == Uint64Bytes(value, !Le());
      WriteChunksAt(AddressOf(bitIndexAt), countBitsToSet, chunks);
    }

    /** `_setAt_BigInt64orLess`: the scratch holds `setBigUint64(0, v, !le)`
        and chunk `a` takes scratch byte `a`. */
    method SetAtBigInt64orLess(bitIndexAt: nat, countBitsToSet: nat, value: int)
      requires countBitsToSet <= 64
      modifies data
      ensures Bits() == WriteChunks(old(Bits()), AddressOf(bitIndexAt), countBitsToSet, Uint64Bytes(value, !Le()))
    {
      var scratch := Uint64Bytes(value, !endianness.IsLittleEndian());
      WriteChunksAt(AddressOf(bitIndexAt), countBitsToSet, scratch);
    }

    /** `_getAt_BigUint64orLess`. */
    method GetAtBigUint64orLess(bitIndexAt: nat, countBitsToGet: nat) returns (result: nat)
      ensures result == Reading(Le(), Bits(), AddressOf(bitIndexAt), countBitsToGet)
    {
      result := GetAtUint53orLess(bitIndexAt, countBitsToGet);
    }

    /** `_getAt_BigInt64orLess`: with bit n - 1 of the unsigned reading
        set, the result is `-((~r & (2^(n-1) - 1)) + 1)`. */
    method GetAtBigInt64orLess(bitIndexAt: nat, countBitsToGet: nat) returns (result: int)
      requires countBitsToGet >= 1
      ensures result == DecodeBigInt64(Reading(Le(), Bits(), AddressOf(bitIndexAt), countBitsToGet), countBitsToGet)
    {
      var r := GetAtUnsigned(bitIndexAt, countBitsToGet);
      var maskNegative := Pow2(countBitsToGet - 1) - 1;
      result := r;
      if Bit(r, countBitsToGet - 1) {
        result := -(((-(r as int) - 1) % (maskNegative + 1)) + 1);
      }
    }

    // --------------------------------------------------- dispatch by kind

    /** The `_setAt_…` writer of a kind. */
    method SetAt(k: Kind, bitIndexAt: nat, countBitsToSet: nat, value: int)
      requires ValidWidth(k, countBitsToSet)
      modifies data
      ensures Bits() == Encode(k, Le(), old(Bits()), AddressOf(bitIndexAt), countBitsToSet, value)
    {
      EncodeIsWrite(k, Le(), Bits(), AddressOf(bitIndexAt), countBitsToSet, value);
      match k
      case Byte => SetAtUint8orLess(bitIndexAt, countBitsToSet, value);
      case Uint => SetAtUint53orLess(bitIndexAt, countBitsToSet, value);
      case Int => SetAtInt53orLess(bitIndexAt, countBitsToSet, value);
      case BigUint => SetAtBigUint64orLess(bitIndexAt, countBitsToSet, value);
      case BigInt => SetAtBigInt64orLess(bitIndexAt, countBitsToSet, value);
    }

    /** The `_getAt_…` reader of a kind. */
    method GetAt(k: Kind, bitIndexAt: nat, countBitsToGet: nat) returns (result: int)
      requires ValidWidth(k, countBitsToGet)
      ensures result == Decode(k, Le(), Bits(), AddressOf(bitIndexAt), countBitsToGet)
    {
      DecodeIsRead(k, Le(), Bits(), AddressOf(bitIndexAt), countBitsToGet);
      match k
      case Byte => result := GetAtUint8orLess(bitIndexAt, countBitsToGet);
      case Uint => result := GetAtUint53orLess(bitIndexAt, countBitsToGet);
      case Int => result := GetAtInt53orLess(bitIndexAt, countBitsToGet);
      case BigUint => result := GetAtBigUint64orLess(bitIndexAt, countBitsToGet);
      case BigInt => result := GetAtBigInt64orLess(bitIndexAt, countBitsToGet);
    }

    // --------------------------------------------------------- deque layer

    /** `_setUntil_…`: a field ending `bitIndexUntil` bits before the tail
        starts at index `stored - n - bitIndexUntil` from the head. */
    method SetUntil(k: Kind, bitIndexUntil: nat, countBitsToSet: nat, value: int)
      requires Valid() && ValidWidth(k, countBitsToSet)
      requires bitIndexUntil + countBitsToSet <= CountStoredBits()
      modifies data
      ensures Bits() == Encode(k, Le(), old(Bits()), pushed - countBitsToSet - bitIndexUntil, countBitsToSet, value)
    {
      var bitIndexAt := CountStoredBits() - countBitsToSet - bitIndexUntil;
      SetAt(k, bitIndexAt, countBitsToSet, value);
      assert AddressOf(bitIndexAt) == pushed - countBitsToSet - bitIndexUntil;
    }

    /** `_getUntil_…`. */
    method GetUntil(k: Kind, bitIndexUntil: nat, countBitsToGet: nat) returns (result: int)
      requires Valid() && ValidWidth(k, countBitsToGet)
      requires bitIndexUntil + countBitsToGet <= CountStoredBits()
      ensures result == Decode(k, Le(), Bits(), pushed - countBitsToGet - bitIndexUntil, countBitsToGet)
    {
      var bitIndexAt := CountStoredBits() - countBitsToGet - bitIndexUntil;
      result := GetAt(k, bitIndexAt, countBitsToGet);
      assert AddressOf(bitIndexAt) == pushed - countBitsToGet - bitIndexUntil;
    }

    /** `_push_…_noAssertsNoExpand`: the tail moves on by n, then the value
        is written as the last n stored bits.  The stored bits before it are
        kept, and the value is read back wherever its codec round-trips. */
    method PushNoExpand(k: Kind, countBitsToPush: nat, value: int)
      requires Valid() && ValidWidth(k, countBitsToPush) && pushed + countBitsToPush <= limit
      modifies this`pushed, data
      ensures Valid() && pushed == old(pushed) + countBitsToPush
      ensures Bits() == Encode(k, Le(), old(Bits()), old(pushed), countBitsToPush, value)
      ensures Window()[..old(CountStoredBits())] == old(Window())
      ensures RoundTrips(k, Le(), countBitsToPush, value) ==>
                Decode(k, Le(), Bits(), old(pushed), countBitsToPush) == Expected(k, countBitsToPush, value)
    {
      ghost var (m, p, le, w0) := (Bits(), pushed, Le(), Window());
      pushed := pushed + countBitsToPush;
      assert Bits() == m;
      SetUntil(k, 0, countBitsToPush, value);
      assert Le() == le;
      ghost var a := pushed - countBitsToPush - 0;
      assert a == p;
      ghost var r := Bits();
      assert r == Encode(k, le, m, a, countBitsToPush, value);
      BytesHoldLimit(limit);
      PushKeeps(k, le, m, shifted, p, countBitsToPush, value);
      assert Window() == r[shifted..pushed];
      assert old(Window()) == w0 == m[shifted..p];
      assert old(CountStoredBits()) == p - shifted;
      assert Window()[..p - shifted] == w0;
      assert Le() == le && Bits() == r;
    }

    /** `_unshift_…_noAssertsNoExpand`: the head moves back by n, then the
        value is written as the first n stored bits.  The stored bits after
        it are kept when the writer stays inside its field. */
    method UnshiftNoExpand(k: Kind, countBitsToUnshift: nat, value: int)
      requires Valid() && ValidWidth(k, countBitsToUnshift) && countBitsToUnshift <= shifted
      modifies this`shifted, data
      ensures Valid() && shifted == old(shifted) - countBitsToUnshift
      ensures Bits() == Encode(k, Le(), old(Bits()), shifted, countBitsToUnshift, value)
      ensures Extent(k, Le(), countBitsToUnshift) == countBitsToUnshift ==> Window()[countBitsToUnshift..] == old(Window())
      ensures RoundTrips(k, Le(), countBitsToUnshift, value) ==>
                Decode(k, Le(), Bits(), shifted, countBitsToUnshift) == Expected(k, countBitsToUnshift, value)
    {
      ghost var (m, s, le, w0) := (Bits(), shifted, Le(), Window());
      shifted := shifted - countBitsToUnshift;
      assert Bits() == m;
      SetAt(k, 0, countBitsToUnshift, value);
      assert Le() == le;
      ghost var a := AddressOf(0);
      assert a == shifted;
      ghost var r := Bits();
      assert r == Encode(k, le, m, a, countBitsToUnshift, value);
      BytesHoldLimit(limit);
      UnshiftKeeps(k, le, m, s, pushed, countBitsToUnshift, value);
      assert Window() == r[shifted..pushed];
      assert old(Window()) == w0 == m[s..pushed];
      assert Le() == le && Bits() == r;
    }

    /** `_shift_…_noAsserts`: reads the first n stored bits, then moves the
        head on by n. */
    method Shift(k: Kind, countBitsToShift: nat) returns (result: int)
      requires Valid() && ValidWidth(k, countBitsToShift) && countBitsToShift <= CountStoredBits()
      modifies this`shifted
      ensures Valid() && shifted == old(shifted) + countBitsToShift
      ensures result == Decode(k, Le(), Bits(), old(shifted), countBitsToShift)
      ensures Window() == old(Window())[countBitsToShift..]
    {
      ghost var (m, w0) := (Bits(), Window());
      result := GetAt(k, 0, countBitsToShift);
      assert AddressOf(0) == shifted;
      shifted := shifted + countBitsToShift;
      assert Bits() == m;
      assert Window() == m[shifted..pushed];
    }

    /** `_pop_…_noAsserts`: reads the last n stored bits, then moves the tail
        back by n. */
    method Pop(k: Kind, countBitsToPop: nat) returns (result: int)
      requires Valid() && ValidWidth(k, countBitsToPop) && countBitsToPop <= CountStoredBits()
      modifies this`pushed
      ensures Valid() && pushed == old(pushed) - countBitsToPop
      ensures result == Decode(k, Le(), Bits(), pushed, countBitsToPop)
      ensures Window() == old(Window())[..CountStoredBits()]
    {
      ghost var (m, w0) := (Bits(), Window());
      result := GetUntil(k, 0, countBitsToPop);
      assert pushed - countBitsToPop - 0 == pushed - countBitsToPop;
      pushed := pushed - countBitsToPop;
      assert Bits() == m;
      assert Window() == m[shifted..pushed];
    }

    // ------------------------------------------------------------- growth

    /** `getAvailableBitsToExpandRight`. */
    function AvailableBitsToExpandRight(): (r: int)
      reads this`limit
      ensures r >= 0 <==> limit <= RightCeiling
    {
      RightCeiling - limit
    }

    /** `expandRight`: refused unless automatic growth is on; the growth must
        be an integer in 0 .. RightCeiling - limit.  The limit grows by that
        many bits and the bytes are copied into a zero-filled array of
        ceil(limit / 8) bytes, each at its old index, so no stored bit
        moves. */
    method ExpandRight(expandBits: Num := Integral(DefaultExpandBits)) returns (r: Outcome)
      requires Valid()
      modifies this`limit, this`data
      ensures Valid() && Window() == old(Window())
      ensures r.Done? <==> autoGrow && AssertUintMax(expandBits, old(AvailableBitsToExpandRight())).Ok?
      ensures !autoGrow ==> r == Failed(PlainError)
      ensures autoGrow && r.Failed? ==> r.error == AssertUintMax(expandBits, old(AvailableBitsToExpandRight())).error
      ensures r.Failed? ==> limit == old(limit) && data == old(data)
      ensures r.Done? ==> limit == old(limit) + expandBits.value && fresh(data)
      ensures r.Done? ==> Bits() == old(Bits()) + seq(8 * (data.Length - old(data.Length)), _ => false)
    {
      if !autoGrow {
        return Failed(PlainError);
      }
      match AssertUintMax(expandBits, AvailableBitsToExpandRight())
      case Fail(e) =>
        r := Failed(e);
      case Ok(k) =>
        ghost var (mem, p, s) := (data[..], pushed, shifted);
        limit := limit + k;
        var oldData := data;
        var newUint8Array := new bv8[(limit + 7) / 8](
          i requires 0 <= i reads oldData => if i < oldData.Length then oldData[i] else 0);
        data := newUint8Array;
        assert data[..] == mem + Zeros(data.Length - |mem|);
        MemBitsAppendZeros(mem, bitNumbering.bitNumbering, data.Length - |mem|);
        BytesHoldLimit(limit - k);
        r := Done;
    }

    /** `expandLeft`: refused unless automatic growth is on; the growth must
        be an integer in 0 .. LeftCeiling - limit and a whole number of
        bytes.  Limit, tail and head all move on by the growth and the
        bytes are copied that many bytes further on, so the stored bits
        are the same. */
    method ExpandLeft(expandBits: Num := Integral(DefaultExpandBits)) returns (r: Outcome)
      requires Valid()
      modifies this`limit, this`pushed, this`shifted, this`data
      ensures Valid() && Window() == old(Window())
      ensures r.Done? <==> autoGrow && AssertUintMax(expandBits, LeftCeiling - old(limit)).Ok? &&
                           expandBits.value % 8 == 0
      ensures !autoGrow ==> r == Failed(PlainError)
      ensures autoGrow && AssertUintMax(expandBits, LeftCeiling - old(limit)).Fail? ==>
                r.error == AssertUintMax(expandBits, LeftCeiling - old(limit)).error
      ensures autoGrow && AssertUintMax(expandBits, LeftCeiling - old(limit)).Ok? && expandBits.value % 8 != 0 ==>
                r == Failed(PlainError)
      ensures r.Failed? ==> limit == old(limit) && pushed == old(pushed) && shifted == old(shifted) && data == old(data)
      ensures r.Done? ==> limit == old(limit) + expandBits.value && fresh(data) &&
                          pushed == old(pushed) + expandBits.value && shifted == old(shifted) + expandBits.value
      ensures r.Done? ==> Bits() == seq(expandBits.value, _ => false) + old(Bits())
    {
      if !autoGrow {
        return Failed(PlainError);
      }
      match AssertUintMax(expandBits, LeftCeiling - limit)
      case Fail(e) =>
        r := Failed(e);
      case Ok(k) =>
        if k % 8 != 0 {
          return Failed(PlainError);
        }
        ghost var (mem, w0) := (data[..], Window());
        var offsetBytes := k / 8;
        limit := limit + k;
        pushed := pushed + k;
        shifted := shifted + k;
        var oldData := data;
        var newUint8Array := new bv8[(limit + 7) / 8](
          i requires 0 <= i reads oldData =>
            if offsetBytes <= i < offsetBytes + oldData.Length then oldData[i - offsetBytes] else 0);
        data := newUint8Array;
        assert data[..] == Zeros(offsetBytes) + mem;
        MemBitsPrependZeros(mem, bitNumbering.bitNumbering, offsetBytes);
        assert Bits() == seq(k, _ => false) + MemBits(mem, bitNumbering.bitNumbering);
        assert Window() == w0;
        r := Done;
    }

    /** `expandRightIfNeed`: when `checkPushBits` more bits would pass the
        limit, grows by the larger of the preferred step and those bits.
        Afterwards that many bits can be pushed without growing. */
    method ExpandRightIfNeed(checkPushBits: nat, bitCountIfExpandRequired: nat := DefaultExpandBits) returns (r: Outcome)
      requires Valid()
      modifies this`limit, this`data
      ensures Valid() && Window() == old(Window())
      ensures r.Done? <==> pushed + checkPushBits <= old(limit) ||
                           (autoGrow && GrowthFor(checkPushBits, bitCountIfExpandRequired) <= old(AvailableBitsToExpandRight()))
      ensures r.Done? ==> pushed + checkPushBits <= limit
      ensures r.Failed? ==> r.error == (if autoGrow then RangeError else PlainError)
      ensures r.Failed? || pushed + checkPushBits <= old(limit) ==> limit == old(limit) && data == old(data)
      ensures r.Done? && pushed + checkPushBits > old(limit) ==>
                limit == old(limit) + GrowthFor(checkPushBits, bitCountIfExpandRequired) && fresh(data) &&
                Bits() == old(Bits()) + seq(8 * (data.Length - old(data.Length)), _ => false)
    {
      r := Done;
      if pushed + checkPushBits > limit {
        var expandBits := GrowthFor(checkPushBits, bitCountIfExpandRequired);
        r := ExpandRight(Integral(expandBits));
      }
    }

    /** `expandLeftIfNeed`: when fewer than `checkUnshiftBits` bits lie
        before the head, grows to the left by the larger of the preferred
        step and those bits.  Afterwards that many bits can be unshifted. */
    method ExpandLeftIfNeed(checkUnshiftBits: nat, bitCountIfExpandRequired: nat := DefaultExpandBits) returns (r: Outcome)
      requires Valid()
      modifies this`limit, this`pushed, this`shifted, this`data
      ensures Valid() && Window() == old(Window())
      ensures r.Done? <==> checkUnshiftBits <= old(shifted) ||
                           (autoGrow && GrowthFor(checkUnshiftBits, bitCountIfExpandRequired) <= LeftCeiling - old(limit) &&
                            GrowthFor(checkUnshiftBits, bitCountIfExpandRequired) % 8 == 0)
      ensures r.Done? ==> checkUnshiftBits <= shifted
      ensures r.Failed? ==> r.error == (if autoGrow && GrowthFor(checkUnshiftBits, bitCountIfExpandRequired) <= LeftCeiling - old(limit)
                                        then PlainError else if autoGrow then RangeError else PlainError)
      ensures r.Failed? || checkUnshiftBits <= old(shifted) ==>
                limit == old(limit) && pushed == old(pushed) && shifted == old(shifted) && data == old(data)
      ensures r.Done? && checkUnshiftBits > old(shifted) ==>
                var k := GrowthFor(checkUnshiftBits, bitCountIfExpandRequired);
                limit == old(limit) + k && pushed == old(pushed) + k && shifted == old(shifted) + k && fresh(data) &&
                Bits() == seq(k, _ => false) + old(Bits())
    {
      r := Done;
      if shifted < checkUnshiftBits {
        var expandBits := GrowthFor(checkUnshiftBits, bitCountIfExpandRequired);
        r := ExpandLeft(Integral(expandBits));
      }
    }

    // ---------------------------------------------------- public wrappers

    /* The public operations of the five kinds check their arguments with
       `CheckField` or `CheckWidth` before anything is written, then call
       the unchecked operation.  The value argument is never checked. */

    /** `setAt…`. */
    method CheckedSetAt(k: Kind, bitIndexAt: Num, countBitsToSet: Num, value: int) returns (r: Outcome)
      requires Valid()
      modifies data
      ensures r.Done? <==> CheckField(k, bitIndexAt, countBitsToSet, CountStoredBits()).Ok?
      ensures r.Failed? ==> r.error == CheckField(k, bitIndexAt, countBitsToSet, CountStoredBits()).error &&
                            Bits() == old(Bits())
      ensures r.Done? ==> Bits() == Encode(k, Le(), old(Bits()), AddressOf(bitIndexAt.value), countBitsToSet.value, value)
      ensures r.Done? && RoundTrips(k, Le(), countBitsToSet.value, value) ==>
                Decode(k, Le(), Bits(), AddressOf(bitIndexAt.value), countBitsToSet.value) == Expected(k, countBitsToSet.value, value)
    {
      match CheckField(k, bitIndexAt, countBitsToSet, CountStoredBits())
      case Fail(e) =>
        r := Failed(e);
      case Ok((i, n)) =>
        ghost var m := Bits();
        SetAt(k, i, n, value);
        BytesHoldLimit(limit);
        if RoundTrips(k, Le(), n, value) {
          DecodeEncode(k, Le(), m, AddressOf(i), n, value);
        }
        r := Done;
    }

    /** `setUntil…`: the field ends `bitIndexUntil` bits before the tail. */
    method CheckedSetUntil(k: Kind, bitIndexUntil: Num, countBitsToSet: Num, value: int) returns (r: Outcome)
      requires Valid()
      modifies data
      ensures r.Done? <==> CheckField(k, bitIndexUntil, countBitsToSet, CountStoredBits()).Ok?
      ensures r.Failed? ==> r.error == CheckField(k, bitIndexUntil, countBitsToSet, CountStoredBits()).error &&
                            Bits() == old(Bits())
      ensures r.Done? ==> var a := pushed - countBitsToSet.value - bitIndexUntil.value;
                          Bits() == Encode(k, Le(), old(Bits()), a, countBitsToSet.value, value) &&
                          (RoundTrips(k, Le(), countBitsToSet.value, value) ==>
                             Decode(k, Le(), Bits(), a, countBitsToSet.value) == Expected(k, countBitsToSet.value, value))
    {
      match CheckField(k, bitIndexUntil, countBitsToSet, CountStoredBits())
      case Fail(e) =>
        r := Failed(e);
      case Ok((i, n)) =>
        ghost var m := Bits();
        SetUntil(k, i, n, value);
        BytesHoldLimit(limit);
        if RoundTrips(k, Le(), n, value) {
          DecodeEncode(k, Le(), m, pushed - n - i, n, value);
        }
        r := Done;
    }

    /** `getAt…`. */
    method CheckedGetAt(k: Kind, bitIndexAt: Num, countBitsToGet: Num) returns (r: Result<int>)
      requires Valid()
      ensures r.Ok? <==> CheckField(k, bitIndexAt, countBitsToGet, CountStoredBits()).Ok?
      ensures r.Fail? ==> r.error == CheckField(k, bitIndexAt, countBitsToGet, CountStoredBits()).error
      ensures r.Ok? ==> r.value == Decode(k, Le(), Bits(), AddressOf(bitIndexAt.value), countBitsToGet.value)
    {
      match CheckField(k, bitIndexAt, countBitsToGet, CountStoredBits())
      case Fail(e) =>
        r := Fail(e);
      case Ok((i, n)) =>
        var v := GetAt(k, i, n);
        r := Ok(v);
    }

    /** `getUntil…`. */
    method CheckedGetUntil(k: Kind, bitIndexUntil: Num, countBitsToGet: Num) returns (r: Result<int>)
      requires Valid()
      ensures r.Ok? <==> CheckField(k, bitIndexUntil, countBitsToGet, CountStoredBits()).Ok?
      ensures r.Fail? ==> r.error == CheckField(k, bitIndexUntil, countBitsToGet, CountStoredBits()).error
      ensures r.Ok? ==> r.value == Decode(k, Le(), Bits(), pushed - countBitsToGet.value - bitIndexUntil.value, countBitsToGet.value)
    {
      match CheckField(k, bitIndexUntil, countBitsToGet, CountStoredBits())
      case Fail(e) =>
        r := Fail(e);
      case Ok((i, n)) =>
        var v := GetUntil(k, i, n);
        r := Ok(v);
    }

    /** `push…`: checks the width, grows the memory to the right when the
        field would pass the limit, then pushes. */
    method CheckedPush(k: Kind, countBitsToPush: Num, value: int) returns (r: Outcome)
      requires Valid()
      modifies this`limit, this`pushed, this`data, data
      ensures Valid()
      ensures r.Done? <==> CheckWidth(k, countBitsToPush).Ok? &&
                           (old(pushed) + countBitsToPush.value <= old(limit) ||
                            (autoGrow && GrowthFor(countBitsToPush.value, DefaultExpandBits) <= old(AvailableBitsToExpandRight())))
      ensures r.Failed? ==> r.error == if CheckWidth(k, countBitsToPush).Fail? then CheckWidth(k, countBitsToPush).error
                                       else if autoGrow then RangeError else PlainError
      ensures r.Failed? ==> limit == old(limit) && pushed == old(pushed) && data == old(data) && Bits() == old(Bits())
      ensures data.Length >= old(data.Length)
      ensures r.Done? ==> limit == if old(pushed) + countBitsToPush.value <= old(limit) then old(limit)
                                   else old(limit) + GrowthFor(countBitsToPush.value, DefaultExpandBits)
      ensures r.Done? ==> var n := countBitsToPush.value;
                          pushed == old(pushed) + n && Window()[..old(CountStoredBits())] == old(Window()) &&
                          Bits() == Encode(k, Le(), old(Bits()) + seq(8 * (data.Length - old(data.Length)), _ => false), old(pushed), n, value) &&
                          (RoundTrips(k, Le(), n, value) ==> Decode(k, Le(), Bits(), old(pushed), n) == Expected(k, n, value))
    {
      match CheckWidth(k, countBitsToPush)
      case Fail(e) =>
        r := Failed(e);
      case Ok(n) =>
        ghost var m := Bits();
        r := ExpandRightIfNeed(n, DefaultExpandBits);
        if r.Done? {
          assert Bits() == m + seq(8 * (data.Length - old(data.Length)), _ => false);
          PushNoExpand(k, n, value);
        }
    }

    /** `unshift…`: checks the width, grows the memory to the left when
        fewer than the field's bits lie before the head, then unshifts.
        The growth is the whole default step, `g` below. */
    method CheckedUnshift(k: Kind, countBitsToUnshift: Num, value: int) returns (r: Outcome)
      requires Valid()
      modifies this`limit, this`pushed, this`shifted, this`data, data
      ensures Valid()
      ensures r.Done? <==> CheckWidth(k, countBitsToUnshift).Ok? &&
                           (countBitsToUnshift.value <= old(shifted) ||
                            (autoGrow && DefaultExpandBits <= LeftCeiling - old(limit)))
      ensures r.Failed? ==> r.error == if CheckWidth(k, countBitsToUnshift).Fail? then CheckWidth(k, countBitsToUnshift).error
                                       else if autoGrow then RangeError else PlainError
      ensures r.Failed? ==> limit == old(limit) && pushed == old(pushed) && shifted == old(shifted) &&
                            data == old(data) && Bits() == old(Bits())
      ensures r.Done? ==> var (n, g) := (countBitsToUnshift.value, pushed - old(pushed));
                          g == (if n <= old(shifted) then 0 else DefaultExpandBits) && limit == old(limit) + g &&
                          shifted == old(shifted) + g - n &&
                          Bits() == Encode(k, Le(), seq(g, _ => false) + old(Bits()), shifted, n, value) &&
                          (Extent(k, Le(), n) == n ==> Window()[n..] == old(Window())) &&
                          (RoundTrips(k, Le(), n, value) ==> Decode(k, Le(), Bits(), shifted, n) == Expected(k, n, value))
    {
      match CheckWidth(k, countBitsToUnshift)
      case Fail(e) =>
        r := Failed(e);
      case Ok(n) =>
        ghost var (m, p) := (Bits(), pushed);
        r := ExpandLeftIfNeed(n, DefaultExpandBits);
        if r.Done? {
          assert Bits() == seq(pushed - p, _ => false) + m;
          UnshiftNoExpand(k, n, value);
        }
    }

    /** `shift…`: checks only the width; the caller must leave enough bits
        stored, because the library's `shift…` never compares the width
        with the stored count. */
    method CheckedShift(k: Kind, countBitsToShift: Num) returns (r: Result<int>)
      requires Valid() && (CheckWidth(k, countBitsToShift).Ok? ==> countBitsToShift.value <= CountStoredBits())
      modifies this`shifted
      ensures Valid()
      ensures r.Ok? <==> CheckWidth(k, countBitsToShift).Ok?
      ensures r.Fail? ==> r.error == CheckWidth(k, countBitsToShift).error && shifted == old(shifted)
      ensures r.Ok? ==> shifted == old(shifted) + countBitsToShift.value &&
                        r.value == Decode(k, Le(), Bits(), old(shifted), countBitsToShift.value) &&
                        Window() == old(Window())[countBitsToShift.value..]
    {
      match CheckWidth(k, countBitsToShift)
      case Fail(e) =>
        r := Fail(e);
      case Ok(n) =>
        var v := Shift(k, n);
        r := Ok(v);
    }

    /** `pop…`: checks only the width, like `shift…`. */
    method CheckedPop(k: Kind, countBitsToPop: Num) returns (r: Result<int>)
      requires Valid() && (CheckWidth(k, countBitsToPop).Ok? ==> countBitsToPop.value <= CountStoredBits())
      modifies this`pushed
      ensures Valid()
      ensures r.Ok? <==> CheckWidth(k, countBitsToPop).Ok?
      ensures r.Fail? ==> r.error == CheckWidth(k, countBitsToPop).error && pushed == old(pushed)
      ensures r.Ok? ==> pushed == old(pushed) - countBitsToPop.value &&
                        r.value == Decode(k, Le(), Bits(), pushed, countBitsToPop.value) &&
                        Window() == old(Window())[..CountStoredBits()]
    {
      match CheckWidth(k, countBitsToPop)
      case Fail(e) =>
        r := Fail(e);
      case Ok(n) =>
        var v := Pop(k, n);
        r := Ok(v);
    }

    // ------------------------------------------------- counters and bits

    /** `clear`: forgets the stored bits; memory and limit stay. */
    method Clear()
      requires Valid()
      modifies this`pushed, this`shifted
      ensures Valid() && pushed == 0 && shifted == 0 && Window() == []
    {
      pushed := 0;
      shifted := 0;
    }

    /** `getAvailableBitsToPush`: up to the right ceiling when the memory
        may grow, up to the limit otherwise. */
    function AvailableBitsToPush(): (r: int)
      reads this`autoGrow, this`pushed, this`limit
      ensures autoGrow ==> r == (limit - pushed) + AvailableBitsToExpandRight()
      ensures !autoGrow ==> r == limit - pushed
    {
      if autoGrow then RightCeiling - pushed else limit - pushed
    }

    /** `getAvailableBitsToUnshift`: the free bits before the head, plus,
        when the memory may grow, the bytes it may still grow by. */
    function AvailableBitsToUnshift(): (r: int)
      reads this`autoGrow, this`shifted, this`data
      ensures !autoGrow ==> r == shifted
      ensures autoGrow && 8 * data.Length <= RightCeiling ==> r >= shifted
      ensures r % 8 == shifted % 8
    {
      if autoGrow then (RightCeiling / 8 - data.Length) * 8 + shifted else shifted
    }

    /** `push_Nothing`: moves the tail on by `countBits` without writing,
        so the bits already in memory there join the stored bits.  It does
        not grow the memory: a growable view could be pushed past its
        limit, which the second precondition excludes. */
    method PushNothing(countBits: Num) returns (r: Outcome)
      requires Valid()
      requires AssertUintMax(countBits, AvailableBitsToPush()).Ok? ==> pushed + countBits.value <= limit
      modifies this`pushed
      ensures Valid()
      ensures r.Done? <==> AssertUintMax(countBits, old(AvailableBitsToPush())).Ok?
      ensures r.Failed? ==> r.error == AssertUintMax(countBits, old(AvailableBitsToPush())).error && pushed == old(pushed)
      ensures r.Done? ==> pushed == old(pushed) + countBits.value &&
                          Window() == old(Window()) + Bits()[old(pushed)..pushed]
    {
      match AssertUintMax(countBits, AvailableBitsToPush())
      case Fail(e) =>
        r := Failed(e);
      case Ok(n) =>
        ghost var m := Bits();
        pushed := pushed + n;
        assert Bits() == m;
        r := Done;
    }

    /** `_setAt_Bit`. */
    method SetAtBit(bitIndexAt: nat, valueBit: bool)
      modifies data
      ensures Bits() == UpdateBit(old(Bits()), AddressOf(bitIndexAt), valueBit)
    {
      SetBitInMemory(valueBit, AddressOf(bitIndexAt));
    }

    /** `_getAt_Bit`: the bit as 0 or 1, which is what the sub-byte reader
        gives for a one-bit field. */
    method GetAtBit(bitIndexAt: nat) returns (bit: nat)
      ensures bit == ReadBits(Bits(), AddressOf(bitIndexAt), 1)
    {
      bit := GetBitInMemory(AddressOf(bitIndexAt));
    }

    /** `_push_Bit_noAssertsNoExpand`: stores the bit at the tail, then
        moves the tail on. */
    method PushBitNoExpand(bitValue: bool)
      requires Valid() && pushed < limit
      modifies this`pushed, data
      ensures Valid() && pushed == old(pushed) + 1
      ensures Bits() == UpdateBit(old(Bits()), old(pushed), bitValue)
      ensures Window() == old(Window()) + [bitValue]
    {
      ghost var (m, w0) := (Bits(), Window());
      SetBitInMemory(bitValue, pushed);
      BytesHoldLimit(limit);
      pushed := pushed + 1;
      assert Window() == m[shifted..pushed - 1] + [bitValue];
    }

    /** `push_Bits`: the bit must be 0 or 1 and the count at most
        `AvailableBitsToPush`; the memory grows when needed, then the bit
        is pushed `count` times. */
    method PushBits(bitValue: Num, count: Num := Integral(1)) returns (r: Outcome)
      requires Valid()
      modifies this`limit, this`pushed, this`data, data
      ensures Valid()
      ensures r.Done? <==> AssertUintMax(bitValue, 1).Ok? && AssertUintMax(count, old(AvailableBitsToPush())).Ok? &&
                           (old(pushed) + count.value <= old(limit) ||
                            (autoGrow && GrowthFor(count.value, DefaultExpandBits) <= old(AvailableBitsToExpandRight())))
      ensures r.Failed? ==> r.error == if AssertUintMax(bitValue, 1).Fail? then AssertUintMax(bitValue, 1).error
                                       else if AssertUintMax(count, old(AvailableBitsToPush())).Fail?
                                       then AssertUintMax(count, old(AvailableBitsToPush())).error
                                       else if autoGrow then RangeError else PlainError
      ensures r.Failed? ==> pushed == old(pushed) && limit == old(limit) && data == old(data) && Bits() == old(Bits())
      ensures data.Length >= old(data.Length)
      ensures r.Done? ==> limit == if old(pushed) + count.value <= old(limit) then old(limit)
                                   else old(limit) + GrowthFor(count.value, DefaultExpandBits)
      ensures r.Done? ==> pushed == old(pushed) + count.value &&
                          Window() == old(Window()) + seq(count.value, _ => bitValue.value == 1)
      ensures r.Done? ==> var grown := old(Bits()) + seq(8 * (data.Length - old(data.Length)), _ => false);
                          |Bits()| == |grown| &&
                          forall i | 0 <= i < |grown| :: Bits()[i] == if old(pushed) <= i < pushed then bitValue.value == 1 else grown[i]
    {
      match AssertUintMax(bitValue, 1)
      case Fail(e) =>
        r := Failed(e);
      case Ok(bit) =>
        match AssertUintMax(count, AvailableBitsToPush())
        case Fail(e) =>
          r := Failed(e);
        case Ok(n) =>
          ghost var m := Bits();
          r := ExpandRightIfNeed(n, DefaultExpandBits);
          if r.Done? {
            assert Bits() == m + seq(8 * (data.Length - old(data.Length)), _ => false);
            PushBitsNoExpand(bit == 1, n);
          }
    }

    /** The loop of `push_Bits`: the bit is pushed `count` times; only the
        memory bits the tail passes over change. */
    method PushBitsNoExpand(bitValue: bool, count: nat)
      requires Valid() && pushed + count <= limit
      modifies this`pushed, data
      ensures Valid() && pushed == old(pushed) + count
      ensures Window() == old(Window()) + seq(count, _ => bitValue)
      ensures |Bits()| == |old(Bits())|
      ensures forall i | 0 <= i < |old(Bits())| :: Bits()[i] == if old(pushed) <= i < pushed then bitValue else old(Bits())[i]
    {
      ghost var (m, w0, p0) := (Bits(), Window(), pushed);
      var left := count;
      while left > 0
        invariant Valid() && pushed + left <= limit
        invariant pushed == p0 + (count - left)
        invariant Window() == w0 + seq(count - left, _ => bitValue)
        invariant |Bits()| == |m|
        invariant forall i | 0 <= i < |m| :: Bits()[i] == if p0 <= i < pushed then bitValue else m[i]
      {
        PushBitNoExpand(bitValue);
        left := left - 1;
        assert seq(count - left, _ => bitValue) == seq(count - left - 1, _ => bitValue) + [bitValue];
      }
    }

    // --------------------------------------------------------- byte blocks

    /** `setAt_Uint8Array_noExpandNoAsserts`: every byte with the 8-bit
        writer, into field `i` at index `bitIndexAt + 8 * i`.  Big endian
        writes byte `i` there, first to last; little endian writes byte
        `L - 1 - i` there, last field first.  The bits outside the block
        keep their values. */
    method SetAtBytes(bitIndexAt: nat := 0, uint8Array: seq<bv8>, littleEndian: bool := false)
      requires AddressOf(bitIndexAt) + 8 * |uint8Array| <= 8 * data.Length
      modifies data
      ensures BlockAt(Bits(), AddressOf(bitIndexAt), 8 * |uint8Array|) == Ordered(uint8Array, littleEndian)
      ensures Filled(Bits(), old(Bits()), AddressOf(bitIndexAt), 0, |uint8Array|, Values(Ordered(uint8Array, littleEndian)))
    {
      ghost var (m0, a) := (Bits(), AddressOf(bitIndexAt));
      ghost var want := Ordered(uint8Array, littleEndian);
      ghost var vals := Values(want);
      var L := |uint8Array|;
      if littleEndian {
        var i: int := L - 1;
        while i >= 0
          invariant -1 <= i < L && Filled(Bits(), m0, a, i + 1, L, vals)
        {
          ghost var m := Bits();
          SetAt(Byte, bitIndexAt + i * 8, 8, uint8Array[L - 1 - i] as int);
          FillBelow(m, m0, a, i + 1, L, vals, Le());
          i := i - 1;
        }
      } else {
        var i := 0;
        while i < L
          invariant 0 <= i <= L && Filled(Bits(), m0, a, 0, i, vals)
        {
          ghost var m := Bits();
          SetAt(Byte, bitIndexAt + i * 8, 8, uint8Array[i] as int);
          FillAbove(m, m0, a, 0, i, vals, Le());
          i := i + 1;
        }
      }
      FilledBlock(Bits(), m0, a, want);
    }

    /** `_setUntil_Uint8Array_noExpandNoAsserts`: the block ending
        `bitIndexUntil` bits before the tail. */
    method SetUntilBytes(bitIndexUntil: nat := 0, uint8Array: seq<bv8>, littleEndian: bool := false)
      requires Valid() && bitIndexUntil + 8 * |uint8Array| <= CountStoredBits()
      modifies data
      ensures var a := pushed - bitIndexUntil - 8 * |uint8Array|;
              BlockAt(Bits(), a, 8 * |uint8Array|) == Ordered(uint8Array, littleEndian) &&
              Filled(Bits(), old(Bits()), a, 0, |uint8Array|, Values(Ordered(uint8Array, littleEndian)))
    {
      BytesHoldLimit(limit);
      SetAtBytes(CountStoredBits() - bitIndexUntil - 8 * |uint8Array|, uint8Array, littleEndian);
    }

    /** `_setAt_Uint8Array_noAsserts`: only a count of 8 bits per byte is
        supported; any other count is refused with an error. */
    method SetAtBytesCounted(bitIndexAt: nat, countBitsToSet: nat, uint8Array: seq<bv8>, littleEndian: bool)
      returns (r: Outcome)
      requires countBitsToSet == 8 * |uint8Array| ==> AddressOf(bitIndexAt) + countBitsToSet <= 8 * data.Length
      modifies data
      ensures r.Done? <==> countBitsToSet == 8 * |uint8Array|
      ensures r.Failed? ==> r.error == PlainError && Bits() == old(Bits())
      ensures r.Done? ==> BlockAt(Bits(), AddressOf(bitIndexAt), countBitsToSet) == Ordered(uint8Array, littleEndian) &&
                          Filled(Bits(), old(Bits()), AddressOf(bitIndexAt), 0, |uint8Array|, Values(Ordered(uint8Array, littleEndian)))
    {
      if countBitsToSet != 8 * |uint8Array| {
        return Failed(PlainError);
      }
      SetAtBytes(bitIndexAt, uint8Array, littleEndian);
      r := Done;
    }

    /** `push_Uint8Array`: grows the memory to the right when the bytes
        would pass the limit, moves the tail on by 8 bits per byte, then
        writes the bytes, big endian, as the last stored bits. */
    method PushBytes(uint8Array: seq<bv8>) returns (r: Outcome)
      requires Valid()
      modifies this`limit, this`pushed, this`data, data
      ensures Valid()
      ensures r.Done? <==> old(pushed) + 8 * |uint8Array| <= old(limit) ||
                           (autoGrow && GrowthFor(8 * |uint8Array|, DefaultExpandBits) <= old(AvailableBitsToExpandRight()))
      ensures r.Failed? ==> r.error == (if autoGrow then RangeError else PlainError) &&
                            limit == old(limit) && pushed == old(pushed) && data == old(data) && Bits() == old(Bits())
      ensures data.Length >= old(data.Length)
      ensures r.Done? ==> limit == if old(pushed) + 8 * |uint8Array| <= old(limit) then old(limit)
                                   else old(limit) + GrowthFor(8 * |uint8Array|, DefaultExpandBits)
      ensures r.Done? ==> pushed == old(pushed) + 8 * |uint8Array| &&
                          BlockAt(Bits(), old(pushed), 8 * |uint8Array|) == uint8Array &&
                          Filled(Bits(), old(Bits()) + seq(8 * (data.Length - old(data.Length)), _ => false),
                                 old(pushed), 0, |uint8Array|, Values(uint8Array)) &&
                          Window()[..old(CountStoredBits())] == old(Window())
    {
      ghost var m := Bits();
      r := ExpandRightIfNeed(8 * |uint8Array|, DefaultExpandBits);
      if r.Done? {
        assert Bits() == m + seq(8 * (data.Length - old(data.Length)), _ => false);
        PushBytesNoExpand(uint8Array);
      }
    }

    /** The tail moves on by 8 bits per byte, then the bytes are written,
        big endian, as the last stored bits; the stored bits before them
        are kept. */
    method PushBytesNoExpand(uint8Array: seq<bv8>)
      requires Valid() && pushed + 8 * |uint8Array| <= limit
      modifies this`pushed, data
      ensures Valid() && pushed == old(pushed) + 8 * |uint8Array|
      ensures BlockAt(Bits(), old(pushed), 8 * |uint8Array|) == uint8Array
      ensures Filled(Bits(), old(Bits()), old(pushed), 0, |uint8Array|, Values(uint8Array))
      ensures Window()[..old(CountStoredBits())] == old(Window())
    {
      ghost var (m, p, w0) := (Bits(), pushed, Window());
      pushed := pushed + 8 * |uint8Array|;
      assert Bits() == m;
      SetUntilBytes(0, uint8Array, false);
      assert pushed - 0 - 8 * |uint8Array| == p;
      BytesHoldLimit(limit);
      FilledBefore(Bits(), m, p, |uint8Array|, Values(uint8Array), shifted);
      assert Window()[..p - shifted] == Bits()[shifted..p] == m[shifted..p] == w0;
    }

    /** `_getAt_Uint8Array_noAsserts`: ceil(count / 8) bytes; chunk `i`,
        the at most 8 bits at index `bitIndexAt + 8 * i`, is read with the
        sub-byte reader into byte `i`, or into byte `countBytes - 1 - i`
        for little endian. */
    method GetAtBytes(bitIndexAt: nat, countBitsToGet: nat, littleEndian: bool := false) returns (uint8Array: seq<bv8>)
      ensures uint8Array == Ordered(BlockAt(Bits(), AddressOf(bitIndexAt), countBitsToGet), littleEndian)
    {
      ghost var B := BlockAt(Bits(), AddressOf(bitIndexAt), countBitsToGet);
      var countBytes := (countBitsToGet + 7) / 8;
      var result := new bv8[countBytes];
      var address := bitIndexAt;
      var left: int := countBitsToGet;
      var i := 0;
      while left > 0
        invariant 0 <= i <= countBytes && left == countBitsToGet - 8 * i
        invariant address == bitIndexAt + 8 * i
        invariant !littleEndian ==> forall j | 0 <= j < i :: result[j] == B[j]
        invariant littleEndian ==> forall j | countBytes - i <= j < countBytes :: result[j] == B[countBytes - 1 - j]
      {
        ChunkIndex(countBitsToGet, i);
        var count := if left >= 8 then 8 else left;
        var resultByteIndex := if littleEndian then countBytes - 1 - i else i;
        var byteData := GetAt(Byte, address, count);
        ChunkRead(Bits(), AddressOf(bitIndexAt), countBitsToGet, i, Le(), byteData);
        result[resultByteIndex] := byteData as bv8;
        address := address + 8;
        left := left - 8;
        i := i + 1;
      }
      ChunkIndex(countBitsToGet, i);
      uint8Array := result[..];
    }

    /** `exportUnit8Array`: the stored bits as ceil(stored / 8) bytes,
        chunk `i` from index `8 * i`, the last chunk short when the count
        is not a whole number of bytes, in reverse byte order when little
        endian.  Its loop is that of `_getAt_Uint8Array_noAsserts` from
        index 0; nothing changes. */
    method Export(littleEndian: bool := false) returns (uint8Array: seq<bv8>)
      requires Valid()
      ensures uint8Array == Ordered(BlockAt(Window(), 0, CountStoredBits()), littleEndian)
    {
      uint8Array := GetAtBytes(0, CountStoredBits(), littleEndian);
      BytesHoldLimit(limit);
      BlockAtSlice(Bits(), shifted, pushed, CountStoredBits());
    }

    /** `importUint8Array`: the view takes a copy of the bytes, with limit
        and tail at their end and the head at 0, so every bit of them is
        stored. */
    method Import(uint8Array: seq<bv8>)
      modifies this`limit, this`pushed, this`shifted, this`data
      ensures Valid() && limit == 8 * |uint8Array| && pushed == limit && shifted == 0
      ensures fresh(data) && data[..] == uint8Array
      ensures Window() == MemBits(uint8Array, bitNumbering.bitNumbering)
    {
      limit := |uint8Array| * 8;
      pushed := limit;
      shifted := 0;
      data := new bv8[|uint8Array|](i requires 0 <= i < |uint8Array| => uint8Array[i]);
      assert data[..] == uint8Array;
    }

    /** `shift_Uint8Array`: the count must be an integer in 0 .. stored;
        then the chunks are shifted (`ShiftChunks`). */
    method ShiftBytes(countBitsToShift: Num := Integral(pushed - shifted), littleEndian: bool := false) returns (r: Result<seq<bv8>>)
      requires Valid()
      modifies this`shifted
      ensures Valid()
      ensures r.Ok? <==> AssertUintMax(countBitsToShift, old(CountStoredBits())).Ok?
      ensures r.Fail? ==> r.error == AssertUintMax(countBitsToShift, old(CountStoredBits())).error && shifted == old(shifted)
      ensures r.Ok? ==> var n := countBitsToShift.value;
                        shifted == old(shifted) + n && Window() == old(Window())[n..] &&
                        r.value == Ordered(BlockAt(old(Window()), 0, n), littleEndian)
    {
      match AssertUintMax(countBitsToShift, CountStoredBits())
      case Fail(e) =>
        r := Fail(e);
      case Ok(n) =>
        ghost var (m, s0, w0) := (Bits(), shifted, Window());
        var uint8Array := ShiftChunks(n, littleEndian);
        r := Ok(uint8Array);
        BytesHoldLimit(limit);
        BlockAtSlice(m, s0, pushed, n);
        assert Window() == w0[n..];
    }

    /** The loop of `shift_Uint8Array`: ceil(n / 8) chunks are shifted with
        the sub-byte shifter, 8 bits at a time and the rest last, into
        byte `i`, or into byte `countBytes - 1 - i` for little endian. */
    method ShiftChunks(n: nat, littleEndian: bool) returns (uint8Array: seq<bv8>)
      requires Valid() && n <= CountStoredBits()
      modifies this`shifted
      ensures Valid() && shifted == old(shifted) + n
      ensures uint8Array == Ordered(BlockAt(Bits(), old(shifted), n), littleEndian)
    {
      ghost var (m, s0) := (Bits(), shifted);
      ghost var B := BlockAt(m, s0, n);
      var countBytes := (n + 7) / 8;
      var result := new bv8[countBytes];
      var left: int := n;
      var i := 0;
      while left > 0
        invariant Valid() && Bits() == m
        invariant 0 <= i <= countBytes && left == n - 8 * i
        invariant shifted == s0 + n - (if left > 0 then left else 0)
        invariant fresh(result)
        invariant forall j | 0 <= j < i :: result[if littleEndian then countBytes - 1 - j else j] == B[j]
      {
        ChunkIndex(n, i);
        var count := if left >= 8 then 8 else left;
        var resultByteIndex := if littleEndian then countBytes - 1 - i else i;
        var byteData := Shift(Byte, count);
        ChunkRead(m, s0, n, i, Le(), byteData);
        result[resultByteIndex] := byteData as bv8;
        left := left - 8;
        i := i + 1;
      }
      ChunkIndex(n, i);
      uint8Array := result[..];
      PlacedIsOrdered(uint8Array, B, littleEndian);
    }

    /** `pop_Uint8Array`: the count must be an integer in 0 .. stored;
        then the chunks are popped (`PopChunks`). */
    method PopBytes(countBitsToPop: Num := Integral(pushed - shifted)) returns (r: Result<seq<bv8>>)
      requires Valid()
      modifies this`pushed
      ensures Valid()
      ensures r.Ok? <==> AssertUintMax(countBitsToPop, old(CountStoredBits())).Ok?
      ensures r.Fail? ==> r.error == AssertUintMax(countBitsToPop, old(CountStoredBits())).error && pushed == old(pushed)
      ensures r.Ok? ==> var n := countBitsToPop.value;
                        pushed == old(pushed) - n && Window() == old(Window())[..CountStoredBits()] &&
                        r.value == BlockBefore(old(Window()), old(CountStoredBits()), n)
    {
      match AssertUintMax(countBitsToPop, CountStoredBits())
      case Fail(e) =>
        r := Fail(e);
      case Ok(n) =>
        ghost var (m, p0, w0) := (Bits(), pushed, Window());
        var uint8Array := PopChunks(n);
        r := Ok(uint8Array);
        BytesHoldLimit(limit);
        BlockBeforeSlice(m, shifted, p0, n);
        assert Window() == w0[..CountStoredBits()];
    }

    /** The loop of `pop_Uint8Array`: ceil(n / 8) chunks are popped with
        the sub-byte popper, 8 bits at a time and the rest last, into
        bytes 0, 1, ... in turn. */
    method PopChunks(n: nat) returns (uint8Array: seq<bv8>)
      requires Valid() && n <= CountStoredBits()
      modifies this`pushed
      ensures Valid() && pushed == old(pushed) - n
      ensures uint8Array == BlockBefore(Bits(), old(pushed), n)
    {
      ghost var (m, p0) := (Bits(), pushed);
      ghost var B := BlockBefore(m, p0, n);
      var countElements := (n + 7) / 8;
      var result := new bv8[countElements];
      var left: int := n;
      var i := 0;
      while left > 0
        invariant Valid() && Bits() == m
        invariant 0 <= i <= countElements && left == n - 8 * i
        invariant pushed == p0 - n + (if left > 0 then left else 0)
        invariant forall j | 0 <= j < i :: result[j] == B[j]
      {
        ChunkIndex(n, i);
        var countBitsInCurrentElement := if left < 8 then left else 8;
        var byteData := Pop(Byte, countBitsInCurrentElement);
        ChunkReadBefore(m, p0, n, i, pushed, Le(), byteData);
        result[i] := byteData as bv8;
        left := left - 8;
        i := i + 1;
      }
      ChunkIndex(n, i);
      uint8Array := result[..];
    }
  }

  /** `new BitDataView(bits)` with a number: it must be an integer above
      0, or a `TypeError` is thrown before anything is allocated. */
  method NewWithBitCount(bufferInfo: Num) returns (r: Result<BitDataView>)
    ensures r.Ok? <==> bufferInfo.Integral? && bufferInfo.value > 0
    ensures r.Fail? ==> r.error == TypeError
    ensures r.Ok? ==> fresh(r.value) && r.value.Valid() && !r.value.autoGrow &&
                      r.value.limit == bufferInfo.value && r.value.pushed == 0 && r.value.shifted == 0 &&
                      r.value.data[..] == Zeros((bufferInfo.value + 7) / 8)
  {
    if !(bufferInfo.Integral? && bufferInfo.value > 0) {
      return Fail(TypeError);
    }
    var view := new BitDataView.WithBitCount(bufferInfo.value);
    r := Ok(view);
  }
}

=== FILE: BitNumbering.dfy ===
/** Which end of a byte holds bit address 0, a small mutable mode object
    that announces each change to its listeners. */
module Numbering {

  datatype EnumBitNumbering = LSB | MSB

  class BitNumbering {
    var bitNumbering: EnumBitNumbering
    /** How many "change" events have been dispatched so far. */
    var changeEvents: nat

    /** Least significant bit first unless told otherwise. */
    constructor (initial: EnumBitNumbering := LSB)
      ensures bitNumbering == initial && changeEvents == 0
    {
      bitNumbering := initial;
      changeEvents := 0;
    }

    function IsMSB(): (r: bool)
      reads this
      ensures r <==> !IsLSB()
    {
      bitNumbering == MSB
    }

    function IsLSB(): (r: bool)
      reads this
      ensures r <==> bitNumbering != MSB
    {
      bitNumbering == LSB
    }

    function Get(): (r: EnumBitNumbering)
      reads this
      ensures r == LSB <==> IsLSB()
    {
      bitNumbering
    }

    /** Stores `x`; a real change is reported and dispatched as one event. */
    method Set(x: EnumBitNumbering) returns (changed: bool)
      modifies this
      ensures bitNumbering == x
      ensures changed <==> old(bitNumbering) != x
      ensures changeEvents == old(changeEvents) + if changed then 1 else 0
    {
      changed := bitNumbering != x;
      bitNumbering := x;
      if changed {
        changeEvents := changeEvents + 1;
      }
    }

    method SetLSB() returns (changed: bool)
      modifies this
      ensures bitNumbering == LSB
      ensures changed <==> old(bitNumbering) == MSB
      ensures changeEvents == old(changeEvents) + if changed then 1 else 0
    {
      changed := Set(LSB);
    }

    method SetMSB() returns (changed: bool)
      modifies this
      ensures bitNumbering == MSB
      ensures changed <==> old(bitNumbering) == LSB
      ensures changeEvents == old(changeEvents) + if changed then 1 else 0
    {
      changed := Set(MSB);
    }

    /** `coin` stands for the outcome of `Math.random() >= 0.5`. */
    method SetRandom(coin: bool) returns (changed: bool)
      modifies this
      ensures bitNumbering == if coin then LSB else MSB
      ensures changed <==> old(bitNumbering) != bitNumbering
      ensures changeEvents == old(changeEvents) + if changed then 1 else 0
    {
      changed := Set(if coin then LSB else MSB);
    }
  }

  /** Setting the same numbering twice dispatches one event, exactly when
      the first call changed the mode, and none for the second call. */
  method SetIsIdempotent(b: BitNumbering, x: EnumBitNumbering) returns (first: bool, second: bool)
    modifies b
    ensures b.Get() == x
    ensures first <==> old(b.bitNumbering) != x
    ensures !second
    ensures b.changeEvents == old(b.changeEvents) + (if first then 1 else 0)
  {
    first := b.Set(x);
    second := b.Set(x);
  }
}

=== FILE: BitString.dfy ===
/** Memory seen as a string of bits, one per bit address, and the sub-byte
    codec that moves up to 8 bits between an integer and that string. */
module BitString {
  import opened Arith

  /** A bit of memory.  An address past the end reads as 0: a typed-array
      read past its end yields `undefined`, which the bit operators turn
      into 0. */
  function BitAt(m: seq<bool>, a: nat): bool
  {
    a < |m| && m[a]
  }

  /** Stores one bit.  A store past the end of memory is dropped, as a
      typed-array store past its end is. */
  function UpdateBit(m: seq<bool>, a: nat, b: bool): (r: seq<bool>)
    ensures |r| == |m|
  {
    if a < |m| then m[a := b] else m
  }

  /** The sub-byte writer: bit 0 of `v` goes to address `a`, then `v` is
      halved and the next bit goes to `a + 1`, `n` times. */
  function WriteBits(m: seq<bool>, a: nat, n: nat, v: int): (r: seq<bool>)
    ensures |r| == |m|
    decreases n
  {
    if n == 0 then m else WriteBits(UpdateBit(m, a, v % 2 == 1), a + 1, n - 1, v / 2)
  }

  /** One step of the sub-byte writer: the memory after the first bit
      store and the next address, count and value are handed in by the
      caller, as its loop has computed them. */
  lemma StepBits(m: seq<bool>, a: nat, n: nat, v: int, m': seq<bool>, a': nat, n': nat, v': int)
    requires n > 0 && m' == UpdateBit(m, a, v % 2 == 1)
    requires a' == a + 1 && n' == n - 1 && v' == v / 2
    ensures WriteBits(m, a, n, v) == WriteBits(m', a', n', v')
  {
  }

  /** The sub-byte reader: the `n` bits from address `a`, the bit at `a`
      least significant. */
  function ReadBits(m: seq<bool>, a: nat, n: nat): (r: nat)
    ensures r < Pow2(n)
    decreases n
  {
    if n == 0 then 0 else (if BitAt(m, a) then 1 else 0) + 2 * ReadBits(m, a + 1, n - 1)
  }

  /** `r` is `m` with the bits at addresses a .. a + n - 1 replaced by bits
      0 .. n - 1 of `v`; addresses past the end of memory do not exist, so
      nothing lands there. */
  ghost predicate Stores(r: seq<bool>, m: seq<bool>, a: nat, n: nat, v: int)
  {
    |r| == |m| &&
    forall x | 0 <= x < |m| :: r[x] == if a <= x < a + n then Bit(v, x - a) else m[x]
  }

  /** The `n` bits at `a` lie inside memory and are bits 0 .. n - 1 of `w`. */
  ghost predicate Holds(m: seq<bool>, a: nat, n: nat, w: int)
  {
    a + n <= |m| && forall x | a <= x < a + n :: m[x] == Bit(w, x - a)
  }

  /** Two memories agree on the bits at a .. a + n - 1. */
  ghost predicate SameBits(m: seq<bool>, m': seq<bool>, a: nat, n: nat)
  {
    forall x | a <= x < a + n :: BitAt(m, x) == BitAt(m', x)
  }

  /** The writer replaces exactly the `n` bits at `a` by the low bits of `v`. */
  lemma {:induction false} WriteBitsStores(m: seq<bool>, a: nat, n: nat, v: int)
    ensures Stores(WriteBits(m, a, n, v), m, a, n, v)
    decreases n
  {
    if n > 0 {
      var m1 := UpdateBit(m, a, v % 2 == 1);
      WriteBitsStores(m1, a + 1, n - 1, v / 2);
      var r := WriteBits(m, a, n, v);
      forall x | 0 <= x < |m|
        ensures r[x] == if a <= x < a + n then Bit(v, x - a) else m[x]
      {
        if a + 1 <= x < a + n {
          BitOfHalf(v, x - a - 1);
        } else if x == a {
          assert v / Pow2(0) == v;
        }
      }
    }
  }

  /** A stored field lying inside memory holds its value. */
  lemma StoresHolds(r: seq<bool>, m: seq<bool>, a: nat, n: nat, v: int)
    requires Stores(r, m, a, n, v) && a + n <= |m|
    ensures Holds(r, a, n, v)
  {
  }

  /** Reading `n` bits that hold the low bits of `w` gives `w` modulo 2^n. */
  lemma {:induction false} ReadBitsOfHolds(m: seq<bool>, a: nat, n: nat, w: int)
    requires Holds(m, a, n, w)
    ensures ReadBits(m, a, n) == w % Pow2(n)
    decreases n
  {
    if n > 0 {
      forall x | a + 1 <= x < a + n
        ensures m[x] == Bit(w / 2, x - (a + 1))
      {
        BitOfHalf(w, x - (a + 1));
      }
      ReadBitsOfHolds(m, a + 1, n - 1, w / 2);
      assert m[a] == Bit(w, 0);
      assert w / Pow2(0) == w;
      DivDivModSplit(w, 2, Pow2(n - 1));
    }
  }

  /** The reader sees only the `n` bits at `a`. */
  lemma {:induction false} ReadBitsLocal(m: seq<bool>, m': seq<bool>, a: nat, n: nat)
    requires SameBits(m, m', a, n)
    ensures ReadBits(m, a, n) == ReadBits(m', a, n)
    decreases n
  {
    if n > 0 {
      ReadBitsLocal(m, m', a + 1, n - 1);
    }
  }

  /** Round trip of the sub-byte codec: the `n` bits written are read back
      as `v` modulo 2^n, whenever the field lies inside memory. */
  lemma SubByteRoundTrip(m: seq<bool>, a: nat, n: nat, v: int)
    requires a + n <= |m|
    ensures ReadBits(WriteBits(m, a, n, v), a, n) == v % Pow2(n)
  {
    WriteBitsStores(m, a, n, v);
    ReadBitsOfHolds(WriteBits(m, a, n, v), a, n, v);
  }
}

=== FILE: Blocks.dfy ===
/** Byte blocks: a run of `count` bits cut into 8-bit chunks from its
    start, the last chunk shorter when `count` is not a whole number of
    bytes.  Each chunk is read by the sub-byte reader, so its first bit is
    the least significant bit of its byte. */
module Blocks {
  import opened Arith
  import opened BitString
  import opened Memory
  import opened Numbering
  import opened Codec

  /** The width of chunk `i` of a `count`-bit block. */
  function ChunkWidth(count: nat, i: nat): (w: nat)
    ensures w <= 8
  {
    if count >= 8 * i + 8 then 8 else if count >= 8 * i then count - 8 * i else 0
  }

  /** A chunk of at most 8 bits read as a byte. */
  function ChunkByte(m: seq<bool>, a: nat, w: nat): bv8
    requires w <= 8
  {
    Pow2AtMost8(w);
    ReadBits(m, a, w) as bv8
  }

  lemma Pow2AtMost8(w: nat)
    requires w <= 8
    ensures Pow2(w) <= 256
  {
    assert Pow2(8) == 256;
    if w < 8 {
      Pow2Strict(w, 8);
    }
  }

  /** The `count` bits from address `a`, chunk by chunk from the front:
      chunk `i` is the `ChunkWidth(count, i)` bits at `a + 8 * i`
      (`BlockAtIndex`).  Reached through a countdown, as `ByteField` is. */
  function BlockAt(m: seq<bool>, a: nat, count: nat): (r: seq<bv8>)
    ensures |r| == (count + 7) / 8
  {
    BlockAtAfter(|m| + 1, m, a, count)
  }

  function BlockAtAfter(steps: nat, m: seq<bool>, a: nat, count: nat): (r: seq<bv8>)
    ensures |r| == (count + 7) / 8
  {
    if steps == 0 then
      seq((count + 7) / 8, i requires 0 <= i < (count + 7) / 8 => ChunkByte(m, a + 8 * i, ChunkWidth(count, i)))
    else BlockAtAfter(steps - 1, m, a, count)
  }

  lemma {:induction false} BlockAtAfterIndex(steps: nat, m: seq<bool>, a: nat, count: nat, i: nat)
    requires i < (count + 7) / 8
    ensures BlockAtAfter(steps, m, a, count)[i] == ChunkByte(m, a + 8 * i, ChunkWidth(count, i))
  {
    if steps > 0 {
      BlockAtAfterIndex(steps - 1, m, a, count, i);
    }
  }

  lemma BlockAtIndex(m: seq<bool>, a: nat, count: nat, i: nat)
    requires i < (count + 7) / 8
    ensures BlockAt(m, a, count)[i] == ChunkByte(m, a + 8 * i, ChunkWidth(count, i))
  {
    BlockAtAfterIndex(|m| + 1, m, a, count, i);
  }

  /** The `count` bits ending before address `p`, chunk by chunk from the
      back: chunk `i` ends `8 * i` bits before `p` (`BlockBeforeIndex`). */
  function BlockBefore(m: seq<bool>, p: nat, count: nat): (r: seq<bv8>)
    requires count <= p
    ensures |r| == (count + 7) / 8
  {
    BlockBeforeAfter(|m| + 1, m, p, count)
  }

  function BlockBeforeAfter(steps: nat, m: seq<bool>, p: nat, count: nat): (r: seq<bv8>)
    requires count <= p
    ensures |r| == (count + 7) / 8
  {
    if steps == 0 then seq((count + 7) / 8, i requires 0 <= i < (count + 7) / 8 => ChunkBefore(m, p, count, i))
    else BlockBeforeAfter(steps - 1, m, p, count)
  }

  lemma {:induction false} BlockBeforeAfterIndex(steps: nat, m: seq<bool>, p: nat, count: nat, i: nat)
    requires count <= p && i < (count + 7) / 8
    ensures BlockBeforeAfter(steps, m, p, count)[i] == ChunkBefore(m, p, count, i)
  {
    if steps > 0 {
      BlockBeforeAfterIndex(steps - 1, m, p, count, i);
    }
  }

  lemma BlockBeforeIndex(m: seq<bool>, p: nat, count: nat, i: nat)
    requires count <= p && i < (count + 7) / 8
    ensures BlockBefore(m, p, count)[i] == ChunkBefore(m, p, count, i)
  {
    BlockBeforeAfterIndex(|m| + 1, m, p, count, i);
  }

  /** Chunk `i` of the block ending before `p`. */
  function ChunkBefore(m: seq<bool>, p: nat, count: nat, i: nat): bv8
    requires count <= p && i < (count + 7) / 8
  {
    ChunkIndex(count, i);
    ChunkByte(m, p - 8 * i - ChunkWidth(count, i), ChunkWidth(count, i))
  }

  function Reversed(s: seq<bv8>): (r: seq<bv8>)
    ensures |r| == |s| && forall i | 0 <= i < |s| :: r[i] == s[|s| - 1 - i]
  {
    seq(|s|, i requires 0 <= i < |s| => s[|s| - 1 - i])
  }

  /** A block in the requested byte order: as read for big endian,
      last chunk first for little endian. */
  function Ordered(s: seq<bv8>, littleEndian: bool): (r: seq<bv8>)
    ensures |r| == |s|
  {
    if littleEndian then Reversed(s) else s
  }

  /** Bytes stored one by one, chunk `j` at `j` for big endian and at the
      mirrored place for little endian, make up the ordered block. */
  lemma PlacedIsOrdered(r: seq<bv8>, s: seq<bv8>, littleEndian: bool)
    requires |r| == |s|
    requires forall j | 0 <= j < |s| :: r[if littleEndian then |s| - 1 - j else j] == s[j]
    ensures r == Ordered(s, littleEndian)
  {
    forall k | 0 <= k < |s|
      ensures r[k] == Ordered(s, littleEndian)[k]
    {
      if littleEndian {
        assert r[|s| - 1 - (|s| - 1 - k)] == s[|s| - 1 - k];
      }
    }
  }

  /** Every byte with its bits in the opposite order. */
  function BitReversed(s: seq<bv8>): (r: seq<bv8>)
    ensures |r| == |s| && forall i | 0 <= i < |s| :: r[i] == ReverseByte(s[i])
  {
    seq(|s|, i requires 0 <= i < |s| => ReverseByte(s[i]))
  }

  /** Chunk `i` exists exactly when it starts before the end of the block,
      and then it ends inside the block. */
  lemma ChunkIndex(count: nat, i: nat)
    ensures 8 * i < count <==> i < (count + 7) / 8
    ensures 8 * i < count ==> 8 * i + ChunkWidth(count, i) <= count && ChunkWidth(count, i) > 0
  {
  }

  /** A write of a value that fits its field is read back unchanged. */
  lemma FieldWriteReads(m: seq<bool>, c: nat, n: nat, v: int)
    requires c + n <= |m| && 0 <= v < Pow2(n)
    ensures ReadBits(WriteBits(m, c, n, v), c, n) == v
  {
    SubByteRoundTrip(m, c, n, v);
    DivModUnique(v, Pow2(n), 0, v);
  }

  /** An 8-bit write inside memory is read back as its byte. */
  lemma ByteWriteReads(m: seq<bool>, c: nat, v: int)
    requires c + 8 <= |m| && 0 <= v < 256
    ensures ReadBits(WriteBits(m, c, 8, v), c, 8) == v
  {
    assert Pow2(8) == 256;
    FieldWriteReads(m, c, 8, v);
  }

  /** An 8-bit write changes no bit outside its field, so every byte field
      clear of it reads as before. */
  lemma ByteWriteKeeps(m: seq<bool>, c: nat, v: int)
    ensures var r := WriteBits(m, c, 8, v);
            (forall x | 0 <= x < |m| && !(c <= x < c + 8) :: r[x] == m[x]) &&
            (forall d: nat | d + 8 <= c || c + 8 <= d :: ReadBits(r, d, 8) == ReadBits(m, d, 8))
  {
    var r := WriteBits(m, c, 8, v);
    WriteBitsStores(m, c, 8, v);
    forall d: nat | d + 8 <= c || c + 8 <= d
      ensures ReadBits(r, d, 8) == ReadBits(m, d, 8)
    {
      ReadBitsLocal(r, m, d, 8);
    }
  }

  /** The value of the 8-bit field at address `a`.  It is reached through
      a countdown over the length of the memory, as `Encode` is, so that a
      proof about many fields meets the bits of one only where
      `ByteFieldIsRead` is called. */
  function ByteField(m: seq<bool>, a: nat): nat
  {
    ByteFieldAfter(|m| + 1, m, a)
  }

  function ByteFieldAfter(steps: nat, m: seq<bool>, a: nat): nat
  {
    if steps == 0 then ReadBits(m, a, 8) else ByteFieldAfter(steps - 1, m, a)
  }

  lemma {:induction false} ByteFieldAfterIsRead(steps: nat, m: seq<bool>, a: nat)
    ensures ByteFieldAfter(steps, m, a) == ReadBits(m, a, 8)
  {
    if steps > 0 {
      ByteFieldAfterIsRead(steps - 1, m, a);
    }
  }

  lemma ByteFieldIsRead(m: seq<bool>, a: nat)
    ensures ByteField(m, a) == ReadBits(m, a, 8)
  {
    ByteFieldAfterIsRead(|m| + 1, m, a);
  }

  /** The byte writer of the codec layer, on 8 bits inside memory: the
      field reads back as the byte, and every bit and byte field clear of
      it is kept. */
  lemma ByteWrite(m: seq<bool>, c: nat, v: int, le: bool)
    requires c + 8 <= |m| && 0 <= v < 256
    ensures var r := Encode(Byte, le, m, c, 8, v);
            ByteField(r, c) == v &&
            (forall x | 0 <= x < |m| && !(c <= x < c + 8) :: r[x] == m[x]) &&
            (forall d: nat | d + 8 <= c || c + 8 <= d :: ByteField(r, d) == ByteField(m, d))
  {
    var r := Encode(Byte, le, m, c, 8, v);
    EncodeIsWrite(Byte, le, m, c, 8, v);
    ByteWriteReads(m, c, v);
    ByteWriteKeeps(m, c, v);
    ByteFieldIsRead(r, c);
    forall d: nat | d + 8 <= c || c + 8 <= d
      ensures ByteField(r, d) == ByteField(m, d)
    {
      ByteFieldIsRead(r, d);
      ByteFieldIsRead(m, d);
    }
  }

  /** The reader on a slice of memory reads the memory it was cut from,
      from the start of the slice on. */
  lemma {:induction false} ReadBitsSlice(m: seq<bool>, s: nat, e: nat, a: nat, n: nat)
    requires s <= e <= |m| && a + n <= e - s
    ensures ReadBits(m[s..e], a, n) == ReadBits(m, s + a, n)
    decreases n
  {
    if n > 0 {
      ReadBitsSlice(m, s, e, a + 1, n - 1);
      assert BitAt(m[s..e], a) == BitAt(m, s + a);
    }
  }

  /** The first `n` bits of a slice, as a block. */
  lemma BlockAtSlice(m: seq<bool>, s: nat, e: nat, n: nat)
    requires s <= e <= |m| && n <= e - s
    ensures BlockAt(m[s..e], 0, n) == BlockAt(m, s, n)
  {
    forall i | 0 <= i < (n + 7) / 8
      ensures BlockAt(m[s..e], 0, n)[i] == BlockAt(m, s, n)[i]
    {
      BlockAtIndex(m[s..e], 0, n, i);
      BlockAtIndex(m, s, n, i);
      ChunkAtSlice(m, s, e, n, i);
    }
  }

  lemma ChunkAtSlice(m: seq<bool>, s: nat, e: nat, n: nat, i: nat)
    requires s <= e <= |m| && n <= e - s && i < (n + 7) / 8
    ensures ChunkByte(m[s..e], 8 * i, ChunkWidth(n, i)) == ChunkByte(m, s + 8 * i, ChunkWidth(n, i))
  {
    ChunkIndex(n, i);
    ReadBitsSlice(m, s, e, 8 * i, ChunkWidth(n, i));
  }

  /** The last `n` bits of a slice, as a block read from the back. */
  lemma BlockBeforeSlice(m: seq<bool>, s: nat, e: nat, n: nat)
    requires s <= e <= |m| && n <= e - s
    ensures BlockBefore(m[s..e], e - s, n) == BlockBefore(m, e, n)
  {
    forall i | 0 <= i < (n + 7) / 8
      ensures BlockBefore(m[s..e], e - s, n)[i] == BlockBefore(m, e, n)[i]
    {
      ChunkIndex(n, i);
      BlockBeforeIndex(m[s..e], e - s, n, i);
      BlockBeforeIndex(m, e, n, i);
      ChunkBeforeSlice(m, s, e, n, i);
    }
  }

  lemma ChunkBeforeSlice(m: seq<bool>, s: nat, e: nat, n: nat, i: nat)
    requires s <= e <= |m| && n <= e - s && i < (n + 7) / 8
    ensures ChunkBefore(m[s..e], e - s, n, i) == ChunkBefore(m, e, n, i)
  {
    ChunkIndex(n, i);
    ReadBitsSlice(m, s, e, e - s - 8 * i - ChunkWidth(n, i), ChunkWidth(n, i));
  }

  /** The bytes as numbers. */
  function Values(bytes: seq<bv8>): (r: seq<int>)
    ensures |r| == |bytes| && forall j | 0 <= j < |bytes| :: r[j] == bytes[j] as int && 0 <= r[j] < 256
  {
    seq(|bytes|, j requires 0 <= j < |bytes| => bytes[j] as int)
  }

  /** `m` is `m0` with the byte fields `lo .. hi - 1` from address `a`
      holding the values of `vals` with the same indices, and every bit
      outside those fields as in `m0`. */
  ghost predicate Filled(m: seq<bool>, m0: seq<bool>, a: nat, lo: nat, hi: nat, vals: seq<int>)
  {
    |m| == |m0| && lo <= hi <= |vals| &&
    (forall x | 0 <= x < |m0| && !(a + 8 * lo <= x < a + 8 * hi) :: m[x] == m0[x]) &&
    (forall j | lo <= j < hi :: ByteField(m, a + 8 * j) == vals[j])
  }

  /** Writing the next byte after the filled fields fills one more. */
  lemma FillAbove(m: seq<bool>, m0: seq<bool>, a: nat, lo: nat, hi: nat, vals: seq<int>, le: bool)
    requires Filled(m, m0, a, lo, hi, vals) && hi < |vals| && 0 <= vals[hi] < 256 && a + 8 * hi + 8 <= |m|
    ensures Filled(Encode(Byte, le, m, a + 8 * hi, 8, vals[hi]), m0, a, lo, hi + 1, vals)
  {
    var c := a + 8 * hi;
    var r := Encode(Byte, le, m, c, 8, vals[hi]);
    ByteWrite(m, c, vals[hi], le);
    forall x | 0 <= x < |m0| && !(a + 8 * lo <= x < c + 8)
      ensures r[x] == m0[x]
    {
      assert !(c <= x < c + 8) && !(a + 8 * lo <= x < a + 8 * hi);
    }
    forall j | lo <= j < hi + 1
      ensures ByteField(r, a + 8 * j) == vals[j]
    {
      if j < hi {
        assert a + 8 * j + 8 <= c;
      }
    }
  }

  /** Writing the byte before the filled fields fills one more. */
  lemma FillBelow(m: seq<bool>, m0: seq<bool>, a: nat, lo: nat, hi: nat, vals: seq<int>, le: bool)
    requires Filled(m, m0, a, lo, hi, vals) && 0 < lo && 0 <= vals[lo - 1] < 256 && a + 8 * lo <= |m|
    ensures Filled(Encode(Byte, le, m, a + 8 * (lo - 1), 8, vals[lo - 1]), m0, a, lo - 1, hi, vals)
  {
    var c := a + 8 * (lo - 1);
    var r := Encode(Byte, le, m, c, 8, vals[lo - 1]);
    ByteWrite(m, c, vals[lo - 1], le);
    forall x | 0 <= x < |m0| && !(c <= x < a + 8 * hi)
      ensures r[x] == m0[x]
    {
      assert !(c <= x < c + 8) && !(a + 8 * lo <= x < a + 8 * hi);
    }
    forall j | lo - 1 <= j < hi
      ensures ByteField(r, a + 8 * j) == vals[j]
    {
      if j >= lo {
        assert c + 8 <= a + 8 * j;
      }
    }
  }

  /** Once every field is filled, the block is the bytes. */
  lemma FilledBlock(m: seq<bool>, m0: seq<bool>, a: nat, bytes: seq<bv8>)
    requires Filled(m, m0, a, 0, |bytes|, Values(bytes))
    ensures BlockAt(m, a, 8 * |bytes|) == bytes
  {
    forall j | 0 <= j < |bytes|
      ensures ReadBits(m, a + 8 * j, 8) == bytes[j] as nat
    {
      ByteFieldIsRead(m, a + 8 * j);
    }
    BlockOfBytes(m, a, bytes);
  }

  /** The bits before the first filled field are those of `m0`. */
  lemma FilledBefore(m: seq<bool>, m0: seq<bool>, a: nat, k: nat, vals: seq<int>, s: nat)
    requires Filled(m, m0, a, 0, k, vals) && s <= a <= |m0|
    ensures m[s..a] == m0[s..a]
  {
  }

  /** A chunk read with the byte reader is that chunk of the block. */
  lemma ChunkRead(m: seq<bool>, a: nat, count: nat, i: nat, le: bool, v: int)
    requires i < (count + 7) / 8 && v == Decode(Byte, le, m, a + 8 * i, ChunkWidth(count, i))
    ensures 0 <= v < 256 && BlockAt(m, a, count)[i] == v as bv8
  {
    DecodeIsRead(Byte, le, m, a + 8 * i, ChunkWidth(count, i));
    Pow2AtMost8(ChunkWidth(count, i));
    BlockAtIndex(m, a, count, i);
  }

  /** A chunk read with the byte reader `8 * i` bits and its own width
      before `p` is that chunk of the block read from the back. */
  lemma ChunkReadBefore(m: seq<bool>, p: nat, count: nat, i: nat, c: nat, le: bool, v: int)
    requires count <= p && i < (count + 7) / 8 && c + 8 * i + ChunkWidth(count, i) == p
    requires v == Decode(Byte, le, m, c, ChunkWidth(count, i))
    ensures 0 <= v < 256 && BlockBefore(m, p, count)[i] == v as bv8
  {
    DecodeIsRead(Byte, le, m, c, ChunkWidth(count, i));
    Pow2AtMost8(ChunkWidth(count, i));
    BlockBeforeIndex(m, p, count, i);
  }

  /** A block of whole bytes is the bytes its 8-bit fields hold. */
  lemma BlockOfBytes(m: seq<bool>, a: nat, bytes: seq<bv8>)
    requires forall j | 0 <= j < |bytes| :: ReadBits(m, a + 8 * j, 8) == bytes[j] as nat
    ensures BlockAt(m, a, 8 * |bytes|) == bytes
  {
    var B := BlockAt(m, a, 8 * |bytes|);
    forall j | 0 <= j < |bytes|
      ensures B[j] == bytes[j]
    {
      BlockAtIndex(m, a, 8 * |bytes|, j);
      assert ChunkWidth(8 * |bytes|, j) == 8;
      assert (bytes[j] as nat) as bv8 == bytes[j];
    }
  }

  /** Import then export in LSB mode gives the bytes back. */
  lemma ExportOfImportLSB(b: seq<bv8>)
    ensures BlockAt(MemBits(b, LSB), 0, 8 * |b|) == b
  {
    forall j | 0 <= j < |b|
      ensures ReadBits(MemBits(b, LSB), 0 + 8 * j, 8) == b[j] as nat
    {
      ReadByteLSB(b, j);
    }
    BlockOfBytes(MemBits(b, LSB), 0, b);
  }

  /** Import then export in MSB mode gives every byte back bit-reversed:
      the byte codecs read the first bit as the least significant. */
  lemma ExportOfImportMSB(b: seq<bv8>)
    ensures BlockAt(MemBits(b, MSB), 0, 8 * |b|) == BitReversed(b)
  {
    var r := BitReversed(b);
    forall j | 0 <= j < |b|
      ensures ReadBits(MemBits(b, MSB), 0 + 8 * j, 8) == r[j] as nat
    {
      ReadByteMSB(b, j);
    }
    BlockOfBytes(MemBits(b, MSB), 0, r);
  }

  /** Last in, first out: the whole bytes of a block, popped from its end,
      come in the reverse order. */
  lemma PopReversesPush(m: seq<bool>, p: nat, bytes: seq<bv8>)
    requires BlockAt(m, p, 8 * |bytes|) == bytes
    ensures BlockBefore(m, p + 8 * |bytes|, 8 * |bytes|) == Reversed(bytes)
  {
    var L := |bytes|;
    var P := BlockBefore(m, p + 8 * L, 8 * L);
    forall i | 0 <= i < L
      ensures P[i] == bytes[L - 1 - i]
    {
      BlockBeforeIndex(m, p + 8 * L, 8 * L, i);
      BlockAtIndex(m, p, 8 * L, L - 1 - i);
      ChunkMirror(m, p, L, i);
    }
  }

  /** Chunk `i` from the back of a block of `L` whole bytes is chunk
      `L - 1 - i` from its front. */
  lemma ChunkMirror(m: seq<bool>, p: nat, L: nat, i: nat)
    requires i < L
    ensures ChunkBefore(m, p + 8 * L, 8 * L, i) == ChunkByte(m, p + 8 * (L - 1 - i), ChunkWidth(8 * L, L - 1 - i))
  {
    assert ChunkWidth(8 * L, i) == 8 && ChunkWidth(8 * L, L - 1 - i) == 8;
    assert p + 8 * L - 8 * i - 8 == p + 8 * (L - 1 - i);
  }
}

=== FILE: Checks.dfy ===
/** Argument checking for the public operations, and the failures they
    report.  A JavaScript number argument is either an integer or not;
    non-integers (fractions, NaN, non-numbers) are all rejected alike. */
module Checks {

  datatype Num = Integral(value: int) | NotIntegral

  /** The exceptions thrown: `TypeError` for a non-integer, `RangeError`
      for an integer out of range, and a plain `Error` for a refused
      memory expansion or an unsupported block size. */
  datatype Exception = TypeError | RangeError | PlainError

  datatype Result<T> = Ok(value: T) | Fail(error: Exception)

  /** The outcome of an operation that returns nothing. */
  datatype Outcome = Done | Failed(error: Exception)

  /** `assertUintMax`: accepts an integer in 0 .. maxValue. */
  function AssertUintMax(value: Num, maxValue: int): (r: Result<nat>)
    ensures r.Ok? <==> value.Integral? && 0 <= value.value <= maxValue
    ensures r.Ok? ==> r.value == value.value
    ensures r.Fail? ==> (r.error == TypeError <==> value.NotIntegral?)
    ensures r.Fail? ==> r.error == TypeError || r.error == RangeError
  {
    if value.NotIntegral? then Fail(TypeError)
    else if !(value.value >= 0 && value.value <= maxValue) then Fail(RangeError)
    else Ok(value.value)
  }

  /** `assertIntMinMax`: accepts an integer in minValue .. maxValue. */
  function AssertIntMinMax(value: Num, minValue: int, maxValue: int): (r: Result<int>)
    ensures r.Ok? <==> value.Integral? && minValue <= value.value <= maxValue
    ensures r.Ok? ==> r.value == value.value
    ensures r.Fail? ==> (r.error == TypeError <==> value.NotIntegral?)
    ensures r.Fail? ==> r.error == TypeError || r.error == RangeError
  {
    if value.NotIntegral? then Fail(TypeError)
    else if !(minValue <= value.value && value.value <= maxValue) then Fail(RangeError)
    else Ok(value.value)
  }
}

=== FILE: Codec.dfy ===
/** The five kinds of value a BitDataView moves, each with its own width
    range, writer and reader: Byte (0..8 bits), Uint (0..53), Int (1..53),
    BigUint (0..64) and BigInt (1..64).  The writers and readers are those
    of the integer codecs, chosen by the current byte order. */
module Codec {
  import opened Arith
  import opened BitString
  import opened IntCodec

  datatype Kind = Byte | Uint | Int | BigUint | BigInt

  /** The narrowest width the public wrappers accept for a kind. */
  function MinWidth(k: Kind): nat
  {
    if k == Int || k == BigInt then 1 else 0
  }

  /** The widest width the public wrappers accept for a kind. */
  function MaxWidth(k: Kind): nat
  {
    match k
    case Byte => 8
    case Uint => 53
    case Int => 53
    case BigUint => 64
    case BigInt => 64
  }

  predicate ValidWidth(k: Kind, n: int)
  {
    MinWidth(k) <= n <= MaxWidth(k)
  }

  /** The writer of a kind: Byte is the sub-byte writer; Uint and Int pick
      the little- or big-endian writer by the byte order (the big-endian
      one is shared); both 64-bit kinds run the chunk loop over the scratch
      bytes of the value. */
  function WriteField(k: Kind, le: bool, m: seq<bool>, a: nat, n: nat, v: int): (r: seq<bool>)
    requires ValidWidth(k, n)
  {
    match k
    case Byte => WriteBits(m, a, n, v)
    case Uint => if le then WriteUintLE(m, a, n, v) else WriteUintBE(m, a, n, v)
    case Int => if le then WriteIntLE(m, a, n, v) else WriteUintBE(m, a, n, v)
    case BigUint => WriteChunks(m, a, n, Uint64Bytes(v, !le))
    case BigInt => WriteChunks(m, a, n, Uint64Bytes(v, !le))
  }

  /** The memory after a write of a kind: `WriteField`, reached through a
      countdown over the length of the memory.  The verifier unfolds a
      recursive function only when its counter is a literal, so proofs
      about the view see this function as a value of its arguments and
      meet the writers only where `EncodeIsWrite` is called. */
  function Encode(k: Kind, le: bool, m: seq<bool>, a: nat, n: nat, v: int): (r: seq<bool>)
    requires ValidWidth(k, n)
    ensures |r| == |m|
  {
    EncodeAfter(|m| + 1, k, le, m, a, n, v)
  }

  function EncodeAfter(steps: nat, k: Kind, le: bool, m: seq<bool>, a: nat, n: nat, v: int): (r: seq<bool>)
    requires ValidWidth(k, n)
    ensures |r| == |m|
  {
    if steps == 0 then WriteField(k, le, m, a, n, v) else EncodeAfter(steps - 1, k, le, m, a, n, v)
  }

  lemma {:induction false} EncodeAfterIsWrite(steps: nat, k: Kind, le: bool, m: seq<bool>, a: nat, n: nat, v: int)
    requires ValidWidth(k, n)
    ensures EncodeAfter(steps, k, le, m, a, n, v) == WriteField(k, le, m, a, n, v)
  {
    if steps > 0 {
      EncodeAfterIsWrite(steps - 1, k, le, m, a, n, v);
    }
  }

  lemma EncodeIsWrite(k: Kind, le: bool, m: seq<bool>, a: nat, n: nat, v: int)
    requires ValidWidth(k, n)
    ensures Encode(k, le, m, a, n, v) == WriteField(k, le, m, a, n, v)
  {
    EncodeAfterIsWrite(|m| + 1, k, le, m, a, n, v);
  }

  /** The unsigned reading of a field in the given byte order. */
  function Reading(le: bool, m: seq<bool>, a: nat, n: nat): nat
  {
    if le then ReadUintLE(m, a, n) else ReadUintBE(m, a, n)
  }

  /** The reader of a kind: the signed kinds apply their sign correction
      to the unsigned reading. */
  function ReadField(k: Kind, le: bool, m: seq<bool>, a: nat, n: nat): int
    requires ValidWidth(k, n)
  {
    match k
    case Byte => ReadBits(m, a, n)
    case Uint => Reading(le, m, a, n)
    case Int => DecodeInt53(Reading(le, m, a, n), n)
    case BigUint => Reading(le, m, a, n)
    case BigInt => DecodeBigInt64(Reading(le, m, a, n), n)
  }

  /** The value a read of a kind gives: `ReadField` behind the same
      countdown as `Encode`, opened by `DecodeIsRead`. */
  function Decode(k: Kind, le: bool, m: seq<bool>, a: nat, n: nat): int
    requires ValidWidth(k, n)
  {
    DecodeAfter(|m| + 1, k, le, m, a, n)
  }

  function DecodeAfter(steps: nat, k: Kind, le: bool, m: seq<bool>, a: nat, n: nat): int
    requires ValidWidth(k, n)
  {
    if steps == 0 then ReadField(k, le, m, a, n) else DecodeAfter(steps - 1, k, le, m, a, n)
  }

  lemma {:induction false} DecodeAfterIsRead(steps: nat, k: Kind, le: bool, m: seq<bool>, a: nat, n: nat)
    requires ValidWidth(k, n)
    ensures DecodeAfter(steps, k, le, m, a, n) == ReadField(k, le, m, a, n)
  {
    if steps > 0 {
      DecodeAfterIsRead(steps - 1, k, le, m, a, n);
    }
  }

  lemma DecodeIsRead(k: Kind, le: bool, m: seq<bool>, a: nat, n: nat)
    requires ValidWidth(k, n)
    ensures Decode(k, le, m, a, n) == ReadField(k, le, m, a, n)
  {
    DecodeAfterIsRead(|m| + 1, k, le, m, a, n);
  }

  /** The widths and values for which a write is read back faithfully:
      big endian needs whole bytes or a field narrower than a byte, the
      64-bit writers in little-endian mode need the full 64 bits, and the
      signed kinds need the value inside the range their sign test decodes
      (2^(n-2) for the 53-bit reader, 2^(n-1) for the 64-bit one). */
  predicate RoundTrips(k: Kind, le: bool, n: nat, v: int)
  {
    var aligned := n % 8 == 0 || n < 8;
    match k
    case Byte => true
    case Uint => le || aligned
    case Int => (le || aligned) && n >= 2 && -(Pow2(n - 2) as int) <= v < Pow2(n - 2)
    case BigUint => if le then n == 64 else aligned
    case BigInt => (if le then n == 64 else aligned) && n >= 1 && -(Pow2(n - 1) as int) <= v < Pow2(n - 1)
  }

  /** What a faithful read gives back: the value itself for the signed
      kinds, the value modulo 2^n for the others. */
  function Expected(k: Kind, n: nat, v: int): int
  {
    if k == Int || k == BigInt then v else v % Pow2(n)
  }

  /** How many bits from the field's start a write may change: the signed
      little-endian writer runs past its field, every other writer stays
      inside it. */
  function Extent(k: Kind, le: bool, n: nat): nat
  {
    if k == Int && le then IntLEExtent(n) else n
  }

  // ------------------------------------------------------------ properties

  /** Reading a field back after writing it gives the expected value
      wherever the codec round-trips. */
  lemma DecodeEncode(k: Kind, le: bool, m: seq<bool>, a: nat, n: nat, v: int)
    requires ValidWidth(k, n) && a + n <= |m| && RoundTrips(k, le, n, v)
    ensures Decode(k, le, Encode(k, le, m, a, n, v), a, n) == Expected(k, n, v)
  {
    EncodeIsWrite(k, le, m, a, n, v);
    DecodeIsRead(k, le, Encode(k, le, m, a, n, v), a, n);
    match k
    case Byte =>
      SubByteRoundTrip(m, a, n, v);
    case Uint =>
      if le { UintLERoundTrip(m, a, n, v); } else { UintBERoundTrip(m, a, n, v); }
    case Int =>
      if le { IntLERoundTrip(m, a, n, v); } else { IntBERoundTrip(m, a, n, v); }
    case BigUint =>
      BigReadsResidue(le, m, a, n, v);
    case BigInt =>
      BigReadsResidue(le, m, a, n, v);
      DecodeBigInt64OfResidue(v, n);
  }

  /** The 64-bit writers, where they round-trip, leave the value modulo
      2^n in the field. */
  lemma BigReadsResidue(le: bool, m: seq<bool>, a: nat, n: nat, v: int)
    requires n <= 64 && a + n <= |m| && (if le then n == 64 else n % 8 == 0 || n < 8)
    ensures Reading(le, WriteChunks(m, a, n, Uint64Bytes(v, !le)), a, n) == v % Pow2(n)
  {
    if le {
      BigLE64IsUintLE(m, a, v);
      UintLERoundTrip(m, a, WordBits, v);
    } else {
      BigBEIsUintBE(m, a, n, v);
      UintBERoundTrip(m, a, n, v);
    }
  }

  /** A write changes no bit outside the `Extent` bits from its start. */
  lemma EncodeFrame(k: Kind, le: bool, m: seq<bool>, a: nat, n: nat, v: int, x: nat)
    requires ValidWidth(k, n) && x < |m| && !(a <= x < a + Extent(k, le, n))
    ensures Encode(k, le, m, a, n, v)[x] == m[x]
  {
    EncodeIsWrite(k, le, m, a, n, v);
    match k
    case Byte =>
      WriteBitsStores(m, a, n, v);
    case Uint =>
      if le { WriteUintLEStores(m, a, n, v); } else { WriteUintBEStores(m, a, n, v); }
    case Int =>
      if le { WriteIntLEStores(m, a, n, v); } else { WriteUintBEStores(m, a, n, v); }
    case BigUint =>
      WriteChunksStores(m, a, n, Uint64Bytes(v, !le));
    case BigInt =>
      WriteChunksStores(m, a, n, Uint64Bytes(v, !le));
  }

  /** A write keeps every bit below its field. */
  lemma EncodeKeepsBelow(k: Kind, le: bool, m: seq<bool>, a: nat, n: nat, v: int)
    requires ValidWidth(k, n) && a <= |m|
    ensures Encode(k, le, m, a, n, v)[..a] == m[..a]
  {
    var r := Encode(k, le, m, a, n, v);
    forall x | 0 <= x < a
      ensures r[x] == m[x]
    {
      EncodeFrame(k, le, m, a, n, v, x);
    }
  }

  /** A write that stays inside its field keeps every bit above it. */
  lemma EncodeKeepsAbove(k: Kind, le: bool, m: seq<bool>, a: nat, n: nat, v: int)
    requires ValidWidth(k, n) && a + n <= |m| && Extent(k, le, n) == n
    ensures Encode(k, le, m, a, n, v)[a + n..] == m[a + n..]
  {
    var r := Encode(k, le, m, a, n, v);
    forall x | a + n <= x < |m|
      ensures r[x] == m[x]
    {
      EncodeFrame(k, le, m, a, n, v, x);
    }
  }

  /** A read sees only the bits of its field. */
  lemma DecodeLocal(k: Kind, le: bool, m: seq<bool>, m': seq<bool>, a: nat, n: nat)
    requires ValidWidth(k, n) && SameBits(m, m', a, n)
    ensures Decode(k, le, m, a, n) == Decode(k, le, m', a, n)
  {
    DecodeIsRead(k, le, m, a, n);
    DecodeIsRead(k, le, m', a, n);
    if k == Byte {
      ReadBitsLocal(m, m', a, n);
    } else if le {
      ReadUintLELocal(m, m', a, n);
    } else {
      ReadUintBELocal(m, m', a, n);
    }
  }

  /** A field survives a later write that leaves its bits alone. */
  lemma FieldSurvives(k: Kind, le: bool, m: seq<bool>, a: nat, n: nat,
                      k': Kind, a': nat, n': nat, v': int)
    requires ValidWidth(k, n) && ValidWidth(k', n') && a + n <= |m|
    requires a + n <= a' || a' + Extent(k', le, n') <= a
    ensures Decode(k, le, Encode(k', le, m, a', n', v'), a, n) == Decode(k, le, m, a, n)
  {
    var r := Encode(k', le, m, a', n', v');
    forall x | a <= x < a + n
      ensures BitAt(r, x) == BitAt(m, x)
    {
      EncodeFrame(k', le, m, a', n', v', x);
    }
    DecodeLocal(k, le, r, m, a, n);
  }

  // ----------------------------------------------------------- deque order

  /** A push at the tail `p` of the stored bits `s .. p - 1` keeps them and,
      where the codec round-trips, leaves the value readable at `p`. */
  lemma PushKeeps(k: Kind, le: bool, m: seq<bool>, s: nat, p: nat, n: nat, v: int)
    requires ValidWidth(k, n) && s <= p && p + n <= |m|
    ensures var r := Encode(k, le, m, p, n, v);
            r[s..p + n][..p - s] == m[s..p] &&
            (RoundTrips(k, le, n, v) ==> Decode(k, le, r, p, n) == Expected(k, n, v))
  {
    var r := Encode(k, le, m, p, n, v);
    EncodeKeepsBelow(k, le, m, p, n, v);
    assert r[s..p + n][..p - s] == r[..p][s..];
    if RoundTrips(k, le, n, v) {
      DecodeEncode(k, le, m, p, n, v);
    }
  }

  /** An unshift in front of the stored bits `s .. p - 1` keeps them when
      its writer stays inside its field and, where the codec round-trips,
      leaves the value readable at the new head. */
  lemma UnshiftKeeps(k: Kind, le: bool, m: seq<bool>, s: nat, p: nat, n: nat, v: int)
    requires ValidWidth(k, n) && n <= s <= p <= |m|
    ensures var r := Encode(k, le, m, s - n, n, v);
            (Extent(k, le, n) == n ==> r[s - n..p][n..] == m[s..p]) &&
            (RoundTrips(k, le, n, v) ==> Decode(k, le, r, s - n, n) == Expected(k, n, v))
  {
    var r := Encode(k, le, m, s - n, n, v);
    if Extent(k, le, n) == n {
      EncodeKeepsAbove(k, le, m, s - n, n, v);
      assert r[s - n..p][n..] == r[s..][..p - s];
      assert m[s..p] == m[s..][..p - s];
    }
    if RoundTrips(k, le, n, v) {
      DecodeEncode(k, le, m, s - n, n, v);
    }
  }

  /** First in, first out: two values pushed one after the other at the
      tail are found at the head in the order they were pushed. */
  lemma PushPushOrder(k: Kind, le: bool, m: seq<bool>, p: nat, n1: nat, v1: int, n2: nat, v2: int)
    requires ValidWidth(k, n1) && ValidWidth(k, n2) && p + n1 + n2 <= |m|
    requires RoundTrips(k, le, n1, v1) && RoundTrips(k, le, n2, v2)
    ensures var m2 := Encode(k, le, Encode(k, le, m, p, n1, v1), p + n1, n2, v2);
            Decode(k, le, m2, p, n1) == Expected(k, n1, v1) &&
            Decode(k, le, m2, p + n1, n2) == Expected(k, n2, v2)
  {
    var m1 := Encode(k, le, m, p, n1, v1);
    DecodeEncode(k, le, m, p, n1, v1);
    FieldSurvives(k, le, m1, p, n1, k, p + n1, n2, v2);
    DecodeEncode(k, le, m1, p + n1, n2, v2);
  }

  /** Last in, first out at the head: two values unshifted one after the
      other are found in the reverse order, provided the second write stays
      inside its field. */
  lemma UnshiftUnshiftOrder(k: Kind, le: bool, m: seq<bool>, s: nat, n1: nat, v1: int, n2: nat, v2: int)
    requires ValidWidth(k, n1) && ValidWidth(k, n2) && n1 + n2 <= s <= |m|
    requires RoundTrips(k, le, n1, v1) && RoundTrips(k, le, n2, v2)
    requires Extent(k, le, n2) == n2
    ensures var m2 := Encode(k, le, Encode(k, le, m, s - n1, n1, v1), s - n1 - n2, n2, v2);
            Decode(k, le, m2, s - n1 - n2, n2) == Expected(k, n2, v2) &&
            Decode(k, le, m2, s - n1, n1) == Expected(k, n1, v1)
  {
    var m1 := Encode(k, le, m, s - n1, n1, v1);
    DecodeEncode(k, le, m, s - n1, n1, v1);
    FieldSurvives(k, le, m1, s - n1, n1, k, s - n1 - n2, n2, v2);
    DecodeEncode(k, le, m1, s - n1 - n2, n2, v2);
  }

  /** The signed little-endian writer breaks that order: unshifting 0 and
      then -1 as 8-bit Ints, whatever the memory held, leaves the first
      field reading 1, because the second write runs one bit into it. */
  lemma UnshiftIntLEClobbers(m: seq<bool>, s: nat)
    requires 16 <= s <= |m|
    ensures var m2 := Encode(Int, true, Encode(Int, true, m, s - 8, 8, 0), s - 16, 8, -1);
            Decode(Int, true, m2, s - 8, 8) == 1
  {
    var m1 := Encode(Int, true, m, s - 8, 8, 0);
    var m2 := Encode(Int, true, m1, s - 16, 8, -1);
    EncodeIsWrite(Int, true, m, s - 8, 8, 0);
    EncodeIsWrite(Int, true, m1, s - 16, 8, -1);
    WriteIntLEStores(m, s - 8, 8, 0);
    WriteIntLEStores(m1, s - 16, 8, -1);
    assert IntLEExtent(8) == 9;
    ClobberedField(m, m1, m2, s);
    DecodeOne(m2, s - 8);
  }

  /** An 8-bit little-endian Int field holding 1 decodes as 1. */
  lemma DecodeOne(m: seq<bool>, a: nat)
    requires Holds(m, a, 8, 1)
    ensures Decode(Int, true, m, a, 8) == 1
  {
    ReadUintLEOfHolds(m, a, 8, 1);
    DecodeIsRead(Int, true, m, a, 8);
    assert Pow2(8) == 256 && Pow2(6) == 64;
  }

  /** The bits of the clobbered field: the stray sign bit, then the zeros
      of the first write. */
  lemma ClobberedField(m: seq<bool>, m1: seq<bool>, m2: seq<bool>, s: nat)
    requires 16 <= s <= |m|
    requires Stores(m1, m, s - 8, 9, 0) && Stores(m2, m1, s - 16, 9, -1)
    ensures Holds(m2, s - 8, 8, 1)
  {
    forall x | s - 8 <= x < s
      ensures m2[x] == Bit(1, x - (s - 8))
    {
      if x == s - 8 {
        BitOfMinusOne(8);
      } else {
        BitOfSmall(0, x - (s - 8));
        BitOfSmall(1, x - (s - 8));
      }
    }
  }

  /** Every bit of -1 is set. */
  lemma BitOfMinusOne(j: nat)
    ensures Bit(-1, j)
  {
    Pow2Strict(0, j + 1);
    DivModUnique(-1, Pow2(j), -1, Pow2(j) - 1);
  }

  /** A value below 2^j has bit j and above clear. */
  lemma BitOfSmall(v: nat, j: nat)
    requires v < 2 && j > 0
    ensures !Bit(v, j)
  {
    Pow2Strict(0, j);
    DivModUnique(v, Pow2(j), 0, v);
  }
}

=== FILE: Endianness.dfy ===
/** The byte order of multi-byte values, a small mutable mode object. */
module Endian {

  datatype EnumEndianness = LittleEndian | BigEndian

  class Endianness {
    var endianness: EnumEndianness

    /** Little endian unless told otherwise. */
    constructor (initial: EnumEndianness := LittleEndian)
      ensures endianness == initial
    {
      endianness := initial;
    }

    function IsBigEndian(): (r: bool)
      reads this
      ensures r <==> !IsLittleEndian()
    {
      endianness == BigEndian
    }

    function IsLittleEndian(): (r: bool)
      reads this
      ensures r <==> endianness != BigEndian
    {
      endianness == LittleEndian
    }

    function Get(): (r: EnumEndianness)
      reads this
      ensures r == LittleEndian <==> IsLittleEndian()
    {
      endianness
    }

    /** Unconditional store, without reporting a change. */
    method SetUnchecked(x: EnumEndianness)
      modifies this
      ensures endianness == x
    {
      endianness := x;
    }

    method SetBigEndianUnchecked()
      modifies this
      ensures endianness == BigEndian
    {
      endianness := BigEndian;
    }

    method SetLittleEndianUnchecked()
      modifies this
      ensures endianness == LittleEndian
    {
      endianness := LittleEndian;
    }

    /** Stores `x` and reports whether the order changed. */
    method Set(x: EnumEndianness) returns (changed: bool)
      modifies this
      ensures endianness == x
      ensures changed <==> old(endianness) != x
    {
      changed := endianness != x;
      endianness := x;
    }

    method SetBigEndian() returns (changed: bool)
      modifies this
      ensures endianness == BigEndian
      ensures changed <==> old(endianness) == LittleEndian
    {
      changed := Set(BigEndian);
    }

    method SetLittleEndian() returns (changed: bool)
      modifies this
      ensures endianness == LittleEndian
      ensures changed <==> old(endianness) == BigEndian
    {
      changed := Set(LittleEndian);
    }

    /** `coin` stands for the outcome of `Math.random() > 0.5`. */
    method SetRandom(coin: bool)
      modifies this
      ensures endianness == if coin then LittleEndian else BigEndian
    {
      if coin {
        var _ := SetLittleEndian();
      } else {
        var _ := SetBigEndian();
      }
    }
  }

  /** Setting the same order twice: the second call reports no change. */
  method SetIsIdempotent(e: Endianness, x: EnumEndianness) returns (first: bool, second: bool)
    modifies e
    ensures e.Get() == x
    ensures first <==> old(e.endianness) != x
    ensures !second
  {
    first := e.Set(x);
    second := e.Set(x);
  }
}

=== FILE: HostView.dfy ===
/** The host's own view of the same bytes: the unsigned getters of an
    ECMAScript DataView (`getUint8`, `getUint16`, `getUint32`,
    `getBigUint64`) and their signed twins at a byte offset, in either
    byte order.  In LSB bit numbering a byte-aligned field of whole bytes
    written by the BitDataView codecs reads back through them. */
module HostView {
  import opened Arith
  import opened BitString
  import opened IntCodec
  import opened Memory
  import opened Numbering
  import opened Codec

  /** The DataView getter with `littleEndian = true`: the k bytes from
      offset o, byte i worth 256^i. */
  function HostUintLE(mem: seq<bv8>, o: nat, k: nat): nat
    requires o + k <= |mem|
    decreases k
  {
    if k == 0 then 0 else mem[o] as nat + 256 * HostUintLE(mem, o + 1, k - 1)
  }

  /** The DataView getter with `littleEndian = false`: the first of the k
      bytes is the most significant. */
  function HostUintBE(mem: seq<bv8>, o: nat, k: nat): nat
    requires o + k <= |mem|
    decreases k
  {
    if k == 0 then 0 else mem[o] as nat * Pow2(8 * (k - 1)) + HostUintBE(mem, o + 1, k - 1)
  }

  /** The little-endian reader over LSB-numbered memory is the host's
      little-endian getter. */
  lemma {:induction false} ReadUintLEIsHost(mem: seq<bv8>, o: nat, k: nat)
    requires o + k <= |mem|
    ensures ReadUintLE(MemBits(mem, LSB), 8 * o, 8 * k) == HostUintLE(mem, o, k)
    decreases k
  {
    if k > 0 {
      ReadUintLEIsHost(mem, o + 1, k - 1);
      ByteStepLE(mem, o, k, HostUintLE(mem, o + 1, k - 1));
    }
  }

  /** The big-endian reader over LSB-numbered memory is the host's
      big-endian getter. */
  lemma {:induction false} ReadUintBEIsHost(mem: seq<bv8>, o: nat, k: nat)
    requires o + k <= |mem|
    ensures ReadUintBE(MemBits(mem, LSB), 8 * o, 8 * k) == HostUintBE(mem, o, k)
    decreases k
  {
    if k > 0 {
      ReadUintBEIsHost(mem, o + 1, k - 1);
      ByteStepBE(mem, o, k, HostUintBE(mem, o + 1, k - 1));
    }
  }

  /** One byte of the little-endian reader: the byte at offset o, plus 256
      times the rest. */
  lemma ByteStepLE(mem: seq<bv8>, o: nat, k: nat, rest: nat)
    requires 0 < k && o + k <= |mem|
    requires ReadUintLE(MemBits(mem, LSB), 8 * (o + 1), 8 * (k - 1)) == rest
    ensures ReadUintLE(MemBits(mem, LSB), 8 * o, 8 * k) == mem[o] as nat + 256 * rest
  {
    ReadByteLSB(mem, o);
    ChunkStepLE(MemBits(mem, LSB), 8 * o, 8 * k, 8 * (o + 1), 8 * (k - 1), mem[o] as nat, rest);
  }

  /** One byte of the big-endian reader: the byte at offset o, weighed by
      the bits after it, plus the rest. */
  lemma ByteStepBE(mem: seq<bv8>, o: nat, k: nat, rest: nat)
    requires 0 < k && o + k <= |mem|
    requires ReadUintBE(MemBits(mem, LSB), 8 * (o + 1), 8 * (k - 1)) == rest
    ensures ReadUintBE(MemBits(mem, LSB), 8 * o, 8 * k) == mem[o] as nat * Pow2(8 * (k - 1)) + rest
  {
    ReadByteLSB(mem, o);
    ChunkStepBE(MemBits(mem, LSB), 8 * o, 8 * k, 8 * (o + 1), 8 * (k - 1), mem[o] as nat, rest);
  }

  /** The first chunk of a field of at least 8 bits is a whole byte. */
  lemma ChunkStepLE(m: seq<bool>, a: nat, n: nat, a': nat, n': nat, b: nat, rest: nat)
    requires n >= 8 && a' == a + 8 && n' == n - 8
    requires ReadBits(m, a, 8) == b && ReadUintLE(m, a', n') == rest
    ensures ReadUintLE(m, a, n) == b + 256 * rest
  {
    assert Chunk(n) == 8;
    assert ReadUintLE(m, a, n) == ReadBits(m, a, Chunk(n)) + 256 * ReadUintLE(m, a + 8, n - 8);
  }

  lemma ChunkStepBE(m: seq<bool>, a: nat, n: nat, a': nat, n': nat, b: nat, rest: nat)
    requires n >= 8 && a' == a + 8 && n' == n - 8
    requires ReadBits(m, a, 8) == b && ReadUintBE(m, a', n') == rest
    ensures ReadUintBE(m, a, n) == b * Pow2(n') + rest
  {
    assert Chunk(n) == 8;
    assert ReadUintBE(m, a, n) == ReadBits(m, a, Chunk(n)) * Pow2(n - Chunk(n)) + ReadUintBE(m, a + 8, n - 8);
  }

  /** The unsigned DataView getter in the given byte order. */
  function HostUint(mem: seq<bv8>, o: nat, k: nat, littleEndian: bool): nat
    requires o + k <= |mem|
  {
    if littleEndian then HostUintLE(mem, o, k) else HostUintBE(mem, o, k)
  }

  /** The signed DataView getter (`getInt8`, `getInt16`, `getInt32`,
      `getBigInt64`): the unsigned reading in two's complement. */
  function HostInt(mem: seq<bv8>, o: nat, k: nat, littleEndian: bool): int
    requires 0 < k && o + k <= |mem|
  {
    var u := HostUint(mem, o, k, littleEndian);
    if u >= Pow2(8 * k - 1) then u - Pow2(8 * k) else u
  }

  /** The unsigned reading of whole bytes in LSB numbering is the host's
      getter in the same byte order. */
  lemma ReadingIsHost(mem: seq<bv8>, o: nat, k: nat, littleEndian: bool)
    requires o + k <= |mem|
    ensures Reading(littleEndian, MemBits(mem, LSB), 8 * o, 8 * k) == HostUint(mem, o, k, littleEndian)
  {
    if littleEndian { ReadUintLEIsHost(mem, o, k); } else { ReadUintBEIsHost(mem, o, k); }
  }

  /** An unsigned write of whole bytes at a byte offset, in LSB numbering:
      the 53-bit kind for fields up to six bytes, the 64-bit kind for eight
      bytes.  The host's getter in the same byte order then reads the
      value modulo 2^(8k). */
  lemma HostReadsUnsigned(kind: Kind, littleEndian: bool, mem: seq<bv8>, mem': seq<bv8>, o: nat, k: nat, v: int)
    requires (kind == Uint && 8 * k <= 53) || (kind == BigUint && k == 8)
    requires o + k <= |mem| == |mem'|
    requires MemBits(mem', LSB) == Encode(kind, littleEndian, MemBits(mem, LSB), 8 * o, 8 * k, v)
    ensures HostUint(mem', o, k, littleEndian) == v % Pow2(8 * k)
  {
    UnsignedResidue(kind, littleEndian, MemBits(mem, LSB), 8 * o, 8 * k, v);
    ReadingIsHost(mem', o, k, littleEndian);
  }

  /** The unsigned writers of whole bytes leave the value modulo 2^n in
      the field. */
  lemma UnsignedResidue(kind: Kind, littleEndian: bool, m: seq<bool>, a: nat, n: nat, v: int)
    requires (kind == Uint && n <= 53) || (kind == BigUint && n == 64)
    requires n % 8 == 0 && a + n <= |m|
    ensures Reading(littleEndian, Encode(kind, littleEndian, m, a, n, v), a, n) == v % Pow2(n)
  {
    EncodeIsWrite(kind, littleEndian, m, a, n, v);
    if kind == Uint {
      if littleEndian { UintLERoundTrip(m, a, n, v); } else { UintBERoundTrip(m, a, n, v); }
    } else {
      BigReadsResidue(littleEndian, m, a, n, v);
    }
  }

  /** A signed write of whole bytes at a byte offset, in LSB numbering, of
      any value in the k-byte two's complement range: the host's signed
      getter in the same byte order reads the value itself (a wider range
      than the 53-bit reader's own, which tests bit 8k - 2). */
  lemma HostReadsSigned(kind: Kind, littleEndian: bool, mem: seq<bv8>, mem': seq<bv8>, o: nat, k: nat, v: int)
    requires (kind == Int && 0 < k && 8 * k <= 53) || (kind == BigInt && k == 8)
    requires -(Pow2(8 * k - 1) as int) <= v < Pow2(8 * k - 1)
    requires o + k <= |mem| == |mem'|
    requires MemBits(mem', LSB) == Encode(kind, littleEndian, MemBits(mem, LSB), 8 * o, 8 * k, v)
    ensures HostInt(mem', o, k, littleEndian) == v
  {
    SignedHostResidue(kind, littleEndian, mem, mem', o, k, v);
    TwosComplementOfResidue(v, 8 * k);
  }

  /** What the host's unsigned getter reads after a signed write of whole
      bytes: the value modulo 2^(8k). */
  lemma SignedHostResidue(kind: Kind, littleEndian: bool, mem: seq<bv8>, mem': seq<bv8>, o: nat, k: nat, v: int)
    requires (kind == Int && 0 < k && 8 * k <= 53) || (kind == BigInt && k == 8)
    requires o + k <= |mem| == |mem'|
    requires MemBits(mem', LSB) == Encode(kind, littleEndian, MemBits(mem, LSB), 8 * o, 8 * k, v)
    ensures HostUint(mem', o, k, littleEndian) == v % Pow2(8 * k)
  {
    SignedResidue(kind, littleEndian, MemBits(mem, LSB), 8 * o, 8 * k, v);
    ReadingIsHost(mem', o, k, littleEndian);
  }

  /** The signed writers of whole bytes leave the value modulo 2^n in the
      field. */
  lemma SignedResidue(kind: Kind, littleEndian: bool, m: seq<bool>, a: nat, n: nat, v: int)
    requires (kind == Int && 0 < n <= 53) || (kind == BigInt && n == 64)
    requires n % 8 == 0 && a + n <= |m|
    ensures Reading(littleEndian, Encode(kind, littleEndian, m, a, n, v), a, n) == v % Pow2(n)
  {
    EncodeIsWrite(kind, littleEndian, m, a, n, v);
    if kind == Int {
      if littleEndian { IntLEReadsResidue(m, a, n, v); } else { UintBERoundTrip(m, a, n, v); }
    } else {
      BigReadsResidue(littleEndian, m, a, n, v);
    }
  }

  /** Two's complement undoes reduction modulo 2^n inside the n-bit signed
      range. */
  lemma TwosComplementOfResidue(v: int, n: nat)
    requires n >= 1 && -(Pow2(n - 1) as int) <= v < Pow2(n - 1)
    ensures var u := v % Pow2(n); (if u >= Pow2(n - 1) then u - Pow2(n) else u) == v
  {
    DecodeBigInt64OfResidue(v, n);
    DecodeBigInt64IsTwosComplement(v % Pow2(n), n);
  }
}

=== FILE: IntCodec.dfy ===
/** The multi-byte integer codecs: a field of up to 53 (numbers) or 64
    (bigints) bits is cut into 8-bit chunks, each moved by the sub-byte
    codec.  Little endian puts the least significant chunk first; big endian
    fills the field from its end. */
module IntCodec {
  import opened Arith
  import opened BitString

  /** `Math.min(n, 8)`: the size of the next chunk of a field with `n` bits left. */
  function Chunk(n: int): nat
    requires n > 0
  {
    if n < 8 then n else 8
  }

  /** The width of the 64-bit scratch word, and 2^64.  Named constants
      rather than `Pow2(64)`, so that the verifier does not evaluate 2^64
      by unfolding `Pow2` sixty-four times wherever it appears. */
  const WordBits: nat := 64
  const WordModulus: nat := 0x1_0000_0000_0000_0000

  lemma WordModulusIsPow2()
    ensures Pow2(WordBits) == WordModulus
  {
    Pow2Eight();
    PowerLadder(8, 16, 32, WordBits);
  }

  /** 2^8, squared three times. */
  lemma PowerLadder(e8: nat, e16: nat, e32: nat, e64: nat)
    requires Pow2(e8) == 256 && e16 == e8 + e8 && e32 == e16 + e16 && e64 == e32 + e32
    ensures Pow2(e64) == 0x1_0000_0000_0000_0000
  {
    Pow2Add(e8, e8);
    assert Pow2(e16) == 0x1_0000;
    Pow2Add(e16, e16);
    assert Pow2(e32) == 0x1_0000_0000;
    Pow2Add(e32, e32);
  }

  /** Reducing modulo 2^64 keeps every bit below 64. */
  lemma BitOfWord(v: int, j: nat)
    requires j < WordBits
    ensures Bit(v % WordModulus, j) == Bit(v, j)
  {
    WordModulusIsPow2();
    BitOfMod(v, WordBits, j);
  }

  lemma Pow2Eight()
    ensures Pow2(8) == 256
  {
  }

  // ---------------------------------------------------------------- writers

  /** The unsigned little-endian writer: chunk after chunk from address `a`
      upwards, the value divided by 256 after each chunk. */
  function WriteUintLE(m: seq<bool>, a: nat, n: int, v: int): (r: seq<bool>)
    ensures |r| == |m|
    decreases n
  {
    if n <= 0 then m
    else WriteUintLE(WriteBits(m, a, Chunk(n), v), a + 8, n - 8, v / 256)
  }

  /** The big-endian writer (both unsigned and signed): the low chunk of the
      value goes to the end of what is left of the field. */
  function WriteUintBE(m: seq<bool>, a: nat, n: int, v: int): (r: seq<bool>)
    ensures |r| == |m|
    decreases n
  {
    if n <= 0 then m
    else WriteUintBE(WriteBits(m, a + n - Chunk(n), Chunk(n), v), a, n - 8, v / 256)
  }

  /** The signed little-endian writer: like the unsigned one, except that
      the remaining width drops by 7, not 8, per 8-bit chunk. */
  function WriteIntLE(m: seq<bool>, a: nat, n: int, v: int): (r: seq<bool>)
    ensures |r| == |m|
    decreases n
  {
    if n <= 0 then m
    else WriteIntLE(WriteBits(m, a, Chunk(n), v), a + 8, n - 7, v / 256)
  }

  /** The number of bits the signed little-endian writer touches for an
      `n`-bit field: 9 for 8, 18 for 16, 36 for 32, 60 for 53. */
  function IntLEExtent(n: int): (e: nat)
    ensures n > 0 ==> e >= n
    decreases n
  {
    if n <= 0 then 0 else if n < 8 then n else 8 + IntLEExtent(n - 7)
  }

  /** Byte `i` (0 least significant) of a non-negative `w`. */
  function ByteOf(w: int, i: nat): nat
  {
    (w / Pow2(8 * i)) % 256
  }

  /** The eight scratch bytes `setBigUint64(0, v, le)` leaves behind: `v`
      modulo 2^64, least significant byte first when `le`. */
  function Uint64Bytes(v: int, le: bool): (r: seq<nat>)
    ensures |r| == 8
  {
    var w := v % WordModulus;
    seq(8, i requires 0 <= i < 8 => ByteOf(w, if le then i else 7 - i))
  }

  /** The chunk loop of both 64-bit writers: chunk k (8 bits, fewer for the
      last) holds `bytes[k]` and lands at the end of what is left of the field. */
  function WriteChunks(m: seq<bool>, a: nat, n: int, bytes: seq<nat>): (r: seq<bool>)
    requires n <= 8 * |bytes|
    ensures |r| == |m|
    decreases n
  {
    if n <= 0 then m
    else WriteChunks(WriteBits(m, a + n - Chunk(n), Chunk(n), bytes[0]), a, n - 8, bytes[1..])
  }

  // ---------------------------------------------------------------- readers

  /** The unsigned little-endian reader: chunk k is worth 256^k. */
  function ReadUintLE(m: seq<bool>, a: nat, n: int): (r: nat)
    decreases n
  {
    if n <= 0 then 0
    else ReadBits(m, a, Chunk(n)) + 256 * ReadUintLE(m, a + 8, n - 8)
  }

  /** The unsigned big-endian reader: chunks from the start of the field,
      the value so far shifted left by the size of each new chunk. */
  function ReadUintBE(m: seq<bool>, a: nat, n: int): (r: nat)
    decreases n
  {
    if n <= 0 then 0
    else ReadBits(m, a, Chunk(n)) * Pow2(n - Chunk(n)) + ReadUintBE(m, a + 8, n - 8)
  }

  /** The sign correction of the 53-bit signed reader, as written: the sign
      is bit n - 2 of the unsigned reading (`Math.floor(r / 2 ** (n - 2)) & 1`,
      which is 0 for n < 2), and a set sign subtracts 2^n. */
  function DecodeInt53(r: nat, n: nat): int
  {
    var maskNegative := Pow2(n) - 1;
    var sign := if n >= 2 then (r / Pow2(n - 2)) % 2 else 0;
    if sign == 1 then r - maskNegative - 1 else r
  }

  /** The sign correction of the 64-bit signed reader: when bit n - 1 is set
      the result is `-((~r & (2^(n-1) - 1)) + 1)`; for a bigint `~r` is
      `-r - 1` and masking with 2^k - 1 is reduction modulo 2^k. */
  function DecodeBigInt64(r: nat, n: nat): int
    requires n >= 1
  {
    var maskNegative := Pow2(n - 1) - 1;
    if Bit(r, n - 1) then -(((-(r as int) - 1) % (maskNegative + 1)) + 1) else r
  }

  // ---------------------------------------------------------------- layouts

  /** Bit j of an n-bit field written big endian with value `v`. */
  function FieldBE(n: nat, v: int, j: nat): bool
    requires j < n
    decreases n
  {
    if j >= n - Chunk(n) then Bit(v, j - (n - Chunk(n))) else FieldBE(n - 8, v / 256, j)
  }

  /** Bit j of an n-bit field written by the 64-bit chunk loop from `bytes`. */
  function FieldChunks(n: nat, bytes: seq<nat>, j: nat): bool
    requires j < n <= 8 * |bytes|
    decreases n
  {
    if j >= n - Chunk(n) then Bit(bytes[0], j - (n - Chunk(n)))
    else FieldChunks(n - 8, bytes[1..], j)
  }

  /** `r` is `m` with the n-bit field at `a` written big endian with `v`. */
  ghost predicate StoresBE(r: seq<bool>, m: seq<bool>, a: nat, n: nat, v: int)
  {
    |r| == |m| &&
    forall x | 0 <= x < |m| :: r[x] == if a <= x < a + n then FieldBE(n, v, x - a) else m[x]
  }

  /** `r` is `m` with the n-bit field at `a` written by the chunk loop from `bytes`. */
  ghost predicate StoresChunks(r: seq<bool>, m: seq<bool>, a: nat, n: nat, bytes: seq<nat>)
    requires n <= 8 * |bytes|
  {
    |r| == |m| &&
    forall x | 0 <= x < |m| :: r[x] == if a <= x < a + n then FieldChunks(n, bytes, x - a) else m[x]
  }

  /** Where bit j of a big-endian field of n = 8k bits comes from: the bytes
      run from most to least significant, each with its bits in order. */
  function PosBE(n: nat, j: nat): nat
    requires n % 8 == 0 && j < n
  {
    n - 8 - 8 * (j / 8) + j % 8
  }

  /** A big-endian field of whole bytes lying inside memory holds `w`. */
  ghost predicate HoldsBE(m: seq<bool>, a: nat, n: nat, w: int)
  {
    n % 8 == 0 && a + n <= |m| &&
    forall x | a <= x < a + n :: m[x] == Bit(w, PosBE(n, x - a))
  }

  // ------------------------------------------------------- one-step unfoldings

  /* The chunk loops of the view write one chunk per iteration; these state
     the first step of each writer with the memory the chunk store produced
     and the next address, width and value handed in by the caller, as its
     loop has computed them. */

  lemma StepUintLE(m: seq<bool>, a: nat, n: int, v: int, m': seq<bool>, a': nat, n': int, v': int)
    requires n > 0 && m' == WriteBits(m, a, Chunk(n), v)
    requires a' == a + 8 && n' == n - 8 && v' == v / 256
    ensures WriteUintLE(m, a, n, v) == WriteUintLE(m', a', n', v')
  {
  }

  lemma StepIntLE(m: seq<bool>, a: nat, n: int, v: int, m': seq<bool>, a': nat, n': int, v': int)
    requires n > 0 && m' == WriteBits(m, a, Chunk(n), v)
    requires a' == a + 8 && n' == n - 7 && v' == v / 256
    ensures WriteIntLE(m, a, n, v) == WriteIntLE(m', a', n', v')
  {
  }

  lemma StepUintBE(m: seq<bool>, a: nat, n: int, v: int, x: nat, m': seq<bool>, n': int, v': int)
    requires n > 0
    requires x == a + n - Chunk(n)
    requires m' == WriteBits(m, x, Chunk(n), v)
    requires n' == n - 8
    requires v' == v / 256
    ensures WriteUintBE(m, a, n, v) == WriteUintBE(m', a, n', v')
  {
  }

  lemma StepChunks(m: seq<bool>, a: nat, n: int, bytes: seq<nat>, x: nat, m': seq<bool>, n': int, rest: seq<nat>)
    requires 0 < n <= 8 * |bytes| && x == a + n - Chunk(n) && m' == WriteBits(m, x, Chunk(n), bytes[0])
    requires n' == n - 8 && rest == bytes[1..]
    ensures WriteChunks(m, a, n, bytes) == WriteChunks(m', a, n', rest)
  {
  }

  /** The non-negative part of a width. */
  function Width(n: int): (w: nat)
    ensures n > 0 ==> w == n
  {
    if n > 0 then n else 0
  }

  /* The reading loops of the view accumulate a partial result `acc` with
     `acc + mult * (rest of the field) == total`; these state how reading
     one more chunk keeps that balance, for the next values the loop has
     computed. */

  lemma ReadBitsStep(m: seq<bool>, a: nat, n: nat, mult: nat, acc: nat, bit: nat, total: int,
                     a': nat, n': nat, mult': nat, acc': nat)
    requires n > 0 && bit == (if BitAt(m, a) then 1 else 0)
    requires acc + mult * ReadBits(m, a, n) == total
    requires a' == a + 1 && n' == n - 1 && mult' == mult * 2 && acc' == (if bit == 1 then acc + mult else acc)
    ensures acc' + mult' * ReadBits(m, a', n') == total
  {
    var rest := ReadBits(m, a + 1, n - 1);
    assert mult * ReadBits(m, a, n) == mult * bit + (mult * 2) * rest;
  }

  lemma ReadUintLEStep(m: seq<bool>, a: nat, n: int, mult: nat, acc: nat, byteData: nat, total: int,
                       a': nat, n': int, mult': nat, acc': nat)
    requires n > 0 && byteData == ReadBits(m, a, Chunk(n))
    requires acc + mult * ReadUintLE(m, a, n) == total
    requires a' == a + 8 && n' == n - 8 && mult' == mult * 256 && acc' == acc + byteData * mult
    ensures acc' + mult' * ReadUintLE(m, a', n') == total
  {
    var rest := ReadUintLE(m, a + 8, n - 8);
    assert ReadUintLE(m, a, n) == byteData + 256 * rest;
    MulAddDistrib(mult, byteData, 256 * rest);
    MulAssoc(mult, 256, rest);
  }

  lemma ReadUintBEStep(m: seq<bool>, a: nat, n: int, acc: nat, byteData: nat, total: int,
                       a': nat, n': int, acc': nat)
    requires n > 0 && byteData == ReadBits(m, a, Chunk(n))
    requires acc * Pow2(Width(n)) + ReadUintBE(m, a, n) == total
    requires a' == a + 8 && n' == n - 8 && acc' == acc * Pow2(Chunk(n)) + byteData
    ensures acc' * Pow2(Width(n')) + ReadUintBE(m, a', n') == total
  {
    var c := Chunk(n);
    var rest := Width(n - 8);
    assert c + rest == n;
    Pow2Add(c, rest);
    MulAssoc(acc, Pow2(c), Pow2(rest));
    MulAddDistrib(Pow2(rest), acc * Pow2(c), byteData);
    assert ReadUintBE(m, a, n) == byteData * Pow2(rest) + ReadUintBE(m, a + 8, n - 8);
  }

  /** When nothing is left of the field, the partial result is the total. */
  lemma ReadDone(acc: nat, mult: nat, left: nat, total: int)
    requires left == 0 && acc + mult * left == total
    ensures acc == total
  {
  }

  // ---------------------------------------------------------------- lemmas

  lemma {:induction false} WriteUintLEStores(m: seq<bool>, a: nat, n: nat, v: int)
    ensures Stores(WriteUintLE(m, a, n, v), m, a, n, v)
    decreases n
  {
    if n > 0 {
      var m1 := WriteBits(m, a, Chunk(n), v);
      WriteBitsStores(m, a, Chunk(n), v);
      if n > 8 {
        WriteUintLEStores(m1, a + 8, n - 8, v / 256);
        var r := WriteUintLE(m, a, n, v);
        forall x | 0 <= x < |m|
          ensures r[x] == if a <= x < a + n then Bit(v, x - a) else m[x]
        {
          if a + 8 <= x < a + n {
            Pow2Eight();
            BitOfDiv(v, 8, x - a - 8);
          }
        }
      }
    }
  }

  lemma {:induction false} WriteIntLEStores(m: seq<bool>, a: nat, n: nat, v: int)
    ensures Stores(WriteIntLE(m, a, n, v), m, a, IntLEExtent(n), v)
    decreases n
  {
    if n > 0 {
      var m1 := WriteBits(m, a, Chunk(n), v);
      WriteBitsStores(m, a, Chunk(n), v);
      if n >= 8 {
        WriteIntLEStores(m1, a + 8, n - 7, v / 256);
        var r := WriteIntLE(m, a, n, v);
        forall x | 0 <= x < |m|
          ensures r[x] == if a <= x < a + IntLEExtent(n) then Bit(v, x - a) else m[x]
        {
          if a + 8 <= x < a + IntLEExtent(n) {
            Pow2Eight();
            BitOfDiv(v, 8, x - a - 8);
          }
        }
      }
    }
  }

  lemma {:induction false} WriteUintBEStores(m: seq<bool>, a: nat, n: nat, v: int)
    ensures StoresBE(WriteUintBE(m, a, n, v), m, a, n, v)
    decreases n
  {
    if n > 0 {
      var c := Chunk(n);
      var m1 := WriteBits(m, a + n - c, c, v);
      WriteBitsStores(m, a + n - c, c, v);
      if n > 8 {
        WriteUintBEStores(m1, a, n - 8, v / 256);
      }
    }
  }

  /** One chunk of the chunk loop: the chunk at the top of the field,
      then the rest of the field from the remaining bytes. */
  lemma ChunksStep(r: seq<bool>, m1: seq<bool>, m: seq<bool>, a: nat, n: nat, bytes: seq<nat>,
                   address: nat, n': nat, rest: seq<nat>)
    requires 8 < n <= 8 * |bytes| && n' == n - 8 && rest == bytes[1..] && address == a + n'
    requires Stores(m1, m, address, 8, bytes[0]) && StoresChunks(r, m1, a, n', rest)
    ensures StoresChunks(r, m, a, n, bytes)
  {
    forall x | 0 <= x < |m|
      ensures r[x] == if a <= x < a + n then FieldChunks(n, bytes, x - a) else m[x]
    {
      if a <= x < address {
        assert FieldChunks(n, bytes, x - a) == FieldChunks(n', rest, x - a);
      }
    }
  }

  /** A field of at most 8 bits is written by one chunk. */
  lemma LastChunkStores(m: seq<bool>, a: nat, n: nat, bytes: seq<nat>)
    requires 0 < n <= 8 && n <= 8 * |bytes|
    ensures StoresChunks(WriteChunks(m, a, n, bytes), m, a, n, bytes)
  {
    var m1 := WriteBits(m, a, n, bytes[0]);
    assert WriteChunks(m, a, n, bytes) == m1;
    WriteBitsStores(m, a, n, bytes[0]);
    forall j | 0 <= j < n
      ensures FieldChunks(n, bytes, j) == Bit(bytes[0], j)
    {
    }
  }

  lemma {:induction false} WriteChunksStores(m: seq<bool>, a: nat, n: nat, bytes: seq<nat>)
    requires n <= 8 * |bytes|
    ensures StoresChunks(WriteChunks(m, a, n, bytes), m, a, n, bytes)
    decreases n
  {
    if n > 0 {
      var c := Chunk(n);
      var address := a + n - c;
      var m1 := WriteBits(m, address, c, bytes[0]);
      var r := WriteChunks(m, a, n, bytes);
      if n > 8 {
        var n', rest := n - 8, bytes[1..];
        assert r == WriteChunks(m1, a, n', rest);
        assert StoresChunks(r, m, a, n, bytes) by {
          WriteBitsStores(m, address, c, bytes[0]);
          WriteChunksStores(m1, a, n', rest);
          ChunksStep(r, m1, m, a, n, bytes, address, n', rest);
        }
      } else {
        LastChunkStores(m, a, n, bytes);
      }
    }
  }

  /** Splitting off the low byte of a residue modulo 2^n. */
  lemma ModLowByte(w: int, n: nat)
    requires n > 8
    ensures w % Pow2(n) == w % 256 + 256 * ((w / 256) % Pow2(n - 8))
  {
    Pow2Eight();
    Pow2Add(8, n - 8);
    DivDivModSplit(w, 256, Pow2(n - 8));
  }

  /** Splitting off the high byte of a residue modulo 2^n. */
  lemma ModHighByte(w: int, n: nat)
    requires n >= 8
    ensures w % Pow2(n) == ((w / Pow2(n - 8)) % 256) * Pow2(n - 8) + w % Pow2(n - 8)
  {
    Pow2Eight();
    Pow2Add(n - 8, 8);
    DivDivModSplit(w, Pow2(n - 8), 256);
  }

  /** A field holding `w` splits into its low byte and the rest holding w / 256. */
  lemma HoldsSplit(m: seq<bool>, a: nat, n: nat, w: int)
    requires Holds(m, a, n, w) && n > 8
    ensures Holds(m, a, 8, w) && Holds(m, a + 8, n - 8, w / 256)
  {
    Pow2Eight();
    forall x | a + 8 <= x < a + n
      ensures m[x] == Bit(w / 256, x - (a + 8))
    {
      BitOfDiv(w, 8, x - (a + 8));
    }
  }

  /** Reading a little-endian field that holds the low bits of `w`. */
  lemma {:induction false} ReadUintLEOfHolds(m: seq<bool>, a: nat, n: nat, w: int)
    requires Holds(m, a, n, w)
    ensures ReadUintLE(m, a, n) == w % Pow2(n)
    decreases n
  {
    if 0 < n <= 8 {
      ReadBitsOfHolds(m, a, n, w);
    } else if n > 8 {
      HoldsSplit(m, a, n, w);
      ReadBitsOfHolds(m, a, 8, w);
      ReadUintLEOfHolds(m, a + 8, n - 8, w / 256);
      ModLowByte(w, n);
    }
  }

  /** In a field of whole bytes, the recursive big-endian layout places bit
      PosBE(n, j) of the value at j. */
  lemma {:induction false} FieldBEWholeBytes(n: nat, v: int, j: nat)
    requires n % 8 == 0 && j < n
    ensures FieldBE(n, v, j) == Bit(v, PosBE(n, j))
    decreases n
  {
    var q := n / 8 - 1;
    assert n - 8 == 8 * q;
    if j < n - 8 {
      var n', v' := n - 8, v / 256;
      var p' := PosBE(n', j);
      FieldBEWholeBytes(n', v', j);
      assert FieldBE(n, v, j) == FieldBE(n', v', j);
      assert PosBE(n, j) == 8 + p';
      Pow2Eight();
      BitOfDivAt(v, 8, p', PosBE(n, j));
    } else {
      DivModUnique(j, 8, q, j - (n - 8));
      assert PosBE(n, j) == j - (n - 8);
    }
  }

  /** In a field narrower than a byte, the big-endian layout is the plain one. */
  lemma FieldBENarrow(n: nat, v: int, j: nat)
    requires j < n < 8
    ensures FieldBE(n, v, j) == Bit(v, j)
  {
  }

  /** A big-endian field of whole bytes holding `w` starts with the top
      byte of `w` ... */
  lemma HoldsBEHead(m: seq<bool>, a: nat, n: nat, w: int)
    requires HoldsBE(m, a, n, w) && n >= 8
    ensures Holds(m, a, 8, w / Pow2(n - 8))
  {
    forall x | a <= x < a + 8
      ensures m[x] == Bit(w / Pow2(n - 8), x - a)
    {
      assert PosBE(n, x - a) == n - 8 + (x - a);
      BitOfDiv(w, n - 8, x - a);
    }
  }

  /** ... and goes on with a shorter big-endian field holding `w` again. */
  lemma HoldsBETail(m: seq<bool>, a: nat, n: nat, w: int)
    requires HoldsBE(m, a, n, w) && n > 8
    ensures HoldsBE(m, a + 8, n - 8, w)
  {
    forall x | a + 8 <= x < a + n
      ensures m[x] == Bit(w, PosBE(n - 8, x - (a + 8)))
    {
      var j := x - a;
      assert j / 8 == (j - 8) / 8 + 1 && j % 8 == (j - 8) % 8;
      assert PosBE(n, j) == PosBE(n - 8, j - 8);
    }
  }

  /** Reading a big-endian field of whole bytes that holds `w`. */
  lemma {:induction false} ReadUintBEOfHoldsBE(m: seq<bool>, a: nat, n: nat, w: int)
    requires HoldsBE(m, a, n, w)
    ensures ReadUintBE(m, a, n) == w % Pow2(n)
    decreases n
  {
    if n > 0 {
      var a', n' := a + 8, n - 8;
      var top := w / Pow2(n');
      var hi, lo := ReadBits(m, a, 8), ReadUintBE(m, a', n');
      assert ReadUintBE(m, a, n) == hi * Pow2(n') + lo;
      assert hi == top % 256 by {
        HoldsBEHead(m, a, n, w);
        ReadBitsOfHolds(m, a, 8, top);
        Pow2Eight();
      }
      assert lo == w % Pow2(n') by {
        if n > 8 {
          HoldsBETail(m, a, n, w);
          ReadUintBEOfHoldsBE(m, a', n', w);
        }
      }
      ModHighByte(w, n);
    }
  }

  /** The readers see only the bits of their field. */
  lemma {:induction false} ReadUintLELocal(m: seq<bool>, m': seq<bool>, a: nat, n: nat)
    requires SameBits(m, m', a, n)
    ensures ReadUintLE(m, a, n) == ReadUintLE(m', a, n)
    decreases n
  {
    if n > 0 {
      ReadBitsLocal(m, m', a, Chunk(n));
      if n > 8 {
        ReadUintLELocal(m, m', a + 8, n - 8);
      }
    }
  }

  lemma {:induction false} ReadUintBELocal(m: seq<bool>, m': seq<bool>, a: nat, n: nat)
    requires SameBits(m, m', a, n)
    ensures ReadUintBE(m, a, n) == ReadUintBE(m', a, n)
    decreases n
  {
    if n > 0 {
      ReadBitsLocal(m, m', a, Chunk(n));
      if n > 8 {
        ReadUintBELocal(m, m', a + 8, n - 8);
      }
    }
  }

  // ------------------------------------------------------------ round trips

  /** Unsigned little endian: every width, the value modulo 2^n. */
  lemma UintLERoundTrip(m: seq<bool>, a: nat, n: nat, v: int)
    requires a + n <= |m|
    ensures ReadUintLE(WriteUintLE(m, a, n, v), a, n) == v % Pow2(n)
  {
    WriteUintLEStores(m, a, n, v);
    ReadUintLEOfHolds(WriteUintLE(m, a, n, v), a, n, v);
  }

  /** Big endian: fields of whole bytes, or narrower than one byte. */
  lemma UintBERoundTrip(m: seq<bool>, a: nat, n: nat, v: int)
    requires a + n <= |m| && (n % 8 == 0 || n < 8)
    ensures ReadUintBE(WriteUintBE(m, a, n, v), a, n) == v % Pow2(n)
  {
    var r := WriteUintBE(m, a, n, v);
    WriteUintBEStores(m, a, n, v);
    if n % 8 == 0 {
      forall x | a <= x < a + n
        ensures r[x] == Bit(v, PosBE(n, x - a))
      {
        FieldBEWholeBytes(n, v, x - a);
      }
      ReadUintBEOfHoldsBE(r, a, n, v);
    } else {
      forall x | a <= x < a + n
        ensures r[x] == Bit(v, x - a)
      {
        FieldBENarrow(n, v, x - a);
      }
      ReadBitsOfHolds(r, a, n, v);
    }
  }

  /** The 53-bit sign correction recovers every value of magnitude below
      2^(n-2) from its residue modulo 2^n. */
  lemma DecodeInt53OfResidue(v: int, n: nat)
    requires n >= 2 && -(Pow2(n - 2) as int) <= v < Pow2(n - 2)
    ensures DecodeInt53(v % Pow2(n), n) == v
  {
    var Q := Pow2(n - 2);
    Pow2Add(2, n - 2);
    assert Pow2(2) == 4;
    if v >= 0 {
      DivModUnique(v, Pow2(n), 0, v);
      DivModUnique(v, Q, 0, v);
    } else {
      DivModUnique(v, Pow2(n), -1, v + 4 * Q);
      DivModUnique(v + 4 * Q, Q, 3, v + Q);
    }
  }

  /** The 64-bit sign correction is two's complement: a reading with bit
      n - 1 set stands for itself minus 2^n. */
  lemma DecodeBigInt64IsTwosComplement(r: nat, n: nat)
    requires n >= 1 && r < Pow2(n)
    ensures DecodeBigInt64(r, n) == if r >= Pow2(n - 1) then r - Pow2(n) else r
  {
    var H := Pow2(n - 1);
    Pow2Add(1, n - 1);
    if r >= H {
      DivModUnique(r, H, 1, r - H);
      DivModUnique(-(r as int) - 1, H, -2, 2 * H - r - 1);
    } else {
      DivModUnique(r, H, 0, r);
    }
  }

  /** Hence it recovers every value of the signed n-bit range from its
      residue modulo 2^n. */
  lemma DecodeBigInt64OfResidue(v: int, n: nat)
    requires n >= 1 && -(Pow2(n - 1) as int) <= v < Pow2(n - 1)
    ensures DecodeBigInt64(v % Pow2(n), n) == v
  {
    Pow2Add(1, n - 1);
    if v >= 0 {
      DivModUnique(v, Pow2(n), 0, v);
    } else {
      DivModUnique(v, Pow2(n), -1, v + Pow2(n));
    }
    DecodeBigInt64IsTwosComplement(v % Pow2(n), n);
  }

  /** The signed little-endian writer leaves the value modulo 2^n in the
      field's own n bits, whatever it did past the field. */
  lemma IntLEReadsResidue(m: seq<bool>, a: nat, n: nat, v: int)
    requires a + n <= |m|
    ensures ReadUintLE(WriteIntLE(m, a, n, v), a, n) == v % Pow2(n)
  {
    var r := WriteIntLE(m, a, n, v);
    WriteIntLEStores(m, a, n, v);
    assert Holds(r, a, n, v);
    ReadUintLEOfHolds(r, a, n, v);
  }

  /** Signed little endian: every value of magnitude below 2^(n-2) reads
      back as itself. */
  lemma IntLERoundTrip(m: seq<bool>, a: nat, n: nat, v: int)
    requires a + n <= |m| && n >= 2 && -(Pow2(n - 2) as int) <= v < Pow2(n - 2)
    ensures DecodeInt53(ReadUintLE(WriteIntLE(m, a, n, v), a, n), n) == v
  {
    IntLEReadsResidue(m, a, n, v);
    DecodeInt53OfResidue(v, n);
  }

  /** Signed big endian: the same, for fields of whole bytes or narrower
      than one byte. */
  lemma IntBERoundTrip(m: seq<bool>, a: nat, n: nat, v: int)
    requires a + n <= |m| && (n % 8 == 0 || n < 8) && n >= 2 && -(Pow2(n - 2) as int) <= v < Pow2(n - 2)
    ensures DecodeInt53(ReadUintBE(WriteUintBE(m, a, n, v), a, n), n) == v
  {
    UintBERoundTrip(m, a, n, v);
    DecodeInt53OfResidue(v, n);
  }

  // --------------------------------------------------------- 64-bit writers

  /** Bit t of byte k of `w` is bit 8k + t of `w`. */
  lemma ByteOfBits(w: int, k: nat, t: nat)
    requires t < 8
    ensures Bit(ByteOf(w, k), t) == Bit(w, 8 * k + t)
  {
    Pow2Eight();
    BitOfMod(w / Pow2(8 * k), 8, t);
    BitOfDiv(w, 8 * k, t);
  }

  /** Bit t of scratch byte i is bit 8i + t of `v` (little-endian scratch)
      or bit 8(7 - i) + t (big-endian scratch). */
  lemma Uint64BytesBits(v: int, le: bool, i: nat, t: nat)
    requires i < 8 && t < 8
    ensures Bit(Uint64Bytes(v, le)[i], t) == Bit(v, 8 * (if le then i else 7 - i) + t)
  {
    var k := if le then i else 7 - i;
    assert Uint64Bytes(v, le)[i] == ByteOf(v % WordModulus, k);
    ByteOfBits(v % WordModulus, k, t);
    BitOfWord(v, 8 * k + t);
  }

  /** Fed the bytes of `v` least significant first, the chunk loop lays a
      field out as the big-endian integer writer does. */
  lemma {:induction false} FieldChunksAsBE(n: nat, bytes: seq<nat>, v: int, j: nat)
    requires j < n <= 8 * |bytes|
    requires forall i, t | 0 <= i < |bytes| && 0 <= t < 8 :: Bit(bytes[i], t) == Bit(v, 8 * i + t)
    ensures FieldChunks(n, bytes, j) == FieldBE(n, v, j)
    decreases n
  {
    if j >= n - Chunk(n) {
      var t := j - (n - Chunk(n));
      assert Bit(bytes[0], t) == Bit(v, 8 * 0 + t);
    } else {
      Pow2Eight();
      var rest := bytes[1..];
      forall i, t | 0 <= i < |rest| && 0 <= t < 8
        ensures Bit(rest[i], t) == Bit(v / 256, 8 * i + t)
      {
        assert Bit(bytes[i + 1], t) == Bit(v, 8 * (i + 1) + t);
        BitOfDiv(v, 8, 8 * i + t);
      }
      FieldChunksAsBE(n - 8, rest, v / 256, j);
    }
  }

  /** Fed the bytes of `v` most significant first, the chunk loop lays a
      field of k whole bytes out little endian. */
  lemma {:induction false} FieldChunksAsLE(k: nat, bytes: seq<nat>, v: int, j: nat)
    requires k <= |bytes| && j < 8 * k
    requires forall i, t | 0 <= i < k && 0 <= t < 8 :: Bit(bytes[i], t) == Bit(v, 8 * (k - 1 - i) + t)
    ensures FieldChunks(8 * k, bytes, j) == Bit(v, j)
    decreases k
  {
    if j >= 8 * k - 8 {
      var t := j - (8 * k - 8);
      assert Bit(bytes[0], t) == Bit(v, 8 * (k - 1 - 0) + t);
    } else {
      var rest := bytes[1..];
      forall i, t | 0 <= i < k - 1 && 0 <= t < 8
        ensures Bit(rest[i], t) == Bit(v, 8 * (k - 1 - 1 - i) + t)
      {
        assert Bit(bytes[i + 1], t) == Bit(v, 8 * (k - 1 - (i + 1)) + t);
      }
      FieldChunksAsLE(k - 1, rest, v, j);
      assert 8 * k - 8 == 8 * (k - 1);
    }
  }

  /** In big-endian mode the 64-bit writers write exactly what the
      big-endian integer writer does, at every width up to 64. */
  lemma BigBEIsUintBE(m: seq<bool>, a: nat, n: nat, v: int)
    requires n <= 64
    ensures WriteChunks(m, a, n, Uint64Bytes(v, true)) == WriteUintBE(m, a, n, v)
  {
    var bytes := Uint64Bytes(v, true);
    forall i, t | 0 <= i < 8 && 0 <= t < 8
      ensures Bit(bytes[i], t) == Bit(v, 8 * i + t)
    {
      Uint64BytesBits(v, true, i, t);
    }
    var r1, r2 := WriteChunks(m, a, n, bytes), WriteUintBE(m, a, n, v);
    WriteChunksStores(m, a, n, bytes);
    WriteUintBEStores(m, a, n, v);
    forall x | 0 <= x < |m|
      ensures r1[x] == r2[x]
    {
      if a <= x < a + n {
        FieldChunksAsBE(n, bytes, v, x - a);
      }
    }
  }

  /** A chunk loop fed k bytes most significant first writes what the
      little-endian integer writer does with the value they spell. */
  lemma ChunksAsUintLE(m: seq<bool>, a: nat, k: nat, bytes: seq<nat>, w: int)
    requires k <= |bytes|
    requires forall i, t | 0 <= i < k && 0 <= t < 8 :: Bit(bytes[i], t) == Bit(w, 8 * (k - 1 - i) + t)
    ensures WriteChunks(m, a, 8 * k, bytes) == WriteUintLE(m, a, 8 * k, w)
  {
    var r1, r2 := WriteChunks(m, a, 8 * k, bytes), WriteUintLE(m, a, 8 * k, w);
    WriteChunksStores(m, a, 8 * k, bytes);
    WriteUintLEStores(m, a, 8 * k, w);
    forall x | 0 <= x < |m|
      ensures r1[x] == r2[x]
    {
      if a <= x < a + 8 * k {
        FieldChunksAsLE(k, bytes, w, x - a);
      }
    }
  }

  /** Bit t of big-endian scratch byte i, for a field of k bytes, is bit
      8(k - 1 - i) + t of the top 8k bits of `v` modulo 2^64. */
  lemma TopScratchBits(v: int, k: nat, i: nat, t: nat)
    requires i < k <= 8 && t < 8
    ensures Bit(Uint64Bytes(v, false)[i], t)
         == Bit((v % WordModulus) / Pow2(WordBits - 8 * k), 8 * (k - 1 - i) + t)
  {
    assert Uint64Bytes(v, false)[i] == ByteOf(v % WordModulus, 7 - i);
    ByteOfBits(v % WordModulus, 7 - i, t);
    BitOfDivAt(v % WordModulus, WordBits - 8 * k, 8 * (k - 1 - i) + t, 8 * (7 - i) + t);
  }

  /** In little-endian mode a field of whole bytes narrower than 64 bits
      receives the top n bits of `v` modulo 2^64, not its low bits. */
  lemma BigLEStoresTopBits(m: seq<bool>, a: nat, n: nat, v: int)
    requires n % 8 == 0 && n <= 64
    ensures WriteChunks(m, a, n, Uint64Bytes(v, false))
         == WriteUintLE(m, a, n, (v % WordModulus) / Pow2(WordBits - n))
  {
    var k := n / 8;
    var bytes, top := Uint64Bytes(v, false), (v % WordModulus) / Pow2(WordBits - n);
    assert 8 * k == n;
    forall i, t | 0 <= i < k && 0 <= t < 8
      ensures Bit(bytes[i], t) == Bit(top, 8 * (k - 1 - i) + t)
    {
      TopScratchBits(v, k, i, t);
    }
    ChunksAsUintLE(m, a, k, bytes, top);
  }

  /** At the full 64-bit width the little-endian 64-bit writers write what
      the little-endian integer writer does. */
  lemma BigLE64IsUintLE(m: seq<bool>, a: nat, v: int)
    ensures WriteChunks(m, a, WordBits, Uint64Bytes(v, false)) == WriteUintLE(m, a, WordBits, v)
  {
    forall i, t | 0 <= i < 8 && 0 <= t < 8
      ensures Bit(Uint64Bytes(v, false)[i], t) == Bit(v, 8 * (8 - 1 - i) + t)
    {
      Uint64BytesBits(v, false, i, t);
    }
    ChunksAsUintLE(m, a, 8, Uint64Bytes(v, false), v);
  }

  // ------------------------------------------------- behaviour at the edges

  /** Big endian with a partial chunk: the first chunk takes the top eight
      bits and lands at the field's start, but the reader weighs the chunk
      by its position, so 256 in a 12-bit field reads back as 16. */
  lemma UintBEPartialChunkReadsBack16()
    ensures ReadUintBE(WriteUintBE(seq(16, _ => false), 0, 12, 256), 0, 12) == 16
  {
    var r := WriteUintBE(seq(16, _ => false), 0, 12, 256);
    WriteUintBEStores(seq(16, _ => false), 0, 12, 256);
    Pow2Eight();
    forall t: nat | t < 8
      ensures !Bit(256, t)
    {
      BitOfMod(256, 8, t);
    }
    forall j: nat | 1 <= j
      ensures !Bit(1, j)
    {
      Pow2Strict(0, j);
    }
    assert Holds(r, 0, 8, 1);
    assert Holds(r, 8, 4, 0);
    ReadBitsOfHolds(r, 0, 8, 1);
    ReadBitsOfHolds(r, 8, 4, 0);
    assert Pow2(4) == 16;
  }

  /** The 53-bit sign test looks at bit n - 2: 64 in an 8-bit field reads
      back as -192, and -128 reads back as 128. */
  lemma Int53SignBitReadsBack()
    ensures DecodeInt53(ReadUintLE(WriteIntLE(seq(16, _ => false), 0, 8, 64), 0, 8), 8) == -192
    ensures DecodeInt53(ReadUintLE(WriteIntLE(seq(16, _ => false), 0, 8, -128), 0, 8), 8) == 128
  {
    IntLEReadsResidue(seq(16, _ => false), 0, 8, 64);
    IntLEReadsResidue(seq(16, _ => false), 0, 8, -128);
    assert Pow2(6) == 64 && Pow2(8) == 256;
  }

  /** The signed little-endian writer overruns its field: writing -1 into
      the 8-bit field at 0 also sets bit 8. */
  lemma IntLEOverrunsField()
    ensures WriteIntLE(seq(16, _ => false), 0, 8, -1)[8]
  {
    WriteIntLEStores(seq(16, _ => false), 0, 8, -1);
    assert Pow2(8) == 256;
  }

  /** A little-endian 64-bit write of 5 into an 8-bit field stores the top
      byte of the 64-bit word, so the field reads back as 0. */
  lemma BigLEPartialReadsBackTop()
    ensures ReadUintLE(WriteChunks(seq(16, _ => false), 0, 8, Uint64Bytes(5, false)), 0, 8) == 0
  {
    var z := seq(16, _ => false);
    BigLEStoresTopBits(z, 0, 8, 5);
    Pow2Strict(3, 56);
    Pow2Strict(3, WordBits);
    assert Pow2(3) == 8;
    DivModUnique(5, WordModulus, 0, 5);
    DivModUnique(5, Pow2(56), 0, 5);
    UintLERoundTrip(z, 0, 8, 0);
  }
}

=== FILE: Memory.dfy ===
/** The byte array behind a BitDataView seen as a string of bits.  Bit
    address `x` lives in byte `x >>> 3`; inside that byte it is bit `x & 7`
    when bits are numbered least significant first (LSB) and bit
    `7 - (x & 7)` when they are numbered most significant first (MSB). */
module Memory {
  import opened Arith
  import opened BitString
  import opened Numbering

  /** The position inside its byte of bit address `x`. */
  function BitInByte(o: EnumBitNumbering, x: nat): (k: nat)
    ensures k < 8
  {
    if o == LSB then x % 8 else 7 - x % 8
  }

  /** `1 << k` as a byte. */
  function Mask(k: nat): bv8
    requires k < 8
  {
    if k == 0 then 1 else if k == 1 then 2 else if k == 2 then 4 else if k == 3 then 8
    else if k == 4 then 16 else if k == 5 then 32 else if k == 6 then 64 else 128
  }

  /** The bit string of a memory: bit `x` is the mask bit of byte x / 8
      selected by the bit numbering (`MemBitsIndex`). */
  function MemBits(mem: seq<bv8>, o: EnumBitNumbering): (r: seq<bool>)
    ensures |r| == 8 * |mem|
  {
    MemBitsAfter(|mem| + 1, mem, o)
  }

  /** The bit string is reached through a countdown over the length of the
      memory.  The verifier unfolds a recursive function only when its
      counter is a literal, so it meets the bits of a memory only where
      `MemBitsIndex` is called, and not in every method that mentions the
      memory of a view. */
  function MemBitsAfter(steps: nat, mem: seq<bv8>, o: EnumBitNumbering): (r: seq<bool>)
    ensures |r| == 8 * |mem|
  {
    if steps == 0 then seq(8 * |mem|, x requires 0 <= x < 8 * |mem| => MemBit(mem, o, x))
    else MemBitsAfter(steps - 1, mem, o)
  }

  lemma {:induction false} MemBitsAfterIndex(steps: nat, mem: seq<bv8>, o: EnumBitNumbering, x: nat)
    requires x < 8 * |mem|
    ensures MemBitsAfter(steps, mem, o)[x] == MemBit(mem, o, x)
  {
    if steps > 0 {
      MemBitsAfterIndex(steps - 1, mem, o, x);
    }
  }

  lemma MemBitsIndex(mem: seq<bv8>, o: EnumBitNumbering, x: nat)
    requires x < 8 * |mem|
    ensures MemBits(mem, o)[x] == MemBit(mem, o, x)
  {
    MemBitsAfterIndex(|mem| + 1, mem, o, x);
  }

  /** Bit `x` of memory: its mask bit in byte x / 8. */
  function MemBit(mem: seq<bv8>, o: EnumBitNumbering, x: nat): bool
    requires x < 8 * |mem|
  {
    mem[x / 8] & Mask(BitInByte(o, x)) != 0
  }

  /** A byte with its bits in the opposite order. */
  function ReverseByte(b: bv8): (r: bv8)
    ensures forall j: nat | j < 8 :: (r & Mask(j) != 0) == (b & Mask(7 - j) != 0)
  {
    ((b & 1) << 7) | ((b & 2) << 5) | ((b & 4) << 3) | ((b & 8) << 1)
    | ((b & 16) >> 1) | ((b & 32) >> 3) | ((b & 64) >> 5) | ((b & 128) >> 7)
  }

  /** The MSB bit getter computes its bit index as `7 - x & 7`, which
      parses as `(7 - x) & 7`; on two's-complement integers `& 7` is the
      non-negative remainder by 8, and that is the same index as `7 - (x & 7)`. */
  lemma MsbGetterBitIndex(x: nat)
    ensures (7 - x) % 8 == BitInByte(MSB, x)
  {
    var q := x / 8;
    DivModUnique(7 - x, 8, -q, 7 - x % 8);
  }

  /** Setting one mask bit of a byte. */
  lemma OrMask(b: bv8, i: nat, j: nat)
    requires i < 8 && j < 8
    ensures ((b | Mask(i)) & Mask(j) != 0) == (i == j || b & Mask(j) != 0)
  {
  }

  /** Clearing one mask bit of a byte. */
  lemma AndNotMask(b: bv8, i: nat, j: nat)
    requires i < 8 && j < 8
    ensures ((b & !Mask(i)) & Mask(j) != 0) == (i != j && b & Mask(j) != 0)
  {
  }

  /** `(b >>> k) & 1` tests the mask bit k. */
  lemma ShiftAndOne(b: bv8, k: nat)
    requires k < 8
    ensures ((b >> k) & 1 != 0) == (b & Mask(k) != 0)
  {
  }

  /** `(b >> k) & 1` as a number is 1 exactly when mask bit k is set. */
  lemma ShiftAndOneValue(b: bv8, k: nat)
    requires k < 8
    ensures ((b >> k) & 1) as nat == if b & Mask(k) != 0 then 1 else 0
  {
    ShiftAndOne(b, k);
    var s := (b >> k) & 1;
    assert s == 0 || s == 1;
  }

  /** Reading bit address `x` as `(byte >> k) & 1`. */
  lemma MemBitsGet(mem: seq<bv8>, o: EnumBitNumbering, x: nat, k: nat)
    requires k == BitInByte(o, x) && x / 8 < |mem|
    ensures (if BitAt(MemBits(mem, o), x) then 1 else 0) == ((mem[x / 8] >> k) & 1) as nat
  {
    ShiftAndOneValue(mem[x / 8], k);
    MemBitsIndex(mem, o, x);
  }

  /** Within one byte, different bit addresses have different positions. */
  lemma BitInByteInjective(o: EnumBitNumbering, x: nat, y: nat)
    requires x / 8 == y / 8 && x != y
    ensures BitInByte(o, x) != BitInByte(o, y)
  {
  }

  /** A bit in another byte than the one replaced is unchanged. */
  lemma MemBitOtherByte(mem: seq<bv8>, o: EnumBitNumbering, x: nat, nb: bv8, y: nat)
    requires x / 8 < |mem| && y < 8 * |mem| && y / 8 != x / 8
    ensures MemBit(mem[x / 8 := nb], o, y) == MemBit(mem, o, y)
  {
    assert mem[x / 8 := nb][y / 8] == mem[y / 8];
  }

  /** Another bit of the byte replaced keeps its value when the new byte
      agrees with the old one there. */
  lemma MemBitSameByte(mem: seq<bv8>, o: EnumBitNumbering, x: nat, nb: bv8, y: nat)
    requires x / 8 < |mem| && y / 8 == x / 8
    requires (nb & Mask(BitInByte(o, y)) != 0) == (mem[x / 8] & Mask(BitInByte(o, y)) != 0)
    ensures MemBit(mem[x / 8 := nb], o, y) == MemBit(mem, o, y)
  {
  }

  /** Replacing the byte that holds bit `x` by one that differs from it
      only in that bit changes bit `x` and no other bit. */
  lemma MemBitUpdate(mem: seq<bv8>, o: EnumBitNumbering, x: nat, nb: bv8, b: bool, y: nat)
    requires x / 8 < |mem| && y < 8 * |mem|
    requires nb & Mask(BitInByte(o, x)) != 0 <==> b
    requires forall j: nat | j < 8 && j != BitInByte(o, x) :: (nb & Mask(j) != 0) == (mem[x / 8] & Mask(j) != 0)
    ensures MemBit(mem[x / 8 := nb], o, y) == if y == x then b else MemBit(mem, o, y)
  {
    if y / 8 != x / 8 {
      MemBitOtherByte(mem, o, x, nb, y);
    } else if y != x {
      BitInByteInjective(o, x, y);
      MemBitSameByte(mem, o, x, nb, y);
    }
  }

  lemma MemBitsUpdate(mem: seq<bv8>, o: EnumBitNumbering, x: nat, nb: bv8, b: bool)
    requires x / 8 < |mem|
    requires nb & Mask(BitInByte(o, x)) != 0 <==> b
    requires forall j: nat | j < 8 && j != BitInByte(o, x) :: (nb & Mask(j) != 0) == (mem[x / 8] & Mask(j) != 0)
    ensures MemBits(mem[x / 8 := nb], o) == MemBits(mem, o)[x := b]
  {
    var r, s := MemBits(mem[x / 8 := nb], o), MemBits(mem, o)[x := b];
    forall y | 0 <= y < |r|
      ensures r[y] == s[y]
    {
      MemBitsIndex(mem[x / 8 := nb], o, y);
      MemBitsIndex(mem, o, y);
      MemBitUpdate(mem, o, x, nb, b, y);
    }
  }

  /** The or-mask sets mask bit k and keeps the others. */
  lemma OrMaskBits(b: bv8, k: nat)
    requires k < 8
    ensures (b | Mask(k)) & Mask(k) != 0
    ensures forall j: nat | j < 8 && j != k :: ((b | Mask(k)) & Mask(j) != 0) == (b & Mask(j) != 0)
  {
    forall j: nat | j < 8
      ensures ((b | Mask(k)) & Mask(j) != 0) == (j == k || b & Mask(j) != 0)
    {
      OrMask(b, k, j);
    }
  }

  /** The and-not-mask clears mask bit k and keeps the others. */
  lemma AndNotMaskBits(b: bv8, k: nat)
    requires k < 8
    ensures (b & !Mask(k)) & Mask(k) == 0
    ensures forall j: nat | j < 8 && j != k :: ((b & !Mask(k)) & Mask(j) != 0) == (b & Mask(j) != 0)
  {
    forall j: nat | j < 8
      ensures ((b & !Mask(k)) & Mask(j) != 0) == (j != k && b & Mask(j) != 0)
    {
      AndNotMask(b, k, j);
    }
  }

  /** The or-mask store sets bit `x`. */
  lemma MemBitsOr(mem: seq<bv8>, o: EnumBitNumbering, x: nat, nb: bv8)
    requires x / 8 < |mem| && nb == mem[x / 8] | Mask(BitInByte(o, x))
    ensures MemBits(mem[x / 8 := nb], o) == UpdateBit(MemBits(mem, o), x, true)
  {
    OrMaskBits(mem[x / 8], BitInByte(o, x));
    MemBitsUpdate(mem, o, x, nb, true);
  }

  /** The and-not-mask store clears bit `x`. */
  lemma MemBitsAndNot(mem: seq<bv8>, o: EnumBitNumbering, x: nat, nb: bv8)
    requires x / 8 < |mem| && nb == mem[x / 8] & !Mask(BitInByte(o, x))
    ensures MemBits(mem[x / 8 := nb], o) == UpdateBit(MemBits(mem, o), x, false)
  {
    AndNotMaskBits(mem[x / 8], BitInByte(o, x));
    MemBitsUpdate(mem, o, x, nb, false);
  }

  /** `k` zero bytes. */
  function Zeros(k: nat): (z: seq<bv8>)
    ensures |z| == k && forall i | 0 <= i < k :: z[i] == 0
  {
    seq(k, _ => 0)
  }

  /** Zero bytes appended to memory are zero bits appended to its bit string. */
  lemma MemBitsAppendZeros(mem: seq<bv8>, o: EnumBitNumbering, k: nat)
    ensures MemBits(mem + Zeros(k), o) == MemBits(mem, o) + seq(8 * k, _ => false)
  {
    var r, s := MemBits(mem + Zeros(k), o), MemBits(mem, o) + seq(8 * k, _ => false);
    forall y | 0 <= y < |r|
      ensures r[y] == s[y]
    {
      MemBitsIndex(mem + Zeros(k), o, y);
      if y < 8 * |mem| {
        MemBitsIndex(mem, o, y);
        assert y / 8 < |mem|;
      } else {
        assert y / 8 >= |mem|;
      }
    }
  }

  /** Zero bytes put in front of memory are zero bits put in front of its
      bit string, as long as a whole number of bytes is added. */
  lemma MemBitsPrependZeros(mem: seq<bv8>, o: EnumBitNumbering, k: nat)
    ensures MemBits(Zeros(k) + mem, o) == seq(8 * k, _ => false) + MemBits(mem, o)
  {
    var r, s := MemBits(Zeros(k) + mem, o), seq(8 * k, _ => false) + MemBits(mem, o);
    forall y | 0 <= y < |r|
      ensures r[y] == s[y]
    {
      MemBitsIndex(Zeros(k) + mem, o, y);
      if y >= 8 * k {
        var z := y - 8 * k;
        MemBitsIndex(mem, o, z);
        assert y / 8 == k + z / 8 && y % 8 == z % 8;
      }
    }
  }

  function BitValue(b: bool): nat
  {
    if b then 1 else 0
  }

  /** The weighted sum of the eight mask bits of a byte, bit k weighing 2^k. */
  function MaskSum(b: bv8): nat
  {
    BitValue(b & Mask(0) != 0) + 2 * BitValue(b & Mask(1) != 0) + 4 * BitValue(b & Mask(2) != 0)
    + 8 * BitValue(b & Mask(3) != 0) + 16 * BitValue(b & Mask(4) != 0) + 32 * BitValue(b & Mask(5) != 0)
    + 64 * BitValue(b & Mask(6) != 0) + 128 * BitValue(b & Mask(7) != 0)
  }

  /** A byte's value is the weighted sum of its mask bits. */
  lemma ByteValue(b: bv8)
    ensures b as int == MaskSum(b)
  {
  }

  /** The first of `n` bits read weighs 1, the rest twice their reading. */
  lemma ReadFirstBit(m: seq<bool>, a: nat, n: nat, a': nat, n': nat, rest: nat)
    requires a < |m| && n > 0 && a' == a + 1 && n' == n - 1 && rest == ReadBits(m, a', n')
    ensures ReadBits(m, a, n) == BitValue(m[a]) + 2 * rest
  {
  }

  /** The mask bits of a byte, least significant first. */
  function Spelled(b: bv8): (s: seq<bool>)
    ensures |s| == 8
  {
    seq(8, j requires 0 <= j < 8 => b & Mask(j) != 0)
  }

  /** Eight bits read from address 0, the first least significant. */
  lemma ReadEight(s: seq<bool>)
    requires |s| >= 8
    ensures ReadBits(s, 0, 8)
         == BitValue(s[0]) + 2 * BitValue(s[1]) + 4 * BitValue(s[2]) + 8 * BitValue(s[3])
          + 16 * BitValue(s[4]) + 32 * BitValue(s[5]) + 64 * BitValue(s[6]) + 128 * BitValue(s[7])
  {
    ReadFirstBit(s, 7, 1, 8, 0, 0);
    ReadFirstBit(s, 6, 2, 7, 1, ReadBits(s, 7, 1));
    ReadFirstBit(s, 5, 3, 6, 2, ReadBits(s, 6, 2));
    ReadFirstBit(s, 4, 4, 5, 3, ReadBits(s, 5, 3));
    ReadFirstBit(s, 3, 5, 4, 4, ReadBits(s, 4, 4));
    ReadFirstBit(s, 2, 6, 3, 5, ReadBits(s, 3, 5));
    ReadFirstBit(s, 1, 7, 2, 6, ReadBits(s, 2, 6));
    ReadFirstBit(s, 0, 8, 1, 7, ReadBits(s, 1, 7));
  }

  /** The mask bits of a byte, spelled out, weigh as the byte's mask-bit sum. */
  lemma SpelledSum(b: bv8)
    ensures var s := Spelled(b);
      BitValue(s[0]) + 2 * BitValue(s[1]) + 4 * BitValue(s[2]) + 8 * BitValue(s[3])
      + 16 * BitValue(s[4]) + 32 * BitValue(s[5]) + 64 * BitValue(s[6]) + 128 * BitValue(s[7])
      == MaskSum(b)
  {
    var s := Spelled(b);
    assert s[0] == (b & Mask(0) != 0) && s[1] == (b & Mask(1) != 0);
    assert s[2] == (b & Mask(2) != 0) && s[3] == (b & Mask(3) != 0);
    assert s[4] == (b & Mask(4) != 0) && s[5] == (b & Mask(5) != 0);
    assert s[6] == (b & Mask(6) != 0) && s[7] == (b & Mask(7) != 0);
  }

  /** A byte spelled out least significant bit first reads back as the byte. */
  lemma ReadSpelled(b: bv8)
    ensures ReadBits(Spelled(b), 0, 8) == b as nat
  {
    ReadEight(Spelled(b));
    SpelledSum(b);
    ByteValue(b);
  }

  /** Reading depends only on the bits read. */
  lemma {:induction false} ReadSameBits(m: seq<bool>, a: nat, s: seq<bool>, c: nat, n: nat)
    requires a + n <= |m| && c + n <= |s| && m[a..a + n] == s[c..c + n]
    ensures ReadBits(m, a, n) == ReadBits(s, c, n)
    decreases n
  {
    if n > 0 {
      assert m[a] == m[a..a + n][0] && s[c] == s[c..c + n][0];
      assert m[a + 1..a + n] == m[a..a + n][1..] && s[c + 1..c + n] == s[c..c + n][1..];
      ReadSameBits(m, a + 1, s, c + 1, n - 1);
    }
  }

  /** Bit j of byte k, as the bit numbering places it. */
  lemma ByteBit(mem: seq<bv8>, o: EnumBitNumbering, k: nat, j: nat)
    requires k < |mem| && j < 8
    ensures MemBit(mem, o, 8 * k + j) == (mem[k] & Mask(if o == LSB then j else 7 - j) != 0)
  {
    DivModUnique(8 * k + j, 8, k, j);
  }

  /** In LSB numbering bit j of byte k is mask bit j of the byte. */
  lemma LsbByteBit(mem: seq<bv8>, k: nat, j: nat)
    requires k < |mem| && j < 8
    ensures MemBits(mem, LSB)[8 * k + j] == (mem[k] & Mask(j) != 0)
  {
    MemBitsIndex(mem, LSB, 8 * k + j);
    ByteBit(mem, LSB, k, j);
  }

  /** In LSB numbering the eight bits of byte k read back as the byte. */
  lemma ReadByteLSB(mem: seq<bv8>, k: nat)
    requires k < |mem|
    ensures ReadBits(MemBits(mem, LSB), 8 * k, 8) == mem[k] as nat
  {
    var m := MemBits(mem, LSB);
    forall j: nat | j < 8
      ensures m[8 * k..8 * k + 8][j] == Spelled(mem[k])[j]
    {
      LsbByteBit(mem, k, j);
    }
    ReadSameBits(m, 8 * k, Spelled(mem[k]), 0, 8);
    ReadSpelled(mem[k]);
  }

  /** In MSB numbering bit j of byte k is bit j of the reversed byte. */
  lemma MsbByteBit(mem: seq<bv8>, k: nat, j: nat)
    requires k < |mem| && j < 8
    ensures MemBits(mem, MSB)[8 * k + j] == (ReverseByte(mem[k]) & Mask(j) != 0)
  {
    MemBitsIndex(mem, MSB, 8 * k + j);
    ByteBit(mem, MSB, k, j);
  }

  /** In MSB numbering they read back as the byte with its bits reversed. */
  lemma ReadByteMSB(mem: seq<bv8>, k: nat)
    requires k < |mem|
    ensures ReadBits(MemBits(mem, MSB), 8 * k, 8) == ReverseByte(mem[k]) as nat
  {
    var m := MemBits(mem, MSB);
    forall j: nat | j < 8
      ensures m[8 * k..8 * k + 8][j] == Spelled(ReverseByte(mem[k]))[j]
    {
      MsbByteBit(mem, k, j);
    }
    ReadSameBits(m, 8 * k, Spelled(ReverseByte(mem[k])), 0, 8);
    ReadSpelled(ReverseByte(mem[k]));
  }
}
